=== FILE: README.md ===
# Tweet validator: a Dafny model of its models, evaluation and data preparation

The repository trains one binary classifier per Twitter user. A classifier
labels a tweet `True` ("fraudulent": not written by the user) or `False`
("authentic"). This project models the parts that decide those labels and
the parts that measure them:

- **Models.** The base model's hyperparameter handling. The averaged
  cosine-similarity model: one normalised mean embedding and a threshold.
  The clustered cosine-similarity model: normalised k-means centroids, with
  a tweet authentic as soon as one centroid is similar enough. The term
  frequency / TF-IDF model. The random-forest model's training-set
  construction.
- **Evaluation.** Both versions of `evaluate_model`. Each loads the `@`-files
  of a directory and splits the rows into train and test. It then builds one
  model per user and threshold, and tabulates confusion matrices and
  true/false-positive rates. The older version splits by shuffling and
  cutting at half. The newer version uses `train_test_split` and also sums
  the matrices over users.
- **Training.** `train_models`. For each user it trains on own rows against
  other users' rows, labels the user's test rows and an equal number of
  other rows, and reports the confusion matrix and rates.
- **Data preparation.** The tweet filter: regular-expression deletion,
  `strip()`, then a length gate, over every `@`-file. This covers the two
  current copies and the older `filterTweets`.
- **Configuration.** `get_config`: the default configuration path and the
  rewriting of every `_path` key to an absolute path. This needs a model of
  `os.path.join`, `normpath`, `abspath`, `dirname` and `basename`.

The code has near-identical copies, and each pair shares one definition
here. The two `tfidf_model.py` files differ in docstrings, in importing the
base class relatively (`from .base_model`, line 13) or not, and in the
older copy's constructor setting `params` and `use_context` after a long
docstring; the statements are the same and in the same order. The two current
`filter_tweets.py` files differ in docstrings, in the `input_directory` slip
of line 61 (see Findings), and in the `__main__` block that only
`source/data_processing/filter_tweets.py` has (lines 68-92). That block
reads the configuration and calls the filter on the directories it names;
it is I/O and left out, except that it binds the name line 61 reads.

Modelling choices:

- Vectors are sequences of reals. `np.sqrt` is a parameter constrained by
  `IsSqrt`.
- numpy's NaN is explicit:
  - a rate is `Score = Num(value) | NaN`;
  - a normalised vector is `Direction = Unit(v) | Undefined(dim)`, the
    latter for the 0/0 of an all-zero vector;
  - comparisons with NaN are false, as in numpy.
- Library components are function parameters. These are k-means, the
  vectorizer's fit and analyzer, the random-forest predictor, `re.sub`, the
  directory listing, file reading and JSON loading.
- Seeded shuffles are given permutations.
- Python exceptions are values of `Wrappers.Result`.

Modules:

| module | what it models |
|---|---|
| `Wrappers` | Option/Result and the error kinds |
| `Vectors` | mean, normalisation, inner product |
| `Permutations` | seeded reorderings |
| `Hyperparameters` | the base model |
| `AveragedCosSim`, `ClusteredCosSim`, `Tfidf`, `RandomForest` | the four models |
| `Confusion` | `confusion_matrix` and the rates |
| `Dataset` | loading and splitting |
| `Evaluation` | the newer `evaluate_model` |
| `LegacyEvaluation` | the older `evaluate_model` script |
| `Training` | `train_models` |
| `Filters` | the filter scripts |
| `Strings`, `Paths` | the `str` and `os.path` operations used |
| `Config` | `get_config` |

## Model

| member | source | states |
|---|---|---|
| Hyperparameters.SetHyperparameters | source/models/base_model.py:25-27 | The given dictionary replaces the old one whole: a key not given is gone afterwards, and calling it without an argument leaves an empty dictionary |
| Hyperparameters.ReadThreshold | tweetvalidator/models/clustered_cos_sim_model.py:52 | `params['threshold']` succeeds exactly when the key is present, and otherwise raises `KeyError('threshold')` |
| Hyperparameters.DefaultThresholdReads | source/models/averaged_cosine_sim_model.py:33 | A freshly built model's threshold reads 0.3 |
| Hyperparameters.ThresholdAfterSet | source/models/base_model.py:25-27 | After `set_hyperparameters({'threshold': t})` the threshold reads t; after `set_hyperparameters()` reading it raises KeyError |
| Hyperparameters.ReplacementDropsThreshold | source/models/base_model.py:25-27 | Setting any dictionary without a threshold makes every later threshold read fail, whatever was set before |
| Hyperparameters.NewBaseModel | source/models/base_model.py:14-23 | The base constructor stores nothing, so the model has no `params` yet |
| Hyperparameters.BaseSetHyperparameters | source/models/base_model.py:25-27 | The base model has `params` afterwards: the given dictionary, or an empty one when none is given, whatever it held before |
| Hyperparameters.BaseInfer | source/models/base_model.py:29-32 | The base model's `infer` yields no predictions (None) |
| Vectors.Mean | source/models/averaged_cosine_sim_model.py:27-28 | The column-wise mean: every coordinate is that column's sum divided by the number of vectors |
| Vectors.Normalize | source/models/averaged_cosine_sim_model.py:29-31 | The result is undefined (NaN) exactly for the zero vector; otherwise it is a unit vector that, scaled back by the norm, gives the input |
| Vectors.Similarity | source/models/averaged_cosine_sim_model.py:45-46 | The inner product with a NaN direction is NaN, and with a unit vector is a number |
| Vectors.NormalizedIsUnit | source/models/averaged_cosine_sim_model.py:29-31 | Dividing a vector by a non-zero square root of its squared norm gives a unit vector that scales back to the vector |
| Vectors.InnerSymmetric | tweetvalidator/models/clustered_cos_sim_model.py:51 | `np.inner(cluster, tweet)` does not depend on the argument order |
| Vectors.InnerSelfZero | source/models/averaged_cosine_sim_model.py:29-31 | A squared norm is never negative, and is zero exactly for the zero vector |
| Vectors.MeanOfCopies | source/models/averaged_cosine_sim_model.py:27-28 | The mean of n copies of a vector is that vector |
| Vectors.NormalizeUnitVector | tweetvalidator/models/clustered_cos_sim_model.py:33-34 | Normalising a vector that is already a unit vector gives it back |
| AveragedCosSim.NewAvgModel | source/models/averaged_cosine_sim_model.py:19-33 | The signature is the normalised mean of the corpus. It is NaN exactly when the mean is zero, and otherwise a unit vector scaling back to the mean. The threshold defaults to 0.3 |
| AveragedCosSim.AvgSetHyperparameters | source/models/base_model.py:25-27 | Setting hyperparameters keeps the signature and replaces `params` |
| AveragedCosSim.AvgInfer | source/models/averaged_cosine_sim_model.py:45-47 | One label per tweet: fraudulent iff the similarity to the signature is below the threshold. The threshold is read, and can raise KeyError, only when there is a tweet |
| AveragedCosSim.AvgTieIsAuthentic | source/models/averaged_cosine_sim_model.py:46 | A tweet whose similarity equals the threshold is authentic, since the comparison is strict |
| AveragedCosSim.AvgFlagsMonotone | source/models/averaged_cosine_sim_model.py:45-47 | Raising the threshold never turns a fraudulent label into an authentic one |
| AveragedCosSim.CopiesOfUnitVector | source/models/averaged_cosine_sim_model.py:27-31 | A corpus of copies of one unit vector has that vector as signature and similarity 1 to it |
| AveragedCosSim.ZeroMeanNeverFlags | source/models/averaged_cosine_sim_model.py:29-31 | When the corpus averages to zero the signature is NaN, every comparison is false, and no tweet is ever labelled fraudulent, whatever the threshold |
| ClusteredCosSim.NewClusteredModel | tweetvalidator/models/clustered_cos_sim_model.py:20-34 | Without an embedded corpus construction fails. Otherwise there is one normalised centroid per cluster of the k-means fit (NaN for a zero centre), and the threshold defaults to 0.3 |
| ClusteredCosSim.ClusteredSetHyperparameters | source/models/base_model.py:25-27 | Setting hyperparameters keeps the centroids and replaces `params` |
| ClusteredCosSim.Predictions | tweetvalidator/models/clustered_cos_sim_model.py:47-58 | One label per tweet: fraudulent iff no centroid's similarity exceeds the threshold, so with no centroids every tweet is fraudulent. The threshold is read, and can raise KeyError, only when a tweet meets a centroid |
| ClusteredCosSim.ClusteredInfer | tweetvalidator/models/clustered_cos_sim_model.py:38-58 | The nested loop with `break` and `for ... else` yields exactly the predictions described above |
| ClusteredCosSim.ClusteredTieIsFraud | tweetvalidator/models/clustered_cos_sim_model.py:52 | A tweet whose best similarity equals the threshold is fraudulent, since the comparison is strict |
| ClusteredCosSim.ClusteredFlagsMonotone | tweetvalidator/models/clustered_cos_sim_model.py:47-58 | Raising the threshold never turns a fraudulent label into an authentic one |
| ClusteredCosSim.CentroidOrderIrrelevant | tweetvalidator/models/clustered_cos_sim_model.py:50-56 | Permuting the centroids changes no prediction: the early `break` only saves work |
| ClusteredCosSim.OrthogonalTweetFlagged | tweetvalidator/models/clustered_cos_sim_model.py:47-58 | With a non-negative threshold, a tweet orthogonal to every centroid is fraudulent |
| Tfidf.NewTfidfModel | src/tweetvalidator/models/tfidf_model.py:23-26 | The model keeps `use_context`, its threshold reads 0.3, and it has no characterisation yet |
| Tfidf.JoinSpace | src/tweetvalidator/models/tfidf_model.py:42-43 | `' '.join`: the parts' lengths plus one separator between each two, starting with the first part |
| Tfidf.Documents | src/tweetvalidator/models/tfidf_model.py:38-50 | Without context, one document: the joined corpus. With context, two documents, the second the joined corpus directly followed by the joined context. A missing context fails |
| Tfidf.Characterize | src/tweetvalidator/models/tfidf_model.py:28-52 | The stored weights are the user document's fitted row and the stored names are the fitted vocabulary. Fitting fails exactly on an empty vocabulary or a missing context |
| Tfidf.Count | src/tweetvalidator/models/tfidf_model.py:65-68 | A term's count is positive exactly when it occurs among the tweet's terms |
| Tfidf.TermCounts | src/tweetvalidator/models/tfidf_model.py:65-68 | One non-negative count per vocabulary term, positive exactly for the terms that occur |
| Tfidf.TermRow | src/tweetvalidator/models/tfidf_model.py:65-68 | The normalised term-frequency row is non-negative and positive exactly at the vocabulary terms the tweet contains |
| Tfidf.SimilarityScore | src/tweetvalidator/models/tfidf_model.py:54-70 | One score per tweet, the dot product of its row with the stored weights. Scoring an uncharacterised model fails with AttributeError, and an empty tweet list with ValueError, since the transformer has no sample to fit |
| Tfidf.TfidfInfer | src/tweetvalidator/models/tfidf_model.py:73-84 | A tweet is fraudulent iff its score is below the threshold. An uncharacterised model fails with AttributeError, an empty tweet list with ValueError, a missing threshold with KeyError; a characterised model fails exactly in the last two cases |
| Tfidf.CountIgnoresOtherTerms | src/tweetvalidator/models/tfidf_model.py:65-66 | Appending terms other than t leaves t's count unchanged |
| Tfidf.OutOfVocabularyTermsIgnored | src/tweetvalidator/models/tfidf_model.py:65-70 | Words outside the fitted vocabulary do not change a tweet's score |
| Tfidf.OutOfVocabularyScoresZero | src/tweetvalidator/models/tfidf_model.py:65-70 | A tweet with no vocabulary word scores 0 |
| Tfidf.OutOfVocabularyFlagged | src/tweetvalidator/models/tfidf_model.py:73-84 | With a positive threshold, a tweet with no vocabulary word is fraudulent |
| Tfidf.InVocabularyBeatsOutOfVocabulary | src/tweetvalidator/models/tfidf_model.py:54-70 | With non-negative weights, a tweet sharing a positively weighted word with the user outscores one sharing none |
| RandomForest.NewRandomForestModel | src/tweetvalidator/models/random_forest_model.py:18-20 | A new model keeps `verbose`, is not characterised and has no classifier |
| RandomForest.Characterize | src/tweetvalidator/models/random_forest_model.py:22-41 | Characterising fails with ValueError exactly when the corpus or the context is empty: with one side empty `np.concatenate` meets arrays of different dimension, and with both empty `fit` rejects the empty array. Otherwise the training set is the corpus labelled 1, then min(|corpus|, |context|) shuffled context rows labelled 0, and characterisation is complete |
| RandomForest.RandomForestInfer | src/tweetvalidator/models/random_forest_model.py:43-51 | Before characterisation predicting fails with AttributeError for `clf`; afterwards it fails with ValueError on an empty tweet list and is otherwise the fitted classifier's prediction |
| RandomForest.CompletionFlagTracksTraining | src/tweetvalidator/models/random_forest_model.py:18-51 | A new model is incomplete and cannot predict. Characterised on non-empty inputs it is complete, and then predicts exactly for a non-empty tweet list |
| RandomForest.NegativesDrawnFromContext | src/tweetvalidator/models/random_forest_model.py:28-33 | The negative examples are drawn from the context without repetition, so they form a sub-multiset of it |
| Permutations.Reorder | src/tweetvalidator/models/random_forest_model.py:29 | A seeded shuffle puts at each position the element the permutation names |
| Permutations.ReorderIsPermutation | src/tweetvalidator/models/random_forest_model.py:29 | A shuffle neither loses nor duplicates an element |
| Confusion.CountLabel | tweetvalidator/models/evaluate_model.py:69-70 | A count of labels, at most the length (its meaning is fixed by the next row and by Confusion.LabelsSplit) |
| Confusion.CountLabelPositive | tweetvalidator/models/evaluate_model.py:69-70 | A label's count is positive exactly when the label occurs |
| Confusion.CountPairs | tweetvalidator/models/evaluate_model.py:69-70 | The number of positions with truth a and prediction b: at most the length, the count of truths a and the count of predictions b |
| Confusion.RowSum | tweetvalidator/models/evaluate_model.py:69-70 | A truth label's two pair counts add up to that label's count among the truths |
| Confusion.ColumnSum | tweetvalidator/models/evaluate_model.py:69-70 | A prediction label's two pair counts add up to that label's count among the predictions |
| Confusion.LabelsSplit | tweetvalidator/models/evaluate_model.py:69-70 | Every label is one of the two: the two counts add up to the length |
| Confusion.ConfusionMatrix | tweetvalidator/models/evaluate_model.py:69-70 | `confusion_matrix` with a label order: the entries sum to the number of rows, row sums count the truths and column sums count the predictions |
| Confusion.RowAndColumnSums | tweetvalidator/models/evaluate_model.py:69-70 | Each truth value's pairs add up to its count and each prediction value's pairs to its count |
| Confusion.CountPairsAppend | src/tweetvalidator/train_models.py:135-136 | Pair counts of concatenated vectors are the sums of the parts' counts |
| Confusion.ConfusionOfConcatenation | src/tweetvalidator/train_models.py:135-145 | The matrix of concatenated data is the sum of the parts' matrices |
| Confusion.CountPairsMonotone | tweetvalidator/models/evaluate_model.py:69-70 | If every prediction b stays b in a second prediction vector, no pair count (a, b) falls |
| Confusion.FirstColumnMonotone | tweetvalidator/models/evaluate_model.py:69-70 | Predicting the first label in more places never lowers the first column |
| Confusion.TPR | tweetvalidator/models/evaluate_model.py:73 | `c[0,0]/(c[0,0]+c[0,1])`: NaN exactly for an empty first row, otherwise the first row's share in the first column, in [0, 1] |
| Confusion.FPR | tweetvalidator/models/evaluate_model.py:74 | `c[1,0]/(c[1,0]+c[1,1])`: NaN exactly for an empty second row, otherwise the second row's share in the first column, in [0, 1] |
| Confusion.RateOfCounts | source/models/evaluate_model.py:57-58 | hit/(hit+miss): NaN exactly when both are 0, otherwise the share of hits, in [0, 1] |
| Confusion.RateMonotone | source/models/evaluate_model.py:57-58 | Over the same total, more hits never give a lower rate |
| Confusion.RatesGrow | tweetvalidator/models/evaluate_model.py:73-74 | When a matrix grows (first column up, row sums fixed) neither rate falls and neither changes between NaN and a number |
| Confusion.MatrixGrows | tweetvalidator/models/evaluate_model.py:69-70 | Predicting the first label in more places makes the matrix grow |
| Confusion.RatesOfConfusion | tweetvalidator/models/evaluate_model.py:69-74 | TPR is the share of first-label truths predicted first, FPR that of the other truths; each is NaN exactly when its truth label is absent |
| Dataset.UserName | src/tweetvalidator/train_models.py:37 | `file.split('.')[0]`: the longest dot-free prefix of the file name |
| Dataset.Frame | src/tweetvalidator/train_models.py:35-37 | One row per entry of the file, carrying its tweet, date and embedding and the file's user name |
| Dataset.Concat | src/tweetvalidator/train_models.py:32-40 | The concatenated frame has one row per entry of every `@`-file |
| Dataset.ConcatRowsNamed | src/tweetvalidator/train_models.py:33-37 | Every loaded row is named after some `@`-file of the directory |
| Dataset.LoadRows | src/tweetvalidator/train_models.py:32-40 | Loading fails with ValueError when some `@`-file holds no entries, since naming three columns of a column-less frame raises; otherwise with no `@`-file at all, as `pd.concat([])` raises. Otherwise it yields the concatenated frames, at least one row per `@`-file |
| Dataset.EntriesCoverHandles | src/tweetvalidator/train_models.py:32-40 | When no `@`-file is empty, there are at least as many rows as `@`-files |
| Dataset.NonHandleFilesIgnored | src/tweetvalidator/train_models.py:34 | A file whose name does not start with `@` contributes nothing |
| Dataset.SplitIndex | source/models/evaluate_model.py:36 | `int(frac * n)`: the greatest whole number not above frac·n, at most n |
| Dataset.SampleAndSplit | source/models/evaluate_model.py:35-36 | Shuffle, then cut: the first part has `int(frac·n)` rows, the parts together are the shuffled rows |
| Dataset.HalfSplit | source/models/evaluate_model.py:35-36 | The older default fraction 0.5 puts ⌊n/2⌋ rows in the training part |
| Dataset.SplitIsPartition | source/models/evaluate_model.py:35-36 | Train and test together hold exactly the loaded rows |
| Dataset.Ceil | src/tweetvalidator/train_models.py:42-43 | The least integer not below x |
| Dataset.TrainTestSplit | src/tweetvalidator/train_models.py:42-43 | `train_test_split`: ⌈test_size·n⌉ shuffled rows go to the test part, the rest to the training part. It fails exactly when that would leave no training row |
| Dataset.TrainTestSplitIsPartition | src/tweetvalidator/train_models.py:42-43 | Train and test together hold exactly the loaded rows |
| Dataset.FirstIndex | tweetvalidator/models/evaluate_model.py:105 | The position of a name's first row: that row carries the name and no earlier row does |
| Dataset.UniqueNames | tweetvalidator/models/evaluate_model.py:105 | `unique()`: no name twice, a name is listed iff some row carries it, and the names come in the order of their first rows |
| Dataset.UniqueFrom | tweetvalidator/models/evaluate_model.py:105 | Extending a duplicate-free list keeps it duplicate-free and as a prefix, and appends exactly the rows' new names in the order of their first rows |
| Dataset.UniqueFromStep | tweetvalidator/models/evaluate_model.py:105 | A name new at the first row comes before every name first seen later |
| Dataset.Embeddings | tweetvalidator/models/evaluate_model.py:63 | The embedding column, row by row |
| Dataset.IsFraud | tweetvalidator/models/evaluate_model.py:119 | A row is fraudulent for a user iff another user wrote it |
| Dataset.UserEmbeddings | tweetvalidator/models/evaluate_model.py:121-122 | The user's training embeddings: exactly the embeddings of the user's rows, in row order and one per row, so empty iff the user has no row |
| Dataset.Own | src/tweetvalidator/train_models.py:101-103 | The user's rows, in order |
| Dataset.Others | src/tweetvalidator/train_models.py:108-118 | The other users' rows, in order |
| Dataset.UserEmbeddingsDim | tweetvalidator/models/evaluate_model.py:121-122 | Selecting a user's rows keeps the embedding dimension |
| Evaluation.UserModel | tweetvalidator/models/evaluate_model.py:121-126 | The four-cluster model fails exactly when the user has fewer than four training rows, as k-means needs as many samples as clusters |
| Evaluation.Flags | tweetvalidator/models/evaluate_model.py:63-65 | A test row is predicted fraudulent iff no centroid's similarity exceeds the threshold |
| Evaluation.FraudMatrix | tweetvalidator/models/evaluate_model.py:50-70 | The matrix with labels `[True, False]`: its rows count the fraudulent and the user's own test rows, and its first column the rows flagged |
| Evaluation.RoundHalfEven | tweetvalidator/models/evaluate_model.py:73-74 | Rounds to a nearest integer |
| Evaluation.Round2 | tweetvalidator/models/evaluate_model.py:73-74 | `np.round(x, 2)`: within 0.005 of x, with at most two decimals |
| Evaluation.RoundScore | tweetvalidator/models/evaluate_model.py:73-74 | Rounding keeps NaN as NaN and moves a number by at most 0.005 |
| Evaluation.Round2Monotone | tweetvalidator/models/evaluate_model.py:73-74 | Rounding to two decimals preserves order |
| Evaluation.Round2UnitInterval | tweetvalidator/models/evaluate_model.py:73-74 | A rate in [0, 1] stays in [0, 1] when rounded |
| Evaluation.Step | tweetvalidator/models/evaluate_model.py:135-140 | One threshold's bookkeeping keeps the user present in both per-user tables |
| Evaluation.InnerLoop | tweetvalidator/models/evaluate_model.py:112-140 | The threshold loop adds no user to either per-user table and removes none, and leaves every other user's entries unchanged |
| Evaluation.InnerLoopTabulates | tweetvalidator/models/evaluate_model.py:109-140 | Starting from the user's fresh empty list and table, the loop leaves the list holding the user's points in threshold order and the table mapping exactly the listed thresholds to the user's matrices |
| Evaluation.Points | tweetvalidator/models/evaluate_model.py:135-137 | One rounded (threshold, TPR, FPR) tuple per threshold |
| Evaluation.InnerLoopRates | tweetvalidator/models/evaluate_model.py:112-137 | The user's rate list gets one tuple per threshold, in order, and no other user's list changes |
| Evaluation.InnerLoopUserMatrices | tweetvalidator/models/evaluate_model.py:139 | The user's matrix table holds a matrix for each threshold of the loop, and no other user's table changes |
| Evaluation.InnerLoopAccumulates | tweetvalidator/models/evaluate_model.py:114-140 | The summed matrices after one user are the sums before, with the user's matrix added once per occurrence of each threshold |
| Evaluation.AccumulateAllAt | tweetvalidator/models/evaluate_model.py:114-140 | For each t, the sum is the previous sum (zero if absent) plus the user's matrix times the number of times t occurs |
| Evaluation.AccumulateAllKeys | tweetvalidator/models/evaluate_model.py:114-115 | After one user, a threshold has a summed matrix iff it had one before or occurs in the list |
| Evaluation.InnerLoopAt | tweetvalidator/models/evaluate_model.py:112-140 | The per-threshold sum after one user's loop, threshold by threshold |
| Evaluation.ModelRun | tweetvalidator/models/evaluate_model.py:128-137 | Setting the threshold t and scoring the test rows gives the fraud matrix at t and its rounded rates |
| Evaluation.UserRun | tweetvalidator/models/evaluate_model.py:121-137 | One user's runs fail exactly when the user has fewer than four training rows |
| Evaluation.Runs | tweetvalidator/models/evaluate_model.py:105-137 | Every user is evaluated with the same train and test rows |
| Evaluation.OuterLoop | tweetvalidator/models/evaluate_model.py:105-140 | A successful loop over users keeps every table entry it started with, leaves users it does not visit unchanged, and leaves each visited user's list holding that user's points in threshold order and its table mapping exactly the listed thresholds to that user's matrices (empty for no thresholds) |
| Evaluation.OuterStep | tweetvalidator/models/evaluate_model.py:105-140 | One round of the user loop: a user met again later is re-tabulated identically, and one not met again is left as its round made it |
| Evaluation.UsersMatrix | tweetvalidator/models/evaluate_model.py:140 | The matrix summed over users is entrywise at least each evaluated user's matrix |
| Evaluation.UsersMatrixAppend | tweetvalidator/models/evaluate_model.py:140 | Summing over two lists of users adds the two sums |
| Evaluation.UsersMatrixSwap | tweetvalidator/models/evaluate_model.py:140 | The sum over users does not depend on which group of users comes first |
| Evaluation.OuterLoopFails | tweetvalidator/models/evaluate_model.py:105-140 | The loop over users fails exactly when there is a threshold and some user's model cannot be built |
| Evaluation.OuterLoopKeys | tweetvalidator/models/evaluate_model.py:112-115 | A threshold ends with a summed matrix iff it had one, or there is a user and the threshold is listed |
| Evaluation.OuterLoopAt | tweetvalidator/models/evaluate_model.py:105-140 | Each threshold's summed matrix is the sum over users of their matrices, counted once per occurrence of the threshold |
| Evaluation.SummaryFails | tweetvalidator/models/evaluate_model.py:147-151 | The final summary raises KeyError exactly when there are thresholds but no training users |
| Evaluation.Summary | tweetvalidator/models/evaluate_model.py:147-151 | One tuple per threshold from its summed matrix; a threshold without one raises KeyError |
| Evaluation.RatesIgnoreMultiplicity | tweetvalidator/models/evaluate_model.py:140 | A threshold listed k times has k times the matrix, with the same rates |
| Evaluation.ScaledRate | tweetvalidator/models/evaluate_model.py:73-74 | Scaling both counts by k > 0 leaves a rate unchanged |
| Evaluation.UsersExist | tweetvalidator/models/evaluate_model.py:105 | There is a user to evaluate iff there is a training row |
| Evaluation.EvaluateModelPerformance | tweetvalidator/models/evaluate_model.py:77-151 | Evaluation fails exactly when there is a threshold and either no training row or a training user with fewer than four rows. Otherwise every distinct training user's list holds the points of the model built on its rows, one per threshold in order, its table maps exactly the listed thresholds to that model's matrices, and the summary has one tuple per threshold, in order, from that threshold's summed matrix. The tables are what the user loop leaves from empty ones, and the points are their summary |
| Evaluation.EvaluationUserTables | tweetvalidator/models/evaluate_model.py:109-139 | For each training user, the k-th tuple is the rounded rates of the user's four-cluster model's fraud matrix at the k-th threshold, and the stored matrix at each listed threshold is that fraud matrix |
| Evaluation.OuterLoopTabulatesUsers | tweetvalidator/models/evaluate_model.py:109-139 | After the user loop over the distinct training names, every training user's list and table hold the points and matrices of the model built on that user's rows |
| Evaluation.AllModelsExist | tweetvalidator/models/evaluate_model.py:121-126 | Every user's model can be built iff every training user has at least four training rows |
| Evaluation.EvaluationAt | tweetvalidator/models/evaluate_model.py:77-151 | The summary has one tuple per threshold, the rates of the matrix summed over all users. The stored sum is that matrix times the threshold's multiplicity |
| Evaluation.FraudMatrixMonotone | tweetvalidator/models/evaluate_model.py:128-133 | For one model, raising the threshold makes the fraud matrix grow |
| Evaluation.ModelRunsGrow | tweetvalidator/models/evaluate_model.py:121-133 | For every user, raising the threshold makes that user's matrix grow |
| Evaluation.UsersMatrixMonotone | tweetvalidator/models/evaluate_model.py:140 | The matrix summed over users grows with the threshold |
| Evaluation.RatesMonotone | tweetvalidator/models/evaluate_model.py:73-74 | Rounded rates never fall as a matrix grows, and keep NaN-ness |
| Evaluation.SummaryMonotone | tweetvalidator/models/evaluate_model.py:147-151 | In the summary a higher threshold never has a lower TPR or FPR, and each is NaN at one threshold iff at the other |
| Evaluation.PointsMonotone | tweetvalidator/models/evaluate_model.py:147-151 | When a matrix grows, the tuples built from it at two thresholds have non-decreasing rates, NaN at one iff at the other |
| LegacyEvaluation.AvgUserModel | source/models/evaluate_model.py:83-87 | The user's averaged model has a NaN signature exactly when the user's training embeddings average to zero |
| LegacyEvaluation.AvgFlags | source/models/evaluate_model.py:47-49 | A test row is flagged iff its similarity to the signature is below the threshold |
| LegacyEvaluation.ComputeConfusionMatrix | source/models/evaluate_model.py:38-54 | The matrix with labels `[True, False]`: rows count fraudulent and own test rows, the first column counts flagged rows |
| LegacyEvaluation.RateRow | source/models/evaluate_model.py:92-97 | One printed line per threshold, carrying that threshold and the TPR and FPR of the user's confusion matrix at it |
| LegacyEvaluation.UserRates | source/models/evaluate_model.py:77-97 | For each threshold of the sweep, the rates of that user's model at that threshold, in order |
| LegacyEvaluation.Tables | source/models/evaluate_model.py:73-97 | One table per distinct training user, each with one line per threshold, the users ordered by their first training rows |
| LegacyEvaluation.SplitDim | source/models/evaluate_model.py:35-36 | Splitting keeps the embedding dimension in both parts |
| LegacyEvaluation.Evaluate | source/models/evaluate_model.py:61-97 | The script's run over the half split has one table per distinct user of the training half |
| LegacyEvaluation.RatesMeaning | source/models/evaluate_model.py:57-58 | TPR is the share of other users' test rows flagged, FPR the share of the user's own rows flagged; each is NaN exactly when there are no such rows |
| LegacyEvaluation.MatrixGrowsWithThreshold | source/models/evaluate_model.py:89-92 | Raising the threshold makes the matrix grow |
| LegacyEvaluation.RatesMonotone | source/models/evaluate_model.py:92-97 | A higher threshold never gives a lower TPR or FPR |
| LegacyEvaluation.UserRatesMonotone | source/models/evaluate_model.py:77-97 | Down a user's table, rates are non-decreasing in the threshold |
| LegacyEvaluation.DegenerateRates | source/models/evaluate_model.py:86-97 | A user whose embeddings average to zero gets rates of 0 (or NaN) at every threshold |
| LegacyEvaluation.NoFlagsWhenUndefined | source/models/evaluate_model.py:47-49 | With a NaN signature no test row is flagged |
| LegacyEvaluation.ZeroColumnRates | source/models/evaluate_model.py:57-58 | A matrix with an empty first column has rates 0 or NaN |
| LegacyEvaluation.NothingFlagged | source/models/evaluate_model.py:92 | An all-authentic prediction vector has no fraudulent label |
| Training.OwnOthersPartition | src/tweetvalidator/train_models.py:101-118 | Own rows and other rows together are exactly the rows |
| Training.OwnIsComplete | src/tweetvalidator/train_models.py:101-103 | Every row carrying the user's name is selected, as often as it occurs |
| Training.Column | src/tweetvalidator/train_models.py:101 | `frame[data_column]`: one entry per row, in order |
| Training.Prefix | src/tweetvalidator/train_models.py:120 | `s[:n]`: a prefix of length min(|s|, n) |
| Training.Labels | src/tweetvalidator/train_models.py:128-132 | `np.ones(n)` / `np.zeros(n)` as constant label vectors |
| Training.InferredMatrix | src/tweetvalidator/train_models.py:145-157 | Without `labels`, the matrix is 2×2 in order [0, 1] exactly when both labels occur; otherwise reading `cm[0,1]` fails, as does a length mismatch |
| Training.SelectData | src/tweetvalidator/train_models.py:101-120 | Own rows come from the main split. Other rows come from the negative split or the main one, their test part cut to the number of own test rows |
| Training.TrainUser | src/tweetvalidator/train_models.py:123-157 | A failing `characterize` fails the round with its error; after it, the first failing `infer` (own test rows, then other rows) does, and otherwise the round succeeds exactly when the matrix can be read. A successful round returns the characterised model, and its predictions are the own then the other predictions. The truths are own-count ones then other-count zeros, with one prediction each. The matrix rows count those parts, and the rates are read off it |
| Training.LabelCounts | src/tweetvalidator/train_models.py:128-136 | The truth vector holds exactly the own-count ones and the other-count zeros |
| Training.TrainUserRates | src/tweetvalidator/train_models.py:156-157 | The printed "TPR" is the share of other users' test rows predicted 0, and "FPR" the share of own test rows predicted 0; each is NaN when that part is empty |
| Training.RoundRates | src/tweetvalidator/train_models.py:135-157 | The rates of own-then-other predictions against ones-then-zeros, in terms of each part's predictions |
| Training.LabelledPairs | src/tweetvalidator/train_models.py:135-145 | Every pair count of the combined vectors is a label count of one part's predictions |
| Training.Rounds | src/tweetvalidator/train_models.py:98-157 | A successful run has one report per user |
| Training.RoundAt | src/tweetvalidator/train_models.py:98-123 | Round k runs on the model the earlier rounds left behind, since `characterize` mutates the one shared model |
| Training.UserRound | src/tweetvalidator/train_models.py:98-157 | One round is that user's data selection followed by training and scoring |
| Training.RoundsStopAt | src/tweetvalidator/train_models.py:98-123 | When every round before user k succeeds and user k's fails, the run fails with that error and no later round counts |
| Training.RoundsFailAt | src/tweetvalidator/train_models.py:98-123 | A failed run has a first failing user: the rounds before it succeed and its own fails |
| Training.CharacterizeFailureEndsRun | src/tweetvalidator/train_models.py:98-123 | If `characterize` fails for user k after the earlier rounds succeeded, the whole run fails with that error |
| Training.ReportsInOrder | src/tweetvalidator/train_models.py:98 | The k-th report belongs to the k-th user |
| Training.TrainModels | src/tweetvalidator/train_models.py:84-98 | A missing output directory (the default `None`) fails with TypeError at the `os.path.join` before anything is loaded. Otherwise a failed split fails the run with the split's error. Otherwise there is one report per given user, or per distinct training user when none are given, the k-th report belonging to the k-th of those users (the default users in order of first appearance) |
| Strings.TrimStart | src/tweetvalidator/data_processing/filter_tweets.py:43 | A suffix of the input whose dropped prefix is all white space and that does not start with white space |
| Strings.TrimEnd | src/tweetvalidator/data_processing/filter_tweets.py:43 | A prefix of the input whose dropped suffix is all white space and that does not end with white space |
| Strings.Trim | src/tweetvalidator/data_processing/filter_tweets.py:43 | `strip()`: no longer than the input, with no white space at either end |
| Strings.TrimIsMiddle | src/tweetvalidator/data_processing/filter_tweets.py:43 | Any text of white space, then a middle without white space at its ends, then white space, strips to the middle |
| Strings.TrimSplits | src/tweetvalidator/data_processing/filter_tweets.py:43 | The input is white space, then the result, then white space |
| Strings.TrimIdempotent | src/tweetvalidator/data_processing/filter_tweets.py:43 | Stripping twice is stripping once |
| Strings.ContainsAt | src/scripts/get_config.py:45 | `sub in s` holds iff sub occurs at some offset of s |
| Paths.Join | src/scripts/get_config.py:34-36 | `os.path.join`: an absolute second part replaces the first; otherwise the first part is kept, followed by at most one added separator and the second |
| Paths.Slashes | src/scripts/get_config.py:46-47 | A run of n separators |
| Paths.JoinSplit | src/scripts/get_config.py:46-47 | Joining a path's components with `/` gives the path back |
| Paths.SplitComponents | src/scripts/get_config.py:46-47 | No component holds a separator |
| Paths.SplitWithPrefix | src/scripts/get_config.py:46-47 | A separator-free prefix extends the first component |
| Paths.SplitAround | src/scripts/get_config.py:46-47 | Components of `x/y` are those of x followed by those of y |
| Paths.SplitJoin | src/scripts/get_config.py:46-47 | Splitting a join of separator-free components gives them back |
| Paths.JoinStart | src/scripts/get_config.py:46-47 | A join starts with its first component |
| Paths.JoinEnd | src/scripts/get_config.py:46-47 | A join ending in two components ends with them, separated |
| Paths.Normpath | src/scripts/get_config.py:46-47 | `normpath` never yields the empty string and keeps a path absolute |
| Paths.ResolveResolved | src/scripts/get_config.py:46-47 | The component loop leaves a stack with no `.` and no empty component, and no `..` after a real component or under the root |
| Paths.NormpathIdempotent | src/scripts/get_config.py:46-47 | Normalising a normalised path changes nothing |
| Paths.NormpathAbs | src/scripts/get_config.py:46-47 | `normpath` keeps a path absolute exactly when it was absolute |
| Paths.Abspath | src/scripts/get_config.py:46-47 | `abspath` against an absolute working directory is absolute |
| Paths.AbspathIdempotent | src/scripts/get_config.py:46-47 | An absolute path is only normalised, and an `abspath` result is a fixed point |
| Paths.Basename | src/tweetvalidator/data_processing/filter_tweets.py:72-73 | The base name holds no separator |
| Paths.Dirname | src/scripts/get_config.py:41 | The directory part is a prefix of the path |
| Paths.DirnameOfJoin | src/tweetvalidator/data_processing/filter_tweets.py:72-73 | `dirname` and `basename` undo the join of a directory and a plain name |
| Paths.NormpathKeepsTail | src/scripts/get_config.py:33-36 | Under an absolute root, normalising `z/…/a/b` with ordinary a and b ends in `/a/b` |
| Config.Absolutized | src/scripts/get_config.py:46-47 | A rewritten path value is absolute |
| Config.Rewrite | src/scripts/get_config.py:44-47 | The rewrite fails with TypeError exactly when a `_path` key holds a non-string. Otherwise the keys are kept, every other value is unchanged, and every `_path` value becomes an absolute string. A relative `_path` value becomes exactly that value normalised under the configuration directory's absolute anchor (the directory itself when absolute, else resolved against the working directory) |
| Config.RewriteIgnoresCwd | src/scripts/get_config.py:29-47 | With the configuration's directory absolute, the rewritten settings are the same whatever the working directory |
| Config.AbsoluteValueKept | src/scripts/get_config.py:46-47 | A path value that was already absolute is only normalised, whatever the configuration's directory |
| Config.RewriteIdempotent | src/scripts/get_config.py:44-47 | Rewriting an already rewritten configuration changes nothing |
| Config.DefaultConfigPath | src/scripts/get_config.py:33-36 | The default configuration path is absolute |
| Config.Head | src/scripts/get_config.py:34-36 | A path with one trailing separator removed, if it had one |
| Config.JoinRelative | src/scripts/get_config.py:34-36 | Joining a relative part to a non-empty directory puts exactly one separator between them |
| Config.RelativeConfigComponents | src/scripts/get_config.py:13 | `RELATIVE_CONFIG_PATH` is two steps up, then `configs/config.json` |
| Config.NormpathOfRelativeConfig | src/scripts/get_config.py:33-36 | Normalising any absolute `dir/../../configs/config.json` ends in `/configs/config.json` |
| Config.AbspathOfRelative | src/scripts/get_config.py:33-36 | `abspath(join(d, rel))` for a relative `rel` is `rel` normalised under an absolute anchor |
| Config.DefaultConfigPathEnds | src/scripts/get_config.py:31-36 | Wherever the script sits, the default names `config.json` in a directory `configs` |
| Config.ConfigFile | src/scripts/get_config.py:31-36 | A non-empty given path is used as it is; a missing or empty one selects the absolute default |
| Config.GetConfig | src/scripts/get_config.py:15-49 | A load error propagates. Otherwise the loaded settings are rewritten against the directory of the chosen file |
| Filters.FiltersCompose | src/tweetvalidator/data_processing/filter_tweets.py:39-40 | Deleting with two pattern lists in a row equals deleting with their concatenation |
| Filters.CleanText | src/tweetvalidator/data_processing/filter_tweets.py:36-43 | A cleaned text has no white space at either end |
| Filters.Cleaned | src/tweetvalidator/data_processing/filter_tweets.py:36-47 | The cleaned tweet keeps the original date, and its text is stripped |
| Filters.Cleaner | src/tweetvalidator/data_processing/filter_tweets.py:35-47 | The per-tweet cleaning as a function value agrees with the cleaning on every tweet |
| Filters.CleanerIs | src/tweetvalidator/data_processing/filter_tweets.py:36-47 | A tweet is cleaned to its pattern-filtered, stripped text with its date |
| Filters.Survivors | src/tweetvalidator/data_processing/filter_tweets.py:35-47 | No more tweets out than in, each at least the minimum length |
| Filters.SurvivorsAppend | src/tweetvalidator/data_processing/filter_tweets.py:35-47 | Filtering is tweet by tweet: the survivors of a concatenation are the concatenated survivors |
| Filters.SurvivorsStep | src/tweetvalidator/data_processing/filter_tweets.py:46-47 | One more input tweet appends its cleaned form exactly when that is long enough |
| Filters.SurvivorsMembership | src/tweetvalidator/data_processing/filter_tweets.py:35-47 | A tweet is written iff it is the cleaned form of an input tweet and is long enough |
| Filters.SurvivorsAll | src/tweetvalidator/data_processing/filter_tweets.py:46 | With a minimum of 0 or less every tweet is kept, cleaned, in order |
| Filters.FilterTweets | src/tweetvalidator/data_processing/filter_tweets.py:35-47 | One file's output: no more tweets than its input, each at least the minimum length |
| Filters.FilterMembership | src/tweetvalidator/data_processing/filter_tweets.py:35-47 | A tweet is in the output iff it is some input tweet cleaned and long enough; every output text is stripped |
| Filters.StripOnly | src/tweetvalidator/data_processing/filter_tweets.py:35-47 | With no patterns and no minimum every tweet is kept, only stripped |
| Filters.SubAll | src/tweetvalidator/data_processing/filter_tweets.py:39-40 | The loop applies each pattern's deletion in turn |
| Filters.FilterFile | src/tweetvalidator/data_processing/filter_tweets.py:29-52 | The loop with `append` writes exactly the filtered tweets |
| Filters.NonEmptySurvivors | source/data_preprocessing/filterTweets.py:46-48 | The older gate keeps only tweets with text left |
| Filters.FilterNonEmpty | source/data_preprocessing/filterTweets.py:38-48 | One file's output in the older script: no more tweets than the input, none empty |
| Filters.NonEmptyIsMinimumOne | source/data_preprocessing/filterTweets.py:47 | `if filteredTweet:` is the length gate with a one-character minimum |
| Filters.HandleFiles | src/tweetvalidator/data_processing/filter_tweets.py:69 | Exactly the listed names that start with `@`, in listing order |
| Filters.HandleFilesAppend | src/tweetvalidator/data_processing/filter_tweets.py:69 | Selecting from two listings in a row gives the two selections in a row, so the listing order is kept |
| Filters.HandleFilesOne | src/tweetvalidator/data_processing/filter_tweets.py:69 | A single name is selected iff it starts with `@` |
| Filters.FilterNamed | src/tweetvalidator/data_processing/filter_tweets.py:71-75 | Each name is read from the input directory and written, filtered, under the same name to the output directory |
| Filters.FilterDirectories | src/tweetvalidator/data_processing/filter_tweets.py:54-75 | One output file per `@`-file of the input directory |
| Filters.SameNames | src/tweetvalidator/data_processing/filter_tweets.py:71-75 | Each output file sits directly in the output directory, under its input file's name, holding only that file's filtered tweets |
| Filters.FilterTweetsOld | source/data_preprocessing/filterTweets.py:25-55 | One output per `@`-file, at the same name in the output directory |
| Filters.OldIsMinimumOne | source/data_preprocessing/filterTweets.py:25-55 | The older script writes what the newer one writes with a minimum of one character. Its per-file reset of the output list keeps files independent |
| Filters.FilterDirectoriesAsWritten | source/data_processing/filter_tweets.py:61 | The copy as written fails with NameError exactly when the script-level `input_directory` is unbound |
| Filters.AsWrittenFailsWhenImported | source/data_processing/filter_tweets.py:61 | Called from another module, the copy as written never processes a file |
| Filters.AsWrittenAgreesAsScript | source/data_processing/filter_tweets.py:61-91 | Run as a script, where the global equals the parameter, the copy as written does what the corrected function does |

## Left out

- **Library internals are oracles.** The k-means clustering, the
  vectorizer's fit (IDF smoothing, stop words, row normalisation), its
  analyzer, the random-forest classifier and the regular-expression engine
  are function parameters. Their algorithms are outside this model.
- **Floating point.** Arithmetic is exact real arithmetic, and `np.sqrt` is
  any function meeting `IsSqrt`. `np.round` is exact half-to-even rounding
  to two decimals.
- **Randomness.** `sample(frac=1)`, `train_test_split(random_state=1)` and
  `np.random.shuffle` become given permutations, since the seeded generators
  are not modelled.
- **Thresholds are a parameter.** The older script's
  `np.arange(0.2, 0.55, 0.05)` is left to the caller, since floating-point
  stepping is not modelled.
- **I/O.** Reading and parsing JSON files, `pd.read_json`, `os.listdir`,
  writing output files, the pickled models and the text reports of
  `train_models` (lines 138-166), and every `print` are left out. The
  joined output directory of `train_models` (line 84) is therefore only
  required to exist: its value is used for nothing the model keeps. Listings
  and file contents are parameters, and results are returned instead of
  written.
- `os.path.realpath`: symbolic links are not modelled. The script's resolved
  path is a parameter.
- The working directory `abspath` resolves against is a parameter and is
  assumed absolute.
- Every listed file name is assumed non-empty. `f[0]` on an empty name
  cannot occur with a real directory listing.
- Malformed input is not modelled. This covers JSON that is not a list of
  `[text, date]` or `[tweet, date, embedding]` entries, and embeddings of
  mismatched dimensions, which numpy would reject. The corresponding
  dimension requirements are preconditions.
- Non-string JSON values of the configuration are kept opaque. Only strings
  and "anything else" are distinguished.
- The module-level `get_config()` call at import time is not modelled.
  `safe_mkdir` and `create_dir_if_not_there` are not modelled either: they
  only create directories.
- `evaluate_model_performance` returns None in the source. The model returns
  the tables and summary it builds so that properties can be stated about
  them.
- `precision_recall_fscore_support` in `train_models` is not modelled. Its
  result is only written to a report.
- sklearn's 1×1 confusion matrix is not modelled. It arises when truth and
  predictions hold a single label. `Training.InferredMatrix` models the
  failing `cm[0,1]` read that follows it as an error.
- `Dataset.SampleAndSplit` and `Dataset.TrainTestSplit` take fractions in
  [0, 1] and (0, 1), the ranges the callers use.
- Training.TrainUserRates: requires that the predictor return one label per
  own test row, a promise of the model's `infer` rather than something
  `train_models` checks.
- The clustered model and the base model under `src/tweetvalidator/models`
  are not part of this model. They are imported there but their files are
  not available. The `tweetvalidator/models` clustered model and the
  `source/models` base model are modelled instead.
- RandomForest.Characterize: when both the corpus and the context are empty,
  the source has already stored a new unfitted classifier in `clf` (line 37)
  before `fit` raises; with only one of them empty it raises earlier, at the
  concatenation (line 33), and `clf` is untouched. The model returns only the
  error in both cases, not the object's state; every caller stops at the
  error.

## Findings

| source | as written | input that shows it | evidently intended | confidence | as-written member | corrected member |
|---|---|---|---|---|---|---|
| source/data_processing/filter_tweets.py:61 | `filter_tweets_from_directories` lists `os.listdir(input_directory)`, a name bound only by the `__main__` block, instead of its parameter `input_directory_path` | Importing the module and calling `filter_tweets_from_directories('/raw', '/out', [], 0)` raises NameError before any file is read | List the parameter `input_directory_path`, as the other copy does | not executed | Filters.FilterDirectoriesAsWritten, Filters.AsWrittenFailsWhenImported | Filters.FilterDirectories |

=== FILE: averaged_model.dfy ===
/**
 The averaged cosine-similarity model: the signature is the normalised mean
 of the user's embedded corpus, and a tweet is flagged (True = fraudulent)
 when its inner product with the signature is strictly below the threshold.
 */
module AveragedCosSim {
  import opened Wrappers
  import opened Vectors
  import opened Hyperparameters

  datatype AvgModel = AvgModel(signature: Direction, params: Params)

  /** `AvgCosSimModel.__init__`: mean of the corpus, divided by its norm; default threshold. */
  function NewAvgModel(embeddedCorpus: seq<Vector>, d: nat, sqrt: real -> real): (m: AvgModel)
    requires |embeddedCorpus| > 0 && Dim(embeddedCorpus, d)
    requires IsSqrt(sqrt)
    ensures m.signature.Dimension() == d
    ensures m.signature.Unit? ==> Inner(m.signature.v, m.signature.v) == 1.0
    ensures m.signature.Unit? <==> !IsZero(Mean(embeddedCorpus, d))
    ensures m.signature.Unit? ==>
      Scale(sqrt(Inner(Mean(embeddedCorpus, d), Mean(embeddedCorpus, d))), m.signature.v)
        == Mean(embeddedCorpus, d)
    ensures ReadThreshold(m.params) == Ok(DefaultThreshold)
  {
    AvgModel(Normalize(Mean(embeddedCorpus, d), sqrt), DefaultParams())
  }

  function AvgSetHyperparameters(m: AvgModel, given: Option<Params>): (r: AvgModel)
    ensures r.signature == m.signature
    ensures r.params == SetHyperparameters(m.params, given)
  {
    m.(params := SetHyperparameters(m.params, given))
  }

  /**
   `AvgCosSimModel.infer`: one flag per tweet, in order; a similarity equal
   to the threshold is not flagged, and a NaN similarity never is. The list
   comprehension reads the threshold once per tweet, so an empty batch
   succeeds even without one.
   */
  function AvgInfer(m: AvgModel, embeddedTweets: seq<Vector>): (r: Result<seq<bool>>)
    requires Dim(embeddedTweets, m.signature.Dimension())
    ensures r.Err? <==> |embeddedTweets| > 0 && ThresholdKey !in m.params
    ensures r.Ok? ==> |r.value| == |embeddedTweets|
    ensures r.Ok? && |embeddedTweets| > 0 ==>
      forall i :: 0 <= i < |embeddedTweets| ==>
        (r.value[i] <==> Below(Similarity(m.signature, embeddedTweets[i]), m.params[ThresholdKey]))
  {
    if |embeddedTweets| == 0 then Ok([])
    else
      match ReadThreshold(m.params)
      case Err(e) => Err(e)
      case Ok(t) =>
        Ok(seq(|embeddedTweets|, i requires 0 <= i < |embeddedTweets| =>
          Below(Similarity(m.signature, embeddedTweets[i]), t)))
  }

  /** The model after `set_hyperparameters({'threshold': t})`. */
  function WithThreshold(m: AvgModel, t: real): AvgModel {
    AvgSetHyperparameters(m, Some(map[ThresholdKey := t]))
  }

  /** Tie behaviour: a tweet whose similarity equals the threshold is called authentic. */
  lemma AvgTieIsAuthentic(m: AvgModel, w: Vector)
    requires m.signature.Unit? && |w| == |m.signature.v|
    ensures AvgInfer(WithThreshold(m, Inner(m.signature.v, w)), [w]) == Ok([false])
  {
    var r := AvgInfer(WithThreshold(m, Inner(m.signature.v, w)), [w]);
    assert r.Ok? && |r.value| == 1 && !r.value[0];
    assert r.value == [false];
  }

  /** Raising the threshold only adds flags: the flagged set grows with the threshold. */
  lemma AvgFlagsMonotone(m: AvgModel, tweets: seq<Vector>, t1: real, t2: real, i: nat)
    requires Dim(tweets, m.signature.Dimension())
    requires t1 <= t2 && i < |tweets|
    ensures AvgInfer(WithThreshold(m, t1), tweets).Ok?
    ensures AvgInfer(WithThreshold(m, t2), tweets).Ok?
    ensures AvgInfer(WithThreshold(m, t1), tweets).value[i] ==> AvgInfer(WithThreshold(m, t2), tweets).value[i]
  {
  }

  /**
   A corpus of copies of one unit vector `v` has signature `v`, and `v`
   itself then scores exactly 1.
   */
  lemma CopiesOfUnitVector(v: Vector, n: nat, sqrt: real -> real)
    requires n > 0 && Inner(v, v) == 1.0 && IsSqrt(sqrt)
    ensures Dim(seq(n, _ => v), |v|)
    ensures NewAvgModel(seq(n, _ => v), |v|, sqrt).signature == Unit(v)
    ensures Similarity(NewAvgModel(seq(n, _ => v), |v|, sqrt).signature, v) == Num(1.0)
  {
    MeanOfCopies(v, n);
    NormalizeUnitVector(v, sqrt);
  }

  /**
   A corpus whose mean is the zero vector yields the all-NaN signature, and
   then no tweet is ever flagged, whatever the threshold.
   */
  lemma ZeroMeanNeverFlags(corpus: seq<Vector>, d: nat, sqrt: real -> real, tweets: seq<Vector>, t: real)
    requires |corpus| > 0 && Dim(corpus, d) && IsSqrt(sqrt) && Dim(tweets, d)
    requires IsZero(Mean(corpus, d))
    ensures AvgInfer(WithThreshold(NewAvgModel(corpus, d, sqrt), t), tweets).Ok?
    ensures forall i :: 0 <= i < |tweets| ==>
      !AvgInfer(WithThreshold(NewAvgModel(corpus, d, sqrt), t), tweets).value[i]
  {
  }
}

=== FILE: clustered_model.dfy ===
/**
 The clustered cosine-similarity model: the signature is the set of KMeans
 centres of the user's embedded corpus, each normalised to unit length. A
 tweet is authentic (False) as soon as one centroid has an inner product
 strictly greater than the threshold, and flagged (True) otherwise.
 */
module ClusteredCosSim {
  import opened Wrappers
  import opened Vectors
  import opened Hyperparameters

  /** `KMeans(n_clusters=k, random_state=0).fit(data).cluster_centers_`, as an oracle. */
  type KMeansFit = (seq<Vector>, nat) -> seq<Vector>

  /** What the oracle must promise: `k` centres, in the dimension of the data. */
  ghost predicate KMeansShape(kmeans: KMeansFit, d: nat) {
    forall data: seq<Vector>, k: nat {:trigger kmeans(data, k)} ::
      Dim(data, d) ==> |kmeans(data, k)| == k && Dim(kmeans(data, k), d)
  }

  datatype ClusteredModel = ClusteredModel(centroids: seq<Direction>, dim: nat, params: Params)

  predicate WellShaped(m: ClusteredModel) {
    forall j :: 0 <= j < |m.centroids| ==> m.centroids[j].Dimension() == m.dim
  }

  /**
   `ClusteredCosSimModel.__init__`: a missing embedded corpus raises before
   anything else; KMeans itself refuses no clusters or fewer samples than
   clusters; otherwise one normalised centroid per requested cluster.
   */
  function NewClusteredModel(embeddedCorpus: Option<seq<Vector>>, numClusters: nat, d: nat,
                             kmeans: KMeansFit, sqrt: real -> real): (r: Result<ClusteredModel>)
    requires KMeansShape(kmeans, d) && IsSqrt(sqrt)
    requires embeddedCorpus.Some? ==> Dim(embeddedCorpus.value, d)
    ensures embeddedCorpus.None? ==> r == Err(MissingEmbeddedCorpus)
    ensures embeddedCorpus.Some? ==>
      (r.Err? <==> numClusters == 0 || |embeddedCorpus.value| < numClusters)
    ensures r.Ok? ==> WellShaped(r.value) && r.value.dim == d
    ensures r.Ok? ==> |r.value.centroids| == numClusters
    ensures r.Ok? ==> ReadThreshold(r.value.params) == Ok(DefaultThreshold)
    ensures r.Ok? ==> forall j :: 0 <= j < numClusters ==>
      var centre := kmeans(embeddedCorpus.value, numClusters)[j];
      var c := r.value.centroids[j];
      (c.Undefined? <==> IsZero(centre)) &&
      (c.Unit? ==> Inner(c.v, c.v) == 1.0 && Scale(sqrt(Inner(centre, centre)), c.v) == centre)
  {
    match embeddedCorpus
    case None => Err(MissingEmbeddedCorpus)
    case Some(corpus) =>
      if numClusters == 0 || |corpus| < numClusters then Err(ClusteringError)
      else
        var centres := kmeans(corpus, numClusters);
        Ok(ClusteredModel(seq(|centres|, j requires 0 <= j < |centres| => Normalize(centres[j], sqrt)),
                          d, DefaultParams()))
  }

  function ClusteredSetHyperparameters(m: ClusteredModel, given: Option<Params>): (r: ClusteredModel)
    ensures r.centroids == m.centroids && r.dim == m.dim
    ensures r.params == SetHyperparameters(m.params, given)
  {
    m.(params := SetHyperparameters(m.params, given))
  }

  function WithThreshold(m: ClusteredModel, t: real): ClusteredModel {
    ClusteredSetHyperparameters(m, Some(map[ThresholdKey := t]))
  }

  /** No centroid has a similarity strictly above the threshold. */
  predicate NoCentroidAbove(centroids: seq<Direction>, w: Vector, t: real)
    requires forall j :: 0 <= j < |centroids| ==> centroids[j].Dimension() == |w|
  {
    forall j :: 0 <= j < |centroids| ==> !Above(Similarity(centroids[j], w), t)
  }

  /**
   The reference semantics of `infer`, without the early exit: a tweet is
   flagged iff no centroid exceeds the threshold. The threshold is read only
   when some (tweet, centroid) pair is compared, so without tweets or without
   centroids a model lacking a threshold still answers.
   */
  function Predictions(m: ClusteredModel, tweets: seq<Vector>): (r: Result<seq<bool>>)
    requires WellShaped(m) && Dim(tweets, m.dim)
    ensures r.Err? <==> |tweets| > 0 && |m.centroids| > 0 && ThresholdKey !in m.params
    ensures r.Ok? ==> |r.value| == |tweets|
    ensures r.Ok? && |m.centroids| == 0 ==> forall i :: 0 <= i < |tweets| ==> r.value[i]
  {
    if |tweets| == 0 || |m.centroids| == 0 then Ok(seq(|tweets|, i => true))
    else
      match ReadThreshold(m.params)
      case Err(e) => Err(e)
      case Ok(t) =>
        Ok(seq(|tweets|, i requires 0 <= i < |tweets| => NoCentroidAbove(m.centroids, tweets[i], t)))
  }

  /**
   `ClusteredCosSimModel.infer` as written: for each tweet, scan the
   centroids and stop at the first whose similarity exceeds the threshold
   (reading the threshold at every comparison); the loop's `else` flags the
   tweet. Breaking early gives exactly the reference predictions.
   */
  method ClusteredInfer(m: ClusteredModel, embeddedTweets: seq<Vector>) returns (r: Result<seq<bool>>)
    requires WellShaped(m) && Dim(embeddedTweets, m.dim)
    ensures r == Predictions(m, embeddedTweets)
  {
    ghost var t := if ThresholdKey in m.params then m.params[ThresholdKey] else 0.0;
    var predictions: seq<bool> := [];
    var i := 0;
    while i < |embeddedTweets|
      invariant 0 <= i <= |embeddedTweets|
      invariant |predictions| == i
      invariant ThresholdKey !in m.params && |m.centroids| > 0 ==> i == 0
      invariant forall k :: 0 <= k < i ==>
        predictions[k] == NoCentroidAbove(m.centroids, embeddedTweets[k], t)
    {
      var tweet := embeddedTweets[i];
      var matched := false;
      var j := 0;
      while j < |m.centroids| && !matched
        invariant 0 <= j <= |m.centroids|
        invariant ThresholdKey !in m.params ==> j == 0
        invariant matched ==> 0 < j && Above(Similarity(m.centroids[j - 1], tweet), t)
        invariant !matched ==> forall k :: 0 <= k < j ==> !Above(Similarity(m.centroids[k], tweet), t)
      {
        var similarity := Similarity(m.centroids[j], tweet);
        var threshold := ReadThreshold(m.params);
        if threshold.Err? {
          assert Predictions(m, embeddedTweets) == Err(KeyError(ThresholdKey));
          return Err(threshold.error);
        }
        if Above(similarity, threshold.value) {
          matched := true;
        }
        j := j + 1;
      }
      assert !matched <==> NoCentroidAbove(m.centroids, tweet, t);
      predictions := predictions + [!matched];
      i := i + 1;
    }
    r := Ok(predictions);
    if |embeddedTweets| > 0 && |m.centroids| > 0 {
      assert ThresholdKey in m.params && t == m.params[ThresholdKey];
      assert ReadThreshold(m.params) == Ok(t);
      var expected := seq(|embeddedTweets|, k requires 0 <= k < |embeddedTweets| =>
        NoCentroidAbove(m.centroids, embeddedTweets[k], t));
      assert predictions == expected;
      assert Predictions(m, embeddedTweets) == Ok(expected);
    } else {
      assert predictions == seq(|embeddedTweets|, k => true);
    }
  }

  /** Tie behaviour: a best similarity equal to the threshold is flagged as fraud. */
  lemma ClusteredTieIsFraud(m: ClusteredModel, w: Vector, t: real)
    requires WellShaped(m) && |w| == m.dim && |m.centroids| > 0
    requires forall j :: 0 <= j < |m.centroids| ==>
      m.centroids[j].Unit? ==> Inner(m.centroids[j].v, w) <= t
    ensures Predictions(WithThreshold(m, t), [w]) == Ok([true])
  {
    var r := Predictions(WithThreshold(m, t), [w]);
    assert r.Ok? && |r.value| == 1 && r.value[0];
    assert r.value == [true];
  }

  /** Raising the threshold can turn an authentic call into a flag, never the reverse. */
  lemma ClusteredFlagsMonotone(m: ClusteredModel, tweets: seq<Vector>, t1: real, t2: real, i: nat)
    requires WellShaped(m) && Dim(tweets, m.dim)
    requires t1 <= t2 && i < |tweets|
    ensures Predictions(WithThreshold(m, t1), tweets).Ok?
    ensures Predictions(WithThreshold(m, t2), tweets).Ok?
    ensures Predictions(WithThreshold(m, t1), tweets).value[i] ==>
            Predictions(WithThreshold(m, t2), tweets).value[i]
  {
  }

  /** Which centroid matches first is irrelevant: any reordering of the centroids predicts the same. */
  lemma {:induction false} CentroidOrderIrrelevant(m: ClusteredModel, reordered: seq<Direction>, tweets: seq<Vector>)
    requires WellShaped(m) && Dim(tweets, m.dim)
    requires multiset(reordered) == multiset(m.centroids)
    ensures WellShaped(m.(centroids := reordered))
    ensures Predictions(m.(centroids := reordered), tweets) == Predictions(m, tweets)
  {
    var m' := m.(centroids := reordered);
    assert |reordered| == |m.centroids| by {
      assert |multiset(reordered)| == |multiset(m.centroids)|;
    }
    assert forall c :: c in reordered <==> c in m.centroids by {
      forall c ensures c in reordered <==> c in m.centroids {
        assert c in reordered <==> c in multiset(reordered);
        assert c in m.centroids <==> c in multiset(m.centroids);
      }
    }
    assert WellShaped(m') by {
      forall j | 0 <= j < |reordered| ensures reordered[j].Dimension() == m.dim {
        assert reordered[j] in m.centroids;
      }
    }
    if |tweets| > 0 && |m.centroids| > 0 && ThresholdKey in m.params {
      var t := m.params[ThresholdKey];
      forall i | 0 <= i < |tweets|
        ensures NoCentroidAbove(reordered, tweets[i], t) == NoCentroidAbove(m.centroids, tweets[i], t)
      {
        if !NoCentroidAbove(reordered, tweets[i], t) {
          var j :| 0 <= j < |reordered| && Above(Similarity(reordered[j], tweets[i]), t);
          assert reordered[j] in m.centroids;
          var k :| 0 <= k < |m.centroids| && m.centroids[k] == reordered[j];
          assert !NoCentroidAbove(m.centroids, tweets[i], t);
        }
        if !NoCentroidAbove(m.centroids, tweets[i], t) {
          var j :| 0 <= j < |m.centroids| && Above(Similarity(m.centroids[j], tweets[i]), t);
          assert m.centroids[j] in reordered;
          var k :| 0 <= k < |reordered| && reordered[k] == m.centroids[j];
          assert !NoCentroidAbove(reordered, tweets[i], t);
        }
      }
      assert Predictions(m', tweets).value == Predictions(m, tweets).value;
    }
  }

  /** A tweet orthogonal to every centroid is flagged for every non-negative threshold. */
  lemma OrthogonalTweetFlagged(m: ClusteredModel, w: Vector, t: real)
    requires WellShaped(m) && |w| == m.dim && t >= 0.0
    requires forall j :: 0 <= j < |m.centroids| ==> m.centroids[j].Unit? ==> Inner(m.centroids[j].v, w) == 0.0
    ensures Predictions(WithThreshold(m, t), [w]) == Ok([true])
  {
    var r := Predictions(WithThreshold(m, t), [w]);
    assert r.Ok? && |r.value| == 1 && r.value[0];
    assert r.value == [true];
  }
}

=== FILE: config.dfy ===
/**
 `get_config`: read the JSON configuration and make every path in it
 absolute relative to the configuration file's own directory. A key is a
 path key when its name contains `_path`; its value is replaced, in
 place, by `abspath(join(dirname(config_path), value))`. Without an
 explicit file the default is `../../configs/config.json` next to the
 script's resolved location.

 Reading and parsing the file is an oracle `load`; the working directory
 that `abspath` resolves against and the script's resolved path are
 parameters.
 */
module Config {
  import opened Wrappers
  import opened Strings
  import opened Paths

  /** A JSON value of the configuration: a string, or anything else, kept as its text. */
  datatype Value = Str(s: string) | Other(json: string)

  type Settings = map<string, Value>

  /** `'_path' in k` */
  predicate IsPathKey(k: string) {
    Contains(k, "_path")
  }

  /** The rewritten value of one path key. */
  function Absolutized(v: string, dir: string, cwd: string): (r: string)
    requires IsAbs(cwd)
    ensures IsAbs(r)
  {
    Abspath(Join(dir, v), cwd)
  }

  /**
   The loop over `config.keys()`: every path key gets its value made
   absolute against `dir`; `os.path.join` refuses a value that is not a
   string. Each key is visited once and only its own entry changes, so
   the visiting order does not matter.
   */
  function Rewrite(config: Settings, dir: string, cwd: string): (r: Result<Settings>)
    requires IsAbs(cwd)
    ensures r.Err? <==> exists k :: k in config && IsPathKey(k) && !config[k].Str?
    ensures r.Err? ==> r.error == TypeError
    ensures r.Ok? ==> r.value.Keys == config.Keys
    ensures r.Ok? ==> forall k :: k in config && !IsPathKey(k) ==> r.value[k] == config[k]
    ensures r.Ok? ==> forall k :: k in config && IsPathKey(k) ==> r.value[k].Str? && IsAbs(r.value[k].s)
    ensures r.Ok? ==> forall k :: k in config && IsPathKey(k) && !IsAbs(config[k].s) ==>
      r.value[k] == Str(Normpath(Anchor(dir, cwd) + "/" + config[k].s))
  {
    if exists k :: k in config && IsPathKey(k) && !config[k].Str? then Err(TypeError)
    else
      var out := map k | k in config :: if IsPathKey(k) then Str(Absolutized(config[k].s, dir, cwd)) else config[k];
      assert forall k :: k in config && IsPathKey(k) && !IsAbs(config[k].s) ==>
        out[k] == Str(Normpath(Anchor(dir, cwd) + "/" + config[k].s)) by {
        forall k | k in config && IsPathKey(k) && !IsAbs(config[k].s)
          ensures out[k] == Str(Normpath(Anchor(dir, cwd) + "/" + config[k].s))
        {
          AbspathOfRelative(dir, config[k].s, cwd);
        }
      }
      Ok(out)
  }

  /**
   With the configuration's directory absolute, as it is for the default
   file, the rewrite does not depend on the working directory.
   */
  lemma RewriteIgnoresCwd(config: Settings, dir: string, cwd: string, cwd': string)
    requires IsAbs(cwd) && IsAbs(cwd') && IsAbs(dir)
    ensures Rewrite(config, dir, cwd) == Rewrite(config, dir, cwd')
  {
    var r, r' := Rewrite(config, dir, cwd), Rewrite(config, dir, cwd');
    if r.Ok? {
      forall k | k in config && IsPathKey(k) ensures r.value[k] == r'.value[k] {
        var joined := Join(dir, config[k].s);
        assert joined[0] == '/';
        assert Absolutized(config[k].s, dir, cwd) == Normpath(joined) == Absolutized(config[k].s, dir, cwd');
      }
      assert r.value == r'.value;
    }
  }

  /** A path value that was already absolute is only normalised, whatever the directory. */
  lemma AbsoluteValueKept(config: Settings, dir: string, cwd: string, k: string)
    requires IsAbs(cwd) && Rewrite(config, dir, cwd).Ok?
    requires k in config && IsPathKey(k) && IsAbs(config[k].s)
    ensures Rewrite(config, dir, cwd).value[k] == Str(Normpath(config[k].s))
  {
  }

  /** Rewriting a rewritten configuration against the same directory changes nothing. */
  lemma RewriteIdempotent(config: Settings, dir: string, cwd: string)
    requires IsAbs(cwd) && Rewrite(config, dir, cwd).Ok?
    ensures Rewrite(Rewrite(config, dir, cwd).value, dir, cwd) == Rewrite(config, dir, cwd)
  {
    var once := Rewrite(config, dir, cwd).value;
    var twice := Rewrite(once, dir, cwd);
    assert twice.Ok?;
    forall k | k in once && IsPathKey(k) ensures twice.value[k] == once[k] {
      var v := once[k].s;
      AbspathIdempotent(Join(dir, config[k].s), cwd);
      assert Join(dir, v) == v;
      assert Abspath(v, cwd) == v;
    }
    assert twice.value == once;
  }

  /** `RELATIVE_CONFIG_PATH` */
  const RelativeConfigPath: string := "../../configs/config.json"

  /** The default: `abspath(join(dirname(realpath(__file__)), RELATIVE_CONFIG_PATH))`. */
  function DefaultConfigPath(scriptPath: string, cwd: string): (r: string)
    requires IsAbs(cwd)
    ensures IsAbs(r)
  {
    Abspath(Join(Dirname(scriptPath), RelativeConfigPath), cwd)
  }

  /** `x` without one trailing separator. */
  function Head(x: string): (r: string)
    requires |x| > 0
    ensures x == r || x == r + "/"
  {
    if x[|x| - 1] == '/' then x[..|x| - 1] else x
  }

  /** `join(a, b)` for a relative `b` and a non-empty `a`: `a` without one trailing separator, a separator, `b`. */
  lemma JoinRelative(a: string, b: string)
    requires |a| > 0 && !IsAbs(b)
    ensures Join(a, b) == Head(a) + "/" + b
  {
    if a[|a| - 1] == '/' {
      assert a == a[..|a| - 1] + "/";
    }
  }

  /** The default's relative part, component by component. */
  lemma RelativeConfigComponents()
    ensures RelativeConfigPath == JoinSlash(["..", ".."] + ["configs", "config.json"])
  {
    var rel := ["..", "..", "configs", "config.json"];
    assert ["..", ".."] + ["configs", "config.json"] == rel;
    assert JoinSlash(rel[3..]) == "config.json";
    assert JoinSlash(rel[2..]) == "configs" + "/" + "config.json";
    assert JoinSlash(rel[1..]) == ".." + "/" + ("configs" + "/" + "config.json");
    assert JoinSlash(rel) == ".." + "/" + (".." + "/" + ("configs" + "/" + "config.json"));
    SpelledOut();
  }

  lemma SpelledOut()
    ensures RelativeConfigPath == ".." + "/" + (".." + "/" + ("configs" + "/" + "config.json"))
    ensures "/" + "configs" + "/" + "config.json" == "/configs/config.json"
  {
  }

  /** `r` names a file `config.json` in a directory `configs`. */
  predicate InConfigsDirectory(r: string) {
    |r| >= 20 && r[|r| - 20..] == "/configs/config.json"
  }

  /** Normalising `z/../../configs/config.json` under a root keeps the last two components. */
  lemma NormpathOfRelativeConfig(z: string)
    requires IsAbs(z + "/" + RelativeConfigPath)
    ensures InConfigsDirectory(Normpath(z + "/" + RelativeConfigPath))
  {
    RelativeConfigComponents();
    SpelledOut();
    NormpathKeepsTail(z, ["..", ".."], "configs", "config.json");
  }

  /** The directory a relative path joined to `d` ends up under, once made absolute. */
  function Anchor(d: string, cwd: string): string
    requires IsAbs(cwd)
  {
    if |d| == 0 then Head(cwd) else if IsAbs(d) then Head(d) else Head(cwd) + "/" + Head(d)
  }

  /** `abspath(join(d, rel))` for a relative `rel`: `rel` normalised under an absolute anchor. */
  lemma AbspathOfRelative(d: string, rel: string, cwd: string)
    requires IsAbs(cwd) && !IsAbs(rel)
    ensures IsAbs(Anchor(d, cwd) + "/" + rel)
    ensures Abspath(Join(d, rel), cwd) == Normpath(Anchor(d, cwd) + "/" + rel)
  {
    var joined := Join(d, rel);
    if |d| == 0 {
      assert joined == rel;
      JoinRelative(cwd, rel);
    } else {
      JoinRelative(d, rel);
      assert joined == Head(d) + "/" + rel;
      if !IsAbs(d) {
        assert !IsAbs(joined);
        JoinRelative(cwd, joined);
        RegroupSlashes(Head(cwd), Head(d), rel);
      }
    }
  }

  lemma RegroupSlashes(a: string, b: string, c: string)
    ensures a + "/" + (b + "/" + c) == (a + "/" + b) + "/" + c
  {
  }

  /**
   Whatever directory the script sits in, the default names a file
   `config.json` in a directory `configs`.
   */
  lemma DefaultConfigPathEnds(scriptPath: string, cwd: string)
    requires IsAbs(cwd)
    ensures InConfigsDirectory(DefaultConfigPath(scriptPath, cwd))
  {
    var d := Dirname(scriptPath);
    assert !IsAbs(RelativeConfigPath);
    AbspathOfRelative(d, RelativeConfigPath, cwd);
    NormpathOfRelativeConfig(Anchor(d, cwd));
  }

  /** `config_path`, or the default when it is missing or empty (`if not config_path`). */
  function ConfigFile(configPath: Option<string>, scriptPath: string, cwd: string): (p: string)
    requires IsAbs(cwd)
    ensures configPath.Some? && configPath.value != "" ==> p == configPath.value
    ensures configPath.None? || configPath.value == "" ==> IsAbs(p)
  {
    if configPath.None? || configPath.value == "" then DefaultConfigPath(scriptPath, cwd) else configPath.value
  }

  /**
   `get_config`: load the chosen file, then rewrite its path keys against
   the file's own directory.
   */
  function GetConfig(configPath: Option<string>, scriptPath: string, cwd: string,
                     load: string -> Result<Settings>): (r: Result<Settings>)
    requires IsAbs(cwd)
    ensures var p := ConfigFile(configPath, scriptPath, cwd);
      && (load(p).Err? ==> r == Err(load(p).error))
      && (load(p).Ok? ==> r == Rewrite(load(p).value, Dirname(p), cwd))
  {
    var p := ConfigFile(configPath, scriptPath, cwd);
    match load(p)
    case Err(e) => Err(e)
    case Ok(config) => Rewrite(config, Dirname(p), cwd)
  }
}

=== FILE: confusion.dfy ===
/**
 Two-by-two confusion matrices over boolean labels, and the two rates the
 evaluation scripts derive from them. A matrix is taken with label order
 `[first, !first]` on both axes: row = actual label, column = predicted.
 */
module Confusion {
  import opened Vectors

  datatype Matrix = Matrix(c00: nat, c01: nat, c10: nat, c11: nat)

  /** `np.zeros([2, 2])` */
  function ZeroMatrix(): Matrix {
    Matrix(0, 0, 0, 0)
  }

  /** Cell-wise `+=` of two matrices. */
  function Add(a: Matrix, b: Matrix): Matrix {
    Matrix(a.c00 + b.c00, a.c01 + b.c01, a.c10 + b.c10, a.c11 + b.c11)
  }

  function Total(m: Matrix): nat {
    m.c00 + m.c01 + m.c10 + m.c11
  }

  /** How many entries of `labels` equal `a`. */
  function CountLabel(labels: seq<bool>, a: bool): (n: nat)
    ensures n <= |labels|
  {
    if |labels| == 0 then 0 else (if labels[0] == a then 1 else 0) + CountLabel(labels[1..], a)
  }

  /** A label is counted at least once exactly when it occurs. */
  lemma {:induction false} CountLabelPositive(labels: seq<bool>, a: bool)
    ensures CountLabel(labels, a) > 0 <==> a in labels
  {
    if |labels| > 0 {
      assert labels == [labels[0]] + labels[1..];
      CountLabelPositive(labels[1..], a);
    }
  }

  /** How many positions have actual label `a` and predicted label `b`. */
  function CountPairs(truth: seq<bool>, pred: seq<bool>, a: bool, b: bool): (n: nat)
    requires |truth| == |pred|
    ensures n <= |truth|
    ensures n <= CountLabel(truth, a) && n <= CountLabel(pred, b)
  {
    if |truth| == 0 then 0
    else (if truth[0] == a && pred[0] == b then 1 else 0) + CountPairs(truth[1..], pred[1..], a, b)
  }

  /**
   `confusion_matrix(truth, pred, labels=[first, not first])`: every entry
   lands in exactly one cell, and each row counts one actual label.
   */
  function ConfusionMatrix(truth: seq<bool>, pred: seq<bool>, first: bool): (m: Matrix)
    requires |truth| == |pred|
    ensures Total(m) == |truth|
    ensures m.c00 + m.c01 == CountLabel(truth, first)
    ensures m.c10 + m.c11 == CountLabel(truth, !first)
    ensures m.c00 + m.c10 == CountLabel(pred, first)
    ensures m.c01 + m.c11 == CountLabel(pred, !first)
  {
    RowAndColumnSums(truth, pred, first);
    Matrix(CountPairs(truth, pred, first, first), CountPairs(truth, pred, first, !first),
           CountPairs(truth, pred, !first, first), CountPairs(truth, pred, !first, !first))
  }

  lemma RowAndColumnSums(truth: seq<bool>, pred: seq<bool>, first: bool)
    requires |truth| == |pred|
    ensures CountPairs(truth, pred, first, first) + CountPairs(truth, pred, first, !first) == CountLabel(truth, first)
    ensures CountPairs(truth, pred, !first, first) + CountPairs(truth, pred, !first, !first) == CountLabel(truth, !first)
    ensures CountPairs(truth, pred, first, first) + CountPairs(truth, pred, !first, first) == CountLabel(pred, first)
    ensures CountPairs(truth, pred, first, !first) + CountPairs(truth, pred, !first, !first) == CountLabel(pred, !first)
    ensures CountLabel(truth, first) + CountLabel(truth, !first) == |truth|
  {
    RowSum(truth, pred, first);
    RowSum(truth, pred, !first);
    ColumnSum(truth, pred, first);
    ColumnSum(truth, pred, !first);
    LabelsSplit(truth, first);
  }

  /** The pairs with actual label `a` are the entries labelled `a`. */
  lemma {:induction false} RowSum(truth: seq<bool>, pred: seq<bool>, a: bool)
    requires |truth| == |pred|
    ensures CountPairs(truth, pred, a, a) + CountPairs(truth, pred, a, !a) == CountLabel(truth, a)
  {
    if |truth| > 0 {
      RowSum(truth[1..], pred[1..], a);
    }
  }

  /** The pairs with predicted label `b` are the predictions `b`. */
  lemma {:induction false} ColumnSum(truth: seq<bool>, pred: seq<bool>, b: bool)
    requires |truth| == |pred|
    ensures CountPairs(truth, pred, b, b) + CountPairs(truth, pred, !b, b) == CountLabel(pred, b)
  {
    if |truth| > 0 {
      ColumnSum(truth[1..], pred[1..], b);
    }
  }

  /** Every entry is one of the two labels. */
  lemma {:induction false} LabelsSplit(labels: seq<bool>, a: bool)
    ensures CountLabel(labels, a) + CountLabel(labels, !a) == |labels|
  {
    if |labels| > 0 {
      LabelsSplit(labels[1..], a);
    }
  }

  lemma {:induction false} CountPairsAppend(t1: seq<bool>, p1: seq<bool>, t2: seq<bool>, p2: seq<bool>, a: bool, b: bool)
    requires |t1| == |p1| && |t2| == |p2|
    ensures CountPairs(t1 + t2, p1 + p2, a, b) == CountPairs(t1, p1, a, b) + CountPairs(t2, p2, a, b)
  {
    if |t1| == 0 {
      assert t1 + t2 == t2 && p1 + p2 == p2;
    } else {
      assert (t1 + t2)[1..] == t1[1..] + t2;
      assert (p1 + p2)[1..] == p1[1..] + p2;
      CountPairsAppend(t1[1..], p1[1..], t2, p2, a, b);
    }
  }

  /** The matrix of a concatenation is the cell-wise sum of the parts' matrices. */
  lemma ConfusionOfConcatenation(t1: seq<bool>, p1: seq<bool>, t2: seq<bool>, p2: seq<bool>, first: bool)
    requires |t1| == |p1| && |t2| == |p2|
    ensures ConfusionMatrix(t1 + t2, p1 + p2, first) == Add(ConfusionMatrix(t1, p1, first), ConfusionMatrix(t2, p2, first))
  {
    var a, b, m := ConfusionMatrix(t1, p1, first), ConfusionMatrix(t2, p2, first), ConfusionMatrix(t1 + t2, p1 + p2, first);
    assert m.c00 == a.c00 + b.c00 by { CountPairsAppend(t1, p1, t2, p2, first, first); }
    assert m.c01 == a.c01 + b.c01 by { CountPairsAppend(t1, p1, t2, p2, first, !first); }
    assert m.c10 == a.c10 + b.c10 by { CountPairsAppend(t1, p1, t2, p2, !first, first); }
    assert m.c11 == a.c11 + b.c11 by { CountPairsAppend(t1, p1, t2, p2, !first, !first); }
  }

  lemma {:induction false} CountPairsMonotone(truth: seq<bool>, p1: seq<bool>, p2: seq<bool>, a: bool, b: bool)
    requires |truth| == |p1| == |p2|
    requires forall i :: 0 <= i < |truth| ==> p1[i] == b ==> p2[i] == b
    ensures CountPairs(truth, p1, a, b) <= CountPairs(truth, p2, a, b)
  {
    if |truth| > 0 {
      CountPairsMonotone(truth[1..], p1[1..], p2[1..], a, b);
    }
  }

  /**
   If every prediction of `first` under `p1` is still `first` under `p2`,
   then the first column only grows: `c00` and `c10` never decrease, and the
   row sums stay put.
   */
  lemma FirstColumnMonotone(truth: seq<bool>, p1: seq<bool>, p2: seq<bool>, first: bool)
    requires |truth| == |p1| == |p2|
    requires forall i :: 0 <= i < |truth| ==> p1[i] == first ==> p2[i] == first
    ensures ConfusionMatrix(truth, p1, first).c00 <= ConfusionMatrix(truth, p2, first).c00
    ensures ConfusionMatrix(truth, p1, first).c10 <= ConfusionMatrix(truth, p2, first).c10
  {
    CountPairsMonotone(truth, p1, p2, first, first);
    CountPairsMonotone(truth, p1, p2, !first, first);
  }

  /** One row of a rate table: one `(threshold, TPR, FPR)` tuple. */
  datatype RatePoint = RatePoint(threshold: real, tpr: Score, fpr: Score)

  /** `c[0,0] / (c[0,0] + c[0,1])`: NaN when row 0 is empty, as numpy gives for 0/0. */
  function TPR(m: Matrix): (r: Score)
    ensures r.Num? <==> m.c00 + m.c01 > 0
    ensures r.Num? ==> 0.0 <= r.value <= 1.0
    ensures r.Num? ==> r.value * ((m.c00 + m.c01) as real) == m.c00 as real
  {
    RateOfCounts(m.c00, m.c01)
  }

  /** `c[1,0] / (c[1,0] + c[1,1])`: NaN when row 1 is empty. */
  function FPR(m: Matrix): (r: Score)
    ensures r.Num? <==> m.c10 + m.c11 > 0
    ensures r.Num? ==> 0.0 <= r.value <= 1.0
    ensures r.Num? ==> r.value * ((m.c10 + m.c11) as real) == m.c10 as real
  {
    RateOfCounts(m.c10, m.c11)
  }

  /** `hit / (hit + miss)` over counts. */
  function RateOfCounts(hit: nat, miss: nat): (r: Score)
    ensures r.Num? <==> hit + miss > 0
    ensures r.Num? ==> 0.0 <= r.value <= 1.0
    ensures r.Num? ==> r.value * ((hit + miss) as real) == hit as real
  {
    if hit + miss == 0 then NaN else Num((hit as real) / ((hit + miss) as real))
  }

  /** With the row total fixed, a larger hit count gives a rate at least as large. */
  lemma RateMonotone(hit1: nat, miss1: nat, hit2: nat, miss2: nat)
    requires hit1 + miss1 == hit2 + miss2 > 0
    requires hit1 <= hit2
    ensures RateOfCounts(hit1, miss1).value <= RateOfCounts(hit2, miss2).value
  {
    var n := (hit1 + miss1) as real;
    var v1, v2 := RateOfCounts(hit1, miss1).value, RateOfCounts(hit2, miss2).value;
    assert (v2 - v1) * n == (hit2 - hit1) as real;
    if v2 < v1 {
      assert (v1 - v2) * n > 0.0;
    }
  }

  /**
   From `a` to `b` the flagged column (c00 and c10) of a matrix only grows while each row
   keeps its total.
   */
  predicate Grows(a: Matrix, b: Matrix) {
    a.c00 <= b.c00 && a.c10 <= b.c10 && a.c00 + a.c01 == b.c00 + b.c01 && a.c10 + a.c11 == b.c10 + b.c11
  }

  /** A growing matrix has rates at least as large, NaN in the same rows. */
  lemma RatesGrow(a: Matrix, b: Matrix)
    requires Grows(a, b)
    ensures TPR(a).Num? <==> TPR(b).Num?
    ensures FPR(a).Num? <==> FPR(b).Num?
    ensures TPR(a).Num? ==> TPR(a).value <= TPR(b).value
    ensures FPR(a).Num? ==> FPR(a).value <= FPR(b).value
  {
    if a.c00 + a.c01 > 0 {
      RateMonotone(a.c00, a.c01, b.c00, b.c01);
    }
    if a.c10 + a.c11 > 0 {
      RateMonotone(a.c10, a.c11, b.c10, b.c11);
    }
  }

  /**
   When every prediction of `first` under `p1` is still `first` under `p2`,
   the matrix grows from `p1` to `p2`.
   */
  lemma MatrixGrows(truth: seq<bool>, p1: seq<bool>, p2: seq<bool>, first: bool)
    requires |truth| == |p1| == |p2|
    requires forall i :: 0 <= i < |truth| ==> p1[i] == first ==> p2[i] == first
    ensures Grows(ConfusionMatrix(truth, p1, first), ConfusionMatrix(truth, p2, first))
  {
    FirstColumnMonotone(truth, p1, p2, first);
  }

  /**
   The rates of a confusion matrix: TPR is the share of entries labelled
   `first` that are predicted `first`, FPR the share of the other entries
   that are; each is NaN exactly when its label never occurs.
   */
  lemma RatesOfConfusion(truth: seq<bool>, pred: seq<bool>, first: bool)
    requires |truth| == |pred|
    ensures TPR(ConfusionMatrix(truth, pred, first)) ==
      RateOfCounts(CountPairs(truth, pred, first, first), CountPairs(truth, pred, first, !first))
    ensures FPR(ConfusionMatrix(truth, pred, first)) ==
      RateOfCounts(CountPairs(truth, pred, !first, first), CountPairs(truth, pred, !first, !first))
    ensures TPR(ConfusionMatrix(truth, pred, first)).Num? <==> CountLabel(truth, first) > 0
    ensures FPR(ConfusionMatrix(truth, pred, first)).Num? <==> CountLabel(truth, !first) > 0
  {
    var m := ConfusionMatrix(truth, pred, first);
    assert m.c00 == CountPairs(truth, pred, first, first) && m.c01 == CountPairs(truth, pred, first, !first);
    assert m.c10 == CountPairs(truth, pred, !first, first) && m.c11 == CountPairs(truth, pred, !first, !first);
    RowAndColumnSums(truth, pred, first);
  }
}

=== FILE: dataset.dfy ===
/**
 Loading per-user tweet files into one table, and the two ways the evaluation scripts
 split it into training and test rows. A directory is given as its listing,
 each file with its parsed rows; reading and JSON parsing are not modelled.
 */
module Dataset {
  import opened Wrappers
  import opened Vectors
  import opened Permutations

  /** One parsed row of a user file: `[tweet, date, embedding]`. */
  datatype Entry = Entry(tweet: string, date: string, embedding: Vector)

  datatype DataFile = DataFile(fileName: string, entries: seq<Entry>)

  /** A row of the combined table, tagged with the user it came from. */
  datatype Row = Row(tweet: string, date: string, embedding: Vector, name: string)

  /** `file[0] == '@'`: a Twitter handle. Directory listings never hold empty names. */
  predicate IsHandleFile(fileName: string) {
    |fileName| > 0 && fileName[0] == '@'
  }

  /** `file.split('.')[0]`: the file name up to its first dot. */
  function UserName(fileName: string): (r: string)
    ensures '.' !in r
    ensures r <= fileName
    ensures |r| < |fileName| ==> fileName[|r|] == '.'
  {
    if |fileName| == 0 || fileName[0] == '.' then ""
    else [fileName[0]] + UserName(fileName[1..])
  }

  /** The rows of one file, tagged with the file's user name. */
  function Frame(f: DataFile): (r: seq<Row>)
    ensures |r| == |f.entries|
    ensures forall i :: 0 <= i < |r| ==>
      r[i] == Row(f.entries[i].tweet, f.entries[i].date, f.entries[i].embedding, UserName(f.fileName))
  {
    seq(|f.entries|, i requires 0 <= i < |f.entries| =>
      Row(f.entries[i].tweet, f.entries[i].date, f.entries[i].embedding, UserName(f.fileName)))
  }

  /** How many handle files the listing holds. */
  function HandleCount(files: seq<DataFile>): nat {
    if |files| == 0 then 0 else (if IsHandleFile(files[0].fileName) then 1 else 0) + HandleCount(files[1..])
  }

  /** How many entries the handle files hold altogether. */
  function HandleEntries(files: seq<DataFile>): nat {
    if |files| == 0 then 0
    else (if IsHandleFile(files[0].fileName) then |files[0].entries| else 0) + HandleEntries(files[1..])
  }

  /** The frames of the handle files, concatenated in listing order. */
  function Concat(files: seq<DataFile>): (r: seq<Row>)
    ensures |r| == HandleEntries(files)
  {
    if |files| == 0 then []
    else (if IsHandleFile(files[0].fileName) then Frame(files[0]) else []) + Concat(files[1..])
  }

  /** Every concatenated row is named after one of the handle files. */
  lemma {:induction false} ConcatRowsNamed(files: seq<DataFile>, i: nat)
    requires i < |Concat(files)|
    ensures exists f :: f in files && IsHandleFile(f.fileName) && Concat(files)[i].name == UserName(f.fileName)
    decreases |files|
  {
    var head := if IsHandleFile(files[0].fileName) then Frame(files[0]) else [];
    var rest := Concat(files[1..]);
    assert Concat(files) == head + rest;
    if i < |head| {
      assert Concat(files)[i] == head[i];
      assert files[0] in files;
    } else {
      assert Concat(files)[i] == rest[i - |head|];
      ConcatRowsNamed(files[1..], i - |head|);
      var f :| f in files[1..] && IsHandleFile(f.fileName) && rest[i - |head|].name == UserName(f.fileName);
      assert f in files;
    }
  }

  /**
   A handle file holding no entries: `pd.read_json` of `[]` has no columns,
   so naming three of them raises.
   */
  predicate HasEmptyHandleFile(files: seq<DataFile>) {
    exists i :: 0 <= i < |files| && IsHandleFile(files[i].fileName) && |files[i].entries| == 0
  }

  /**
   The loop over the listing and `pd.concat(frames)`: only handle files are
   read, each row named after its file. A handle file without entries fails
   at its column assignment, inside the loop; with no handle file at all the
   concatenation raises.
   */
  function LoadRows(files: seq<DataFile>): (r: Result<seq<Row>>)
    ensures r.Err? <==> HandleCount(files) == 0 || HasEmptyHandleFile(files)
    ensures HasEmptyHandleFile(files) ==> r == Err(ValueError)
    ensures !HasEmptyHandleFile(files) && HandleCount(files) == 0 ==> r == Err(NothingToConcatenate)
    ensures r.Ok? ==> r.value == Concat(files) && |r.value| >= HandleCount(files) > 0
  {
    if HasEmptyHandleFile(files) then Err(ValueError)
    else if HandleCount(files) == 0 then Err(NothingToConcatenate)
    else
      EntriesCoverHandles(files);
      Ok(Concat(files))
  }

  /** When no handle file is empty, each contributes at least one row. */
  lemma {:induction false} EntriesCoverHandles(files: seq<DataFile>)
    requires !HasEmptyHandleFile(files)
    ensures HandleEntries(files) >= HandleCount(files)
  {
    if |files| > 0 {
      forall i | 0 <= i < |files[1..]|
        ensures !(IsHandleFile(files[1..][i].fileName) && |files[1..][i].entries| == 0)
      {
        assert files[1..][i] == files[i + 1];
      }
      EntriesCoverHandles(files[1..]);
      if IsHandleFile(files[0].fileName) {
        assert |files[0].entries| > 0;
      }
    }
  }

  /** Files that are not handles contribute nothing to the table. */
  lemma {:induction false} NonHandleFilesIgnored(files: seq<DataFile>, other: DataFile)
    requires !IsHandleFile(other.fileName)
    ensures Concat([other] + files) == Concat(files)
    ensures HandleCount([other] + files) == HandleCount(files)
  {
    assert ([other] + files)[1..] == files;
  }

  /** `int(frac * n)`, the split index; for `0 <= frac` the truncation is a floor. */
  function SplitIndex(frac: real, n: nat): (k: nat)
    requires 0.0 <= frac <= 1.0
    ensures k <= n
    ensures (k as real) <= frac * (n as real) < (k as real) + 1.0
  {
    MulBounds(frac, n);
    (frac * (n as real)).Floor
  }

  lemma MulBounds(frac: real, n: nat)
    requires 0.0 <= frac <= 1.0
    ensures 0.0 <= frac * (n as real) <= n as real
  {
  }

  /**
   `np.split(data.sample(frac=1), [int(frac * n)])`: the shuffled rows, cut
   at the split index into a training prefix and a test suffix.
   */
  function SampleAndSplit(rows: seq<Row>, perm: seq<nat>, frac: real): (r: (seq<Row>, seq<Row>))
    requires IsPermutation(perm, |rows|) && 0.0 <= frac <= 1.0
    ensures |r.0| == SplitIndex(frac, |rows|) && |r.0| + |r.1| == |rows|
    ensures r.0 + r.1 == Reorder(rows, perm)
  {
    var shuffled := Reorder(rows, perm);
    var k := SplitIndex(frac, |rows|);
    assert shuffled[..k] + shuffled[k..] == shuffled;
    (shuffled[..k], shuffled[k..])
  }

  /** At the default fraction 0.5 the training part is the first `floor(n/2)` rows. */
  lemma HalfSplit(rows: seq<Row>, perm: seq<nat>)
    requires IsPermutation(perm, |rows|)
    ensures |SampleAndSplit(rows, perm, 0.5).0| == |rows| / 2
  {
    var n := |rows|;
    var k := SplitIndex(0.5, n);
    assert (k as real) <= 0.5 * (n as real) < (k as real) + 1.0;
    assert 2 * k <= n < 2 * k + 2;
  }

  /** Training and test rows together are a permutation of the input rows. */
  lemma SplitIsPartition(rows: seq<Row>, perm: seq<nat>, frac: real)
    requires IsPermutation(perm, |rows|) && 0.0 <= frac <= 1.0
    ensures multiset(SampleAndSplit(rows, perm, frac).0) + multiset(SampleAndSplit(rows, perm, frac).1) == multiset(rows)
  {
    var r := SampleAndSplit(rows, perm, frac);
    assert multiset(r.0 + r.1) == multiset(r.0) + multiset(r.1);
    ReorderIsPermutation(rows, perm);
  }

  /** `ceil(x)` for a non-negative real. */
  function Ceil(x: real): (c: int)
    ensures (c as real) - 1.0 < x <= c as real
  {
    -((-x).Floor)
  }

  /**
   `train_test_split(data, test_size=testFrac, random_state=seed)`, with the
   seeded permutation given: the test part is the first `ceil(testFrac * n)`
   shuffled rows and the training part the rest; a split that would leave no
   training row is refused.
   */
  function TrainTestSplit(rows: seq<Row>, perm: seq<nat>, testFrac: real): (r: Result<(seq<Row>, seq<Row>)>)
    requires IsPermutation(perm, |rows|) && 0.0 < testFrac < 1.0
    ensures r.Err? <==> Ceil(testFrac * (|rows| as real)) >= |rows|
    ensures r.Ok? ==> |r.value.1| == Ceil(testFrac * (|rows| as real)) && |r.value.0| > 0
    ensures r.Ok? ==> r.value.1 + r.value.0 == Reorder(rows, perm)
  {
    var nTest := Ceil(testFrac * (|rows| as real));
    if nTest >= |rows| then Err(EmptyTrainSplit)
    else
      var shuffled := Reorder(rows, perm);
      assert 0 <= nTest;
      assert shuffled[..nTest] + shuffled[nTest..] == shuffled;
      Ok((shuffled[nTest..], shuffled[..nTest]))
  }

  /** The train/test split keeps every row exactly once. */
  lemma TrainTestSplitIsPartition(rows: seq<Row>, perm: seq<nat>, testFrac: real)
    requires IsPermutation(perm, |rows|) && 0.0 < testFrac < 1.0
    requires TrainTestSplit(rows, perm, testFrac).Ok?
    ensures var r := TrainTestSplit(rows, perm, testFrac).value;
      multiset(r.0) + multiset(r.1) == multiset(rows)
  {
    var r := TrainTestSplit(rows, perm, testFrac).value;
    assert multiset(r.1 + r.0) == multiset(r.1) + multiset(r.0);
    ReorderIsPermutation(rows, perm);
  }

  /** Some row of `rows` carries the name `x`. */
  predicate HasName(rows: seq<Row>, x: string) {
    exists k :: 0 <= k < |rows| && rows[k].name == x
  }

  /** A name occurs in non-empty rows iff it heads them or occurs in the rest. */
  lemma HasNameCons(rows: seq<Row>, x: string)
    requires |rows| > 0
    ensures HasName(rows, x) <==> rows[0].name == x || HasName(rows[1..], x)
  {
    if HasName(rows, x) && rows[0].name != x {
      var k :| 0 <= k < |rows| && rows[k].name == x;
      assert rows[1..][k - 1].name == x;
    }
    if HasName(rows[1..], x) {
      var k :| 0 <= k < |rows[1..]| && rows[1..][k].name == x;
      assert rows[k + 1].name == x;
    }
  }

  /** The position of the first row named `x`. */
  function FirstIndex(rows: seq<Row>, x: string): (k: nat)
    requires HasName(rows, x)
    ensures k < |rows| && rows[k].name == x
    ensures forall j :: 0 <= j < k ==> rows[j].name != x
  {
    if rows[0].name == x then 0
    else
      HasNameCons(rows, x);
      1 + FirstIndex(rows[1..], x)
  }

  /**
   From position `from` on, `names` occur in `rows` and are listed in the
   order of their first rows.
   */
  predicate NamesInOrder(rows: seq<Row>, names: seq<string>, from: nat) {
    && (forall i :: from <= i < |names| ==> HasName(rows, names[i]))
    && (forall i, j :: from <= i < j < |names| ==> FirstIndex(rows, names[i]) < FirstIndex(rows, names[j]))
  }

  /** `df['name'].unique()`: the distinct names, in order of first appearance. */
  function UniqueNames(rows: seq<Row>): (r: seq<string>)
    ensures forall i, j :: 0 <= i < j < |r| ==> r[i] != r[j]
    ensures forall x :: x in r <==> HasName(rows, x)
    ensures forall i, j :: 0 <= i < j < |r| ==> FirstIndex(rows, r[i]) < FirstIndex(rows, r[j])
  {
    UniqueFrom(rows, [])
  }

  /** Appends to `seen` the names of `rows` not already in it, in order. */
  function UniqueFrom(rows: seq<Row>, seen: seq<string>): (r: seq<string>)
    requires forall i, j :: 0 <= i < j < |seen| ==> seen[i] != seen[j]
    ensures forall i, j :: 0 <= i < j < |r| ==> r[i] != r[j]
    ensures forall x :: x in r <==> x in seen || HasName(rows, x)
    ensures seen <= r && NamesInOrder(rows, r, |seen|)
    decreases |rows|
  {
    if |rows| == 0 then seen
    else
      var next := if rows[0].name in seen then seen else seen + [rows[0].name];
      var r := UniqueFrom(rows[1..], next);
      forall x ensures HasName(rows, x) <==> x == rows[0].name || HasName(rows[1..], x) {
        HasNameCons(rows, x);
      }
      UniqueFromStep(rows, seen, next, r);
      r
  }

  /** The order of the names found in the rest of the rows carries over to all of them. */
  lemma UniqueFromStep(rows: seq<Row>, seen: seq<string>, next: seq<string>, r: seq<string>)
    requires |rows| > 0
    requires next == if rows[0].name in seen then seen else seen + [rows[0].name]
    requires forall i, j :: 0 <= i < j < |r| ==> r[i] != r[j]
    requires next <= r && NamesInOrder(rows[1..], r, |next|)
    ensures NamesInOrder(rows, r, |seen|)
  {
    var x := rows[0].name;
    var m :| 0 <= m < |next| && next[m] == x;
    assert r[m] == x;
    forall i | |seen| <= i < |r| ensures HasName(rows, r[i]) {
      if i < |next| {
        assert r[i] == x;
      } else {
        HasNameCons(rows, r[i]);
      }
    }
    forall i, j | |seen| <= i < j < |r| ensures FirstIndex(rows, r[i]) < FirstIndex(rows, r[j]) {
      assert r[j] != x;
      if i >= |next| {
        assert r[i] != x;
        HasNameCons(rows, r[i]);
        HasNameCons(rows, r[j]);
      }
    }
  }

  /** The `embedding` column. */
  function Embeddings(rows: seq<Row>): (r: seq<Vector>)
    ensures |r| == |rows|
    ensures forall i :: 0 <= i < |rows| ==> r[i] == rows[i].embedding
  {
    seq(|rows|, i requires 0 <= i < |rows| => rows[i].embedding)
  }

  /** `test_data['name'] != user`: the `is_fraud` column for `user`. */
  function IsFraud(rows: seq<Row>, user: string): (r: seq<bool>)
    ensures |r| == |rows|
    ensures forall i :: 0 <= i < |rows| ==> (r[i] <==> rows[i].name != user)
  {
    seq(|rows|, i requires 0 <= i < |rows| => rows[i].name != user)
  }

  /** `rows[rows['name'] == user]`: the user's rows, in order. */
  function Own(rows: seq<Row>, user: string): (r: seq<Row>)
    ensures |r| <= |rows|
    ensures forall i :: 0 <= i < |r| ==> r[i].name == user
    decreases |rows|
  {
    if |rows| == 0 then []
    else (if rows[0].name == user then [rows[0]] else []) + Own(rows[1..], user)
  }

  /** `rows[rows['name'] != user]`: everybody else's rows, in order. */
  function Others(rows: seq<Row>, user: string): (r: seq<Row>)
    ensures |r| <= |rows|
    ensures forall i :: 0 <= i < |r| ==> r[i].name != user
    decreases |rows|
  {
    if |rows| == 0 then []
    else (if rows[0].name != user then [rows[0]] else []) + Others(rows[1..], user)
  }

  /** `v` is the embedding of some row of `rows` named `user`. */
  predicate IsUserEmbedding(rows: seq<Row>, user: string, v: Vector) {
    exists k :: 0 <= k < |rows| && rows[k].name == user && v == rows[k].embedding
  }

  /** Every item of `r` is the embedding of some row of `rows` named `user`. */
  predicate FromUserRows(r: seq<Vector>, rows: seq<Row>, user: string) {
    forall i :: 0 <= i < |r| ==> IsUserEmbedding(rows, user, r[i])
  }

  /** `train_data[train_data['name'] == user]['embedding']`: the user's embeddings, in row order. */
  function UserEmbeddings(rows: seq<Row>, user: string): (r: seq<Vector>)
    ensures |r| <= |rows|
    ensures |r| > 0 <==> HasName(rows, user)
    ensures FromUserRows(r, rows, user)
    ensures r == Embeddings(Own(rows, user))
  {
    if |rows| == 0 then []
    else
      var rest := UserEmbeddings(rows[1..], user);
      HasNameCons(rows, user);
      UserRowsCons(rows, user, rest);
      if rows[0].name == user then
        EmbeddingsCons(rows[0], Own(rows[1..], user));
        [rows[0].embedding] + rest
      else rest
  }

  /** Embeddings of a row put in front of others. */
  lemma EmbeddingsCons(x: Row, s: seq<Row>)
    ensures Embeddings([x] + s) == [x.embedding] + Embeddings(s)
  {
  }

  lemma UserRowsCons(rows: seq<Row>, user: string, rest: seq<Vector>)
    requires |rows| > 0 && FromUserRows(rest, rows[1..], user)
    ensures FromUserRows(rest, rows, user)
    ensures rows[0].name == user ==> FromUserRows([rows[0].embedding] + rest, rows, user)
  {
    var tail := rows[1..];
    forall v | IsUserEmbedding(tail, user, v) ensures IsUserEmbedding(rows, user, v) {
      var k :| 0 <= k < |tail| && tail[k].name == user && v == tail[k].embedding;
      assert rows[k + 1] == tail[k];
    }
    if rows[0].name == user {
      var r := [rows[0].embedding] + rest;
      assert IsUserEmbedding(rows, user, rows[0].embedding) by {
        assert rows[0].name == user;
      }
      forall i | 0 <= i < |r| ensures IsUserEmbedding(rows, user, r[i]) {
        if i > 0 { assert r[i] == rest[i - 1]; }
      }
    }
  }

  lemma UserEmbeddingsDim(rows: seq<Row>, user: string, d: nat)
    requires Dim(Embeddings(rows), d)
    ensures Dim(UserEmbeddings(rows, user), d)
  {
    var r := UserEmbeddings(rows, user);
    forall i | 0 <= i < |r| ensures |r[i]| == d {
      assert IsUserEmbedding(rows, user, r[i]);
      var k :| 0 <= k < |rows| && rows[k].name == user && r[i] == rows[k].embedding;
      assert Embeddings(rows)[k] == rows[k].embedding;
    }
  }
}

=== FILE: evaluate.dfy ===
/**
 `evaluate_model_performance`: for every user of the training rows and every
 threshold, a clustered cosine-similarity model is fitted on the user's
 training embeddings and scored on all test rows, where a row is fraudulent
 for that user iff another user wrote it. Per-user rates, per-user matrices
 and one matrix per threshold summed over users are tabulated.
 */
module Evaluation {
  import opened Wrappers
  import opened Vectors
  import opened Hyperparameters
  import opened Confusion
  import opened Dataset
  import opened ClusteredCosSim

  /** The cluster count used for every user; the `num_clusters` argument is never read. */
  const NumClusters: nat := 4

  /** The three dictionaries the evaluation fills. */
  datatype Tables = Tables(ratesByUser: map<string, seq<RatePoint>>,
                           matrixByUser: map<string, map<real, Matrix>>,
                           matrices: map<real, Matrix>)

  function EmptyTables(): Tables {
    Tables(map[], map[], map[])
  }

  /**
   The user's model: `ClusteredCosSimModel` on the user's training
   embeddings with four clusters. It depends on the user only, so building
   it once per threshold, as the loop does, gives the same model each time.
   */
  function UserModel(train: seq<Row>, user: string, d: nat, kmeans: KMeansFit, sqrt: real -> real): (r: Result<ClusteredModel>)
    requires KMeansShape(kmeans, d) && IsSqrt(sqrt) && Dim(Embeddings(train), d)
    ensures r.Err? <==> |UserEmbeddings(train, user)| < NumClusters
    ensures r.Ok? ==> WellShaped(r.value) && r.value.dim == d && |r.value.centroids| == NumClusters
  {
    UserEmbeddingsDim(train, user, d);
    NewClusteredModel(Some(UserEmbeddings(train, user)), NumClusters, d, kmeans, sqrt)
  }

  /** The model can score the test rows. */
  predicate Fits(m: ClusteredModel, test: seq<Row>) {
    WellShaped(m) && Dim(Embeddings(test), m.dim)
  }

  /** The model's flags on the test rows at threshold `t`; setting the threshold means reading it cannot fail. */
  function Flags(m: ClusteredModel, test: seq<Row>, t: real): (r: seq<bool>)
    requires Fits(m, test)
    ensures |r| == |test|
    ensures forall i :: 0 <= i < |test| ==> (r[i] <==> NoCentroidAbove(m.centroids, test[i].embedding, t))
  {
    var m' := ClusteredCosSim.WithThreshold(m, t);
    assert ThresholdKey in m'.params;
    Predictions(m', Embeddings(test)).value
  }

  /**
   `compute_confusion_matrix` with labels `[True, False]`: row 0 counts the
   other users' rows, row 1 the user's own, and column 0 the flagged rows.
   */
  function FraudMatrix(m: ClusteredModel, test: seq<Row>, user: string, t: real): (c: Matrix)
    requires Fits(m, test)
    ensures Total(c) == |test|
    ensures c.c00 + c.c01 == CountLabel(IsFraud(test, user), true)
    ensures c.c10 + c.c11 == CountLabel(IsFraud(test, user), false)
    ensures c.c00 + c.c10 == CountLabel(Flags(m, test, t), true)
  {
    ConfusionMatrix(IsFraud(test, user), Flags(m, test, t), true)
  }

  /** The integer nearest to `y`, a tie going to the even one (IEEE 754 `rint`). */
  function RoundHalfEven(y: real): (n: int)
    ensures -0.5 <= (n as real) - y <= 0.5
  {
    var f := y.Floor;
    if y - (f as real) < 0.5 then f
    else if y - (f as real) > 0.5 then f + 1
    else if f % 2 == 0 then f else f + 1
  }

  /** `np.round(x, 2)`: to the nearest hundredth, a tie going to the even hundredth. */
  function Round2(x: real): (r: real)
    ensures -0.005 <= r - x <= 0.005
    ensures (r * 100.0).Floor as real == r * 100.0
  {
    var n := RoundHalfEven(x * 100.0);
    var r := (n as real) / 100.0;
    assert r * 100.0 == n as real;
    assert (n as real).Floor == n;
    r
  }

  /** Rounding leaves NaN as NaN. */
  function RoundScore(s: Score): (r: Score)
    ensures r.NaN? <==> s.NaN?
    ensures r.Num? ==> -0.005 <= r.value - s.value <= 0.005
  {
    match s
    case NaN => NaN
    case Num(x) => Num(Round2(x))
  }

  lemma RoundHalfEvenMonotone(y1: real, y2: real)
    requires y1 <= y2
    ensures RoundHalfEven(y1) <= RoundHalfEven(y2)
  {
    assert y1.Floor <= y2.Floor;
  }

  /** Rounding never reverses an order. */
  lemma Round2Monotone(x: real, y: real)
    requires x <= y
    ensures Round2(x) <= Round2(y)
  {
    RoundHalfEvenMonotone(x * 100.0, y * 100.0);
  }

  /** Rounding keeps a rate within [0, 1]. */
  lemma Round2UnitInterval(x: real)
    requires 0.0 <= x <= 1.0
    ensures 0.0 <= Round2(x) <= 1.0
  {
    RoundHalfEvenMonotone(0.0, x * 100.0);
    RoundHalfEvenMonotone(x * 100.0, 100.0);
    assert RoundHalfEven(0.0) == 0 && RoundHalfEven(100.0) == 100;
  }

  /** The tuple appended for one matrix: rates rounded to two decimals. */
  function Point(t: real, c: Matrix): RatePoint {
    RatePoint(t, RoundScore(TPR(c)), RoundScore(FPR(c)))
  }

  /** The accumulated matrix for `t`, or the zero matrix `np.zeros` would start it at. */
  function Base(matrices: map<real, Matrix>, t: real): Matrix {
    if t in matrices then matrices[t] else ZeroMatrix()
  }

  /** `k` copies of `c` added up. */
  function Times(k: nat, c: Matrix): (r: Matrix)
    ensures k == 0 ==> r == ZeroMatrix()
  {
    Matrix(k * c.c00, k * c.c01, k * c.c10, k * c.c11)
  }

  /** A user's model seen through its matrix, and the point tabulated, at each threshold. */
  datatype Run = Run(matrix: real -> Matrix, point: real -> RatePoint)

  /**
   One pass of the inner loop body at threshold `t`, where `c` is the
   user's matrix there and `p` its point: append the point, record the
   matrix, create the global matrix at zero if absent and add the user's
   matrix to it.
   */
  function Step(e: Tables, user: string, t: real, c: Matrix, p: RatePoint): (r: Tables)
    requires user in e.ratesByUser && user in e.matrixByUser
    ensures user in r.ratesByUser && user in r.matrixByUser
    ensures forall v :: v != user ==> Keeps(e, r, v)
  {
    Tables(e.ratesByUser[user := e.ratesByUser[user] + [p]],
           e.matrixByUser[user := e.matrixByUser[user][t := c]],
           Accumulate(e.matrices, t, c))
  }

  /** The inner loop over `thresholds` for one user, as seen through `run`. */
  function InnerLoop(e: Tables, user: string, thresholds: seq<real>, run: Run): (r: Tables)
    requires user in e.ratesByUser && user in e.matrixByUser
    ensures r.ratesByUser.Keys == e.ratesByUser.Keys && r.matrixByUser.Keys == e.matrixByUser.Keys
    ensures forall v :: v != user ==> Keeps(e, r, v)
    decreases |thresholds|
  {
    if |thresholds| == 0 then e
    else
      var s := Step(e, user, thresholds[0], run.matrix(thresholds[0]), run.point(thresholds[0]));
      var r := InnerLoop(s, user, thresholds[1..], run);
      assert forall v :: v != user ==> Keeps(e, r, v) by {
        forall v | v != user ensures Keeps(e, r, v) {
          assert Keeps(e, s, v) && Keeps(s, r, v);
        }
      }
      r
  }

  /** Whatever `a` holds for user `v`, in either per-user table, `b` holds unchanged. */
  predicate Keeps(a: Tables, b: Tables, v: string) {
    && (v in a.ratesByUser ==> v in b.ratesByUser && b.ratesByUser[v] == a.ratesByUser[v])
    && (v in a.matrixByUser ==> v in b.matrixByUser && b.matrixByUser[v] == a.matrixByUser[v])
  }

  /**
   User `u`'s finished entries, where `run` is its model or the error building
   it raised: with no thresholds an empty list and an empty table; otherwise
   the model exists, the list holds its points in threshold order, and the
   table maps exactly the listed thresholds to its matrices.
   */
  ghost predicate Tabulated(e: Tables, u: string, thresholds: seq<real>, run: Result<Run>) {
    && u in e.ratesByUser && u in e.matrixByUser
    && (|thresholds| == 0 ==> e.ratesByUser[u] == [] && e.matrixByUser[u] == map[])
    && (|thresholds| > 0 ==>
          && run.Ok?
          && e.ratesByUser[u] == Points(thresholds, run.value)
          && (forall t :: t in e.matrixByUser[u] <==> t in thresholds)
          && (forall t :: t in thresholds ==> e.matrixByUser[u][t] == run.value.matrix(t)))
  }

  /** The inner loop run on a freshly reset user leaves that user tabulated. */
  lemma InnerLoopTabulates(e: Tables, user: string, thresholds: seq<real>, run: Run)
    requires user in e.ratesByUser && user in e.matrixByUser
    requires e.ratesByUser[user] == [] && e.matrixByUser[user] == map[] && |thresholds| > 0
    ensures Tabulated(InnerLoop(e, user, thresholds, run), user, thresholds, Ok(run))
  {
    InnerLoopRates(e, user, thresholds, run);
    InnerLoopUserMatrices(e, user, thresholds, run);
    assert [] + Points(thresholds, run) == Points(thresholds, run);
  }

  /** The points of one user, one per threshold and in threshold order. */
  function Points(thresholds: seq<real>, run: Run): (r: seq<RatePoint>)
    ensures |r| == |thresholds|
      {
    seq(|thresholds|, k requires 0 <= k < |thresholds| => run.point(thresholds[k]))
  }

  /**
   The inner loop's effect on the point lists: the user's list grows by one
   point per threshold, in order, and no other user's list changes.
   */
  lemma {:induction false} InnerLoopRates(e: Tables, user: string, thresholds: seq<real>, run: Run)
    requires user in e.ratesByUser && user in e.matrixByUser
    ensures InnerLoop(e, user, thresholds, run).ratesByUser ==
      e.ratesByUser[user := e.ratesByUser[user] + Points(thresholds, run)]
    decreases |thresholds|
  {
    if |thresholds| == 0 {
      assert e.ratesByUser[user] + Points(thresholds, run) == e.ratesByUser[user];
    } else {
      var t0 := thresholds[0];
      var e' := Step(e, user, t0, run.matrix(t0), run.point(t0));
      InnerLoopRates(e', user, thresholds[1..], run);
      var p0 := run.point(t0);
      assert Points(thresholds, run) == [p0] + Points(thresholds[1..], run);
      AppendAfterUpdate(e.ratesByUser, user, e.ratesByUser[user], p0, Points(thresholds[1..], run));
    }
  }

  /** Appending a point and then a list to one user's entry appends their concatenation. */
  lemma AppendAfterUpdate(m: map<string, seq<RatePoint>>, user: string, a: seq<RatePoint>, p: RatePoint, rest: seq<RatePoint>)
    ensures m[user := a + [p]][user := (a + [p]) + rest] == m[user := a + ([p] + rest)]
  {
    assert (a + [p]) + rest == a + ([p] + rest);
  }

  /**
   The inner loop's effect on the per-user matrices: every listed threshold
   maps to its matrix, and no other user's entry changes.
   */
  lemma {:induction false} InnerLoopUserMatrices(e: Tables, user: string, thresholds: seq<real>, run: Run)
    requires user in e.ratesByUser && user in e.matrixByUser
    ensures var r := InnerLoop(e, user, thresholds, run);
      && r.matrixByUser.Keys == e.matrixByUser.Keys
      && (forall u :: u in e.matrixByUser && u != user ==> r.matrixByUser[u] == e.matrixByUser[u])
      && (forall t :: t in r.matrixByUser[user] <==> t in e.matrixByUser[user] || t in thresholds)
      && (forall t :: t in thresholds ==> r.matrixByUser[user][t] == run.matrix(t))
      && (forall t :: t !in thresholds && t in e.matrixByUser[user] ==> r.matrixByUser[user][t] == e.matrixByUser[user][t])
    decreases |thresholds|
  {
    if |thresholds| > 0 {
      var t0 := thresholds[0];
      var rest := thresholds[1..];
      var e' := Step(e, user, t0, run.matrix(t0), run.point(t0));
      InnerLoopUserMatrices(e', user, rest, run);
      var r := InnerLoop(e, user, thresholds, run);
      assert r == InnerLoop(e', user, rest, run);
      assert e'.matrixByUser[user] == e.matrixByUser[user][t0 := run.matrix(t0)];
      assert forall t :: t in thresholds <==> t == t0 || t in rest by {
        assert thresholds == [t0] + rest;
      }
    }
  }

  /** The global matrix for `t` after `c` is added to it, created at zero if absent. */
  function Accumulate(matrices: map<real, Matrix>, t: real, c: Matrix): map<real, Matrix> {
    matrices[t := Confusion.Add(Base(matrices, t), c)]
  }

  /** The global matrices after the inner loop's additions for `thresholds`. */
  function AccumulateAll(matrices: map<real, Matrix>, thresholds: seq<real>, run: Run): map<real, Matrix>
    decreases |thresholds|
  {
    if |thresholds| == 0 then matrices
    else AccumulateAll(Accumulate(matrices, thresholds[0], run.matrix(thresholds[0])), thresholds[1..], run)
  }

  /** The inner loop touches the global matrices only through its additions. */
  lemma {:induction false} InnerLoopAccumulates(e: Tables, user: string, thresholds: seq<real>, run: Run)
    requires user in e.ratesByUser && user in e.matrixByUser
    ensures InnerLoop(e, user, thresholds, run).matrices == AccumulateAll(e.matrices, thresholds, run)
    decreases |thresholds|
  {
    if |thresholds| > 0 {
      InnerLoopAccumulates(Step(e, user, thresholds[0], run.matrix(thresholds[0]), run.point(thresholds[0])), user, thresholds[1..], run);
    }
  }

  /**
   The additions' effect on the global matrix for `t`: it exists iff it
   did or `t` is listed, and it gains the user's matrix once per occurrence
   of `t` among the thresholds.
   */
  lemma {:induction false} AccumulateAllAt(matrices: map<real, Matrix>, thresholds: seq<real>, run: Run, t: real)
    ensures Base(AccumulateAll(matrices, thresholds, run), t) ==
      Confusion.Add(Base(matrices, t), Times(multiset(thresholds)[t], run.matrix(t)))
    decreases |thresholds|
  {
    if |thresholds| == 0 {
      assert multiset(thresholds)[t] == 0;
      AddZero(Base(matrices, t));
    } else {
      var t0 := thresholds[0];
      var rest := thresholds[1..];
      var next := Accumulate(matrices, t0, run.matrix(t0));
      AccumulateAllAt(next, rest, run, t);
      assert AccumulateAll(matrices, thresholds, run) == AccumulateAll(next, rest, run);
      MultisetCons(thresholds, t);
      var k := multiset(rest)[t];
      if t == t0 {
        TimesSucc(k, run.matrix(t));
        AddAssociative(Base(matrices, t), run.matrix(t), Times(k, run.matrix(t)));
      } else {
        assert Base(next, t) == Base(matrices, t);
      }
    }
  }

  /** The additions create exactly the listed thresholds' matrices. */
  lemma {:induction false} AccumulateAllKeys(matrices: map<real, Matrix>, thresholds: seq<real>, run: Run, t: real)
    ensures t in AccumulateAll(matrices, thresholds, run) <==> t in matrices || t in thresholds
    decreases |thresholds|
  {
    if |thresholds| > 0 {
      AccumulateAllKeys(Accumulate(matrices, thresholds[0], run.matrix(thresholds[0])), thresholds[1..], run, t);
      assert thresholds == [thresholds[0]] + thresholds[1..];
    }
  }

  lemma MultisetCons(s: seq<real>, t: real)
    requires |s| > 0
    ensures multiset(s)[t] == multiset(s[1..])[t] + (if s[0] == t then 1 else 0)
  {
    assert s == [s[0]] + s[1..];
  }

  /**
   The inner loop's effect on the global matrix for `t`: it gains the user's
   matrix once per occurrence of `t` among the thresholds.
   */
  lemma InnerLoopAt(e: Tables, user: string, thresholds: seq<real>, run: Run, t: real)
    requires user in e.ratesByUser && user in e.matrixByUser
    ensures Base(InnerLoop(e, user, thresholds, run).matrices, t) ==
      Confusion.Add(Base(e.matrices, t), Times(multiset(thresholds)[t], run.matrix(t)))
  {
    InnerLoopAccumulates(e, user, thresholds, run);
    AccumulateAllAt(e.matrices, thresholds, run, t);
  }

  lemma AddZero(c: Matrix)
    ensures Confusion.Add(c, ZeroMatrix()) == c
  {
  }

  lemma AddAssociative(a: Matrix, b: Matrix, c: Matrix)
    ensures Confusion.Add(Confusion.Add(a, b), c) == Confusion.Add(a, Confusion.Add(b, c))
  {
  }

  lemma TimesZero(k: nat)
    ensures Times(k, ZeroMatrix()) == ZeroMatrix()
  {
  }

  lemma TimesSucc(k: nat, c: Matrix)
    ensures Times(k + 1, c) == Confusion.Add(c, Times(k, c))
  {
    assert (k + 1) * c.c00 == c.c00 + k * c.c00;
    assert (k + 1) * c.c01 == c.c01 + k * c.c01;
    assert (k + 1) * c.c10 == c.c10 + k * c.c10;
    assert (k + 1) * c.c11 == c.c11 + k * c.c11;
  }

  /** The matrices and points of one user's model at every threshold. */
  function ModelRun(m: ClusteredModel, test: seq<Row>, user: string): (r: Run)
    requires Fits(m, test)
    ensures forall t :: r.matrix(t) == FraudMatrix(m, test, user, t)
    ensures forall t :: r.point(t) == Point(t, FraudMatrix(m, test, user, t))
  {
    Run(t => FraudMatrix(m, test, user, t), t => Point(t, FraudMatrix(m, test, user, t)))
  }

  /**
   Each user's model as the loop builds it: `ClusteredCosSimModel` on the
   user's training embeddings with four clusters, or the error its
   constructor raises.
   */
  function UserRun(train: seq<Row>, test: seq<Row>, user: string, d: nat, kmeans: KMeansFit, sqrt: real -> real): (r: Result<Run>)
    requires KMeansShape(kmeans, d) && IsSqrt(sqrt) && Dim(Embeddings(train), d) && Dim(Embeddings(test), d)
    ensures r.Err? <==> |UserEmbeddings(train, user)| < NumClusters
    ensures r.Ok? ==> r.value == ModelRun(UserModel(train, user, d, kmeans, sqrt).value, test, user)
  {
    match UserModel(train, user, d, kmeans, sqrt)
    case Err(err) => Err(err)
    case Ok(m) => Ok(ModelRun(m, test, user))
  }

  /** `UserRun` for every user, as one function. */
  function Runs(train: seq<Row>, test: seq<Row>, d: nat, kmeans: KMeansFit, sqrt: real -> real): (runs: string -> Result<Run>)
    requires KMeansShape(kmeans, d) && IsSqrt(sqrt) && Dim(Embeddings(train), d) && Dim(Embeddings(test), d)
    ensures forall u :: runs(u) == UserRun(train, test, u, d, kmeans, sqrt)
  {
    u => UserRun(train, test, u, d, kmeans, sqrt)
  }

  /**
   The outer loop over the users, in order, where `runs(u)` is user `u`'s
   model or the error building it raises; the error ends the whole
   evaluation. With no thresholds no model is ever built.
   */
  function OuterLoop(e: Tables, users: seq<string>, thresholds: seq<real>, runs: string -> Result<Run>): (r: Result<Tables>)
    ensures r.Ok? ==> e.ratesByUser.Keys <= r.value.ratesByUser.Keys && e.matrixByUser.Keys <= r.value.matrixByUser.Keys
    ensures r.Ok? ==> HasTables(r.value, users)
    ensures r.Ok? ==> KeepsOutside(e, r.value, users)
    ensures r.Ok? ==> AllTabulated(r.value, users, thresholds, runs)
    decreases |users|
  {
    if |users| == 0 then Ok(e)
    else
      var u := users[0];
      var e' := e.(ratesByUser := e.ratesByUser[u := []], matrixByUser := e.matrixByUser[u := map[]]);
      if |thresholds| == 0 then
        var r := OuterLoop(e', users[1..], thresholds, runs);
        if r.Ok? then OuterStep(e, e', e', r.value, users, thresholds, runs); r else r
      else
        match runs(u)
        case Err(err) => Err(err)
        case Ok(run) =>
          var mid := InnerLoop(e', u, thresholds, run);
          InnerLoopTabulates(e', u, thresholds, run);
          var r := OuterLoop(mid, users[1..], thresholds, runs);
          if r.Ok? then OuterStep(e, e', mid, r.value, users, thresholds, runs); r else r
  }

  /** Every user outside `users` has the same entries in `b` as in `a`. */
  ghost predicate KeepsOutside(a: Tables, b: Tables, users: seq<string>) {
    forall v :: v !in users ==> Keeps(a, b, v)
  }

  /** Every listed user is tabulated from its own model. */
  ghost predicate AllTabulated(e: Tables, users: seq<string>, thresholds: seq<real>, runs: string -> Result<Run>) {
    forall k :: 0 <= k < |users| ==> Tabulated(e, users[k], thresholds, runs(users[k]))
  }

  /**
   One round of the outer loop: the first user is reset to `reset`, tabulated
   in `mid`, and the remaining users' rounds lead to `r`. Either the first
   user comes again later and is tabulated there, or nothing after touches it.
   */
  lemma OuterStep(e: Tables, reset: Tables, mid: Tables, r: Tables, users: seq<string>, thresholds: seq<real>,
                  runs: string -> Result<Run>)
    requires |users| > 0
    requires reset == e.(ratesByUser := e.ratesByUser[users[0] := []], matrixByUser := e.matrixByUser[users[0] := map[]])
    requires forall v :: v != users[0] ==> Keeps(reset, mid, v)
    requires Tabulated(mid, users[0], thresholds, runs(users[0]))
    requires KeepsOutside(mid, r, users[1..]) && AllTabulated(r, users[1..], thresholds, runs)
    ensures KeepsOutside(e, r, users) && AllTabulated(r, users, thresholds, runs)
  {
    var u := users[0];
    var rest := users[1..];
    forall v | v !in users ensures Keeps(e, r, v) {
      assert v != u && v !in rest;
      assert Keeps(e, reset, v) && Keeps(reset, mid, v) && Keeps(mid, r, v);
    }
    forall k | 0 <= k < |users| ensures Tabulated(r, users[k], thresholds, runs(users[k])) {
      if k > 0 {
        assert users[k] == rest[k - 1];
      } else if u in rest {
        var j :| 0 <= j < |rest| && rest[j] == u;
        assert Tabulated(r, rest[j], thresholds, runs(rest[j]));
      } else {
        assert Keeps(mid, r, u);
      }
    }
  }

  /** Every listed user has a point list and a matrix table. */
  predicate HasTables(e: Tables, users: seq<string>) {
    forall k :: 0 <= k < |users| ==> users[k] in e.ratesByUser && users[k] in e.matrixByUser
  }

  /** Every user's model can be built. */
  predicate ModelsExist(users: seq<string>, runs: string -> Result<Run>) {
    forall k :: 0 <= k < |users| ==> runs(users[k]).Ok?
  }

  /** Sum over `users` of each user's matrix at `t` (users without a model add nothing). */
  function UsersMatrix(users: seq<string>, t: real, runs: string -> Result<Run>): (r: Matrix)
    ensures forall k :: 0 <= k < |users| && runs(users[k]).Ok? ==> Below(runs(users[k]).value.matrix(t), r)
    decreases |users|
  {
    if |users| == 0 then ZeroMatrix()
    else
      var own := match runs(users[0])
        case Err(_) => ZeroMatrix()
        case Ok(run) => run.matrix(t);
      Confusion.Add(own, UsersMatrix(users[1..], t, runs))
  }

  /** Every cell of `a` is at most the same cell of `b`. */
  predicate Below(a: Matrix, b: Matrix) {
    a.c00 <= b.c00 && a.c01 <= b.c01 && a.c10 <= b.c10 && a.c11 <= b.c11
  }

  /** The sum over a concatenation of user lists adds the two sums. */
  lemma {:induction false} UsersMatrixAppend(a: seq<string>, b: seq<string>, t: real, runs: string -> Result<Run>)
    ensures UsersMatrix(a + b, t, runs) == Confusion.Add(UsersMatrix(a, t, runs), UsersMatrix(b, t, runs))
    decreases |a|
  {
    if |a| == 0 {
      assert a + b == b;
    } else {
      assert (a + b)[0] == a[0] && (a + b)[1..] == a[1..] + b;
      UsersMatrixAppend(a[1..], b, t, runs);
    }
  }

  /** The global matrix does not depend on the order of the users: swapping two blocks keeps it. */
  lemma UsersMatrixSwap(a: seq<string>, b: seq<string>, t: real, runs: string -> Result<Run>)
    ensures UsersMatrix(a + b, t, runs) == UsersMatrix(b + a, t, runs)
  {
    UsersMatrixAppend(a, b, t, runs);
    UsersMatrixAppend(b, a, t, runs);
  }

  lemma ModelsExistCons(users: seq<string>, runs: string -> Result<Run>)
    requires |users| > 0
    ensures ModelsExist(users, runs) <==> runs(users[0]).Ok? && ModelsExist(users[1..], runs)
  {
    var rest := users[1..];
    if runs(users[0]).Ok? && ModelsExist(rest, runs) {
      forall k | 0 <= k < |users| ensures runs(users[k]).Ok? {
        if k > 0 { assert users[k] == rest[k - 1]; }
      }
    }
    if ModelsExist(users, runs) {
      forall k | 0 <= k < |rest| ensures runs(rest[k]).Ok? {
        assert rest[k] == users[k + 1];
      }
    }
  }

  /**
   The outer loop fails exactly when there are thresholds and some user's
   model cannot be built.
   */
  lemma {:induction false} OuterLoopFails(e: Tables, users: seq<string>, thresholds: seq<real>, runs: string -> Result<Run>)
    ensures OuterLoop(e, users, thresholds, runs).Err? <==> |thresholds| > 0 && !ModelsExist(users, runs)
    decreases |users|
  {
    if |users| > 0 {
      var u := users[0];
      var e' := e.(ratesByUser := e.ratesByUser[u := []], matrixByUser := e.matrixByUser[u := map[]]);
      ModelsExistCons(users, runs);
      if |thresholds| == 0 {
        OuterLoopFails(e', users[1..], thresholds, runs);
      } else if runs(u).Ok? {
        OuterLoopFails(InnerLoop(e', u, thresholds, runs(u).value), users[1..], thresholds, runs);
      }
    }
  }

  /** Adding `k` copies of `a` and then of `b` adds `k` copies of their sum. */
  lemma AddTimesAdd(base: Matrix, k: nat, a: Matrix, b: Matrix)
    ensures Confusion.Add(Confusion.Add(base, Times(k, a)), Times(k, b)) == Confusion.Add(base, Times(k, Confusion.Add(a, b)))
  {
    assert k * (a.c00 + b.c00) == k * a.c00 + k * b.c00;
    assert k * (a.c01 + b.c01) == k * a.c01 + k * b.c01;
    assert k * (a.c10 + b.c10) == k * a.c10 + k * b.c10;
    assert k * (a.c11 + b.c11) == k * a.c11 + k * b.c11;
  }

  /**
   When the outer loop succeeds, the global matrix for `t` exists iff it did
   or there is a user and `t` is listed.
   */
  lemma {:induction false} OuterLoopKeys(e: Tables, users: seq<string>, thresholds: seq<real>, runs: string -> Result<Run>, t: real)
    requires OuterLoop(e, users, thresholds, runs).Ok?
    ensures t in OuterLoop(e, users, thresholds, runs).value.matrices <==> t in e.matrices || (|users| > 0 && t in thresholds)
    decreases |users|
  {
    if |users| > 0 {
      var u := users[0];
      var e' := e.(ratesByUser := e.ratesByUser[u := []], matrixByUser := e.matrixByUser[u := map[]]);
      if |thresholds| == 0 {
        OuterLoopKeys(e', users[1..], thresholds, runs, t);
      } else {
        var run := runs(u).value;
        InnerLoopAccumulates(e', u, thresholds, run);
        AccumulateAllKeys(e'.matrices, thresholds, run, t);
        OuterLoopKeys(InnerLoop(e', u, thresholds, run), users[1..], thresholds, runs, t);
      }
    }
  }

  /** One user's `k` copies added to the base, then the other users' `k` copies: `k` copies of all of them. */
  lemma AddInTurn(last: Matrix, mid: Matrix, base: Matrix, k: nat, own: Matrix, others: Matrix, all: Matrix)
    requires mid == Confusion.Add(base, Times(k, own))
    requires last == Confusion.Add(mid, Times(k, others))
    requires all == Confusion.Add(own, others)
    ensures last == Confusion.Add(base, Times(k, all))
  {
    AddTimesAdd(base, k, own, others);
  }

  /**
   When the outer loop succeeds, the global matrix for `t` gains the sum over
   users of their matrices at `t`, once per occurrence of `t`.
   */
  lemma {:induction false} OuterLoopAt(e: Tables, users: seq<string>, thresholds: seq<real>, runs: string -> Result<Run>, t: real)
    requires OuterLoop(e, users, thresholds, runs).Ok?
    ensures Base(OuterLoop(e, users, thresholds, runs).value.matrices, t) ==
      Confusion.Add(Base(e.matrices, t), Times(multiset(thresholds)[t], UsersMatrix(users, t, runs)))
    decreases |users|
  {
    if |users| == 0 {
      TimesZero(multiset(thresholds)[t]);
    } else {
      var u := users[0];
      var rest := users[1..];
      var e' := e.(ratesByUser := e.ratesByUser[u := []], matrixByUser := e.matrixByUser[u := map[]]);
      if |thresholds| == 0 {
        OuterLoopAt(e', rest, thresholds, runs, t);
        assert multiset(thresholds) == multiset{};
      } else {
        var run := runs(u).value;
        var e'' := InnerLoop(e', u, thresholds, run);
        assert OuterLoop(e, users, thresholds, runs) == OuterLoop(e'', rest, thresholds, runs);
        assert UsersMatrix(users, t, runs) == Confusion.Add(run.matrix(t), UsersMatrix(rest, t, runs));
        InnerLoopAt(e', u, thresholds, run, t);
        OuterLoopAt(e'', rest, thresholds, runs, t);
        AddInTurn(Base(OuterLoop(e'', rest, thresholds, runs).value.matrices, t), Base(e''.matrices, t), Base(e.matrices, t),
                  multiset(thresholds)[t], run.matrix(t), UsersMatrix(rest, t, runs), UsersMatrix(users, t, runs));
      }
    }
  }

  /**
   After the outer loop from empty tables, the summary misses a key exactly
   when thresholds are given but there was no user.
   */
  lemma SummaryFails(users: seq<string>, thresholds: seq<real>, runs: string -> Result<Run>)
    requires OuterLoop(EmptyTables(), users, thresholds, runs).Ok?
    ensures Summary(OuterLoop(EmptyTables(), users, thresholds, runs).value.matrices, thresholds).Err? <==>
      |thresholds| > 0 && |users| == 0
  {
    var o := OuterLoop(EmptyTables(), users, thresholds, runs).value;
    if |thresholds| > 0 {
      OuterLoopKeys(EmptyTables(), users, thresholds, runs, thresholds[0]);
      if |users| > 0 {
        forall k | 0 <= k < |thresholds| ensures thresholds[k] in o.matrices {
          OuterLoopKeys(EmptyTables(), users, thresholds, runs, thresholds[k]);
        }
      }
    }
  }

  /**
   The summary loop after all users: one point per threshold from the global
   matrix, rounded; a threshold with no global matrix (no user at all) is a
   missing dictionary key.
   */
  function Summary(matrices: map<real, Matrix>, thresholds: seq<real>): (r: Result<seq<RatePoint>>)
    ensures r.Err? <==> exists k :: 0 <= k < |thresholds| && thresholds[k] !in matrices
    ensures r.Ok? ==> |r.value| == |thresholds|
    ensures r.Ok? ==> forall k :: 0 <= k < |thresholds| ==> r.value[k] == Point(thresholds[k], matrices[thresholds[k]])
  {
    if |thresholds| == 0 then Ok([])
    else if thresholds[0] !in matrices then Err(ThresholdKeyError(thresholds[0]))
    else
      match Summary(matrices, thresholds[1..])
      case Err(err) =>
        assert exists k :: 0 <= k < |thresholds| && thresholds[k] !in matrices by {
          var k :| 0 <= k < |thresholds[1..]| && thresholds[1..][k] !in matrices;
          assert thresholds[k + 1] !in matrices;
        }
        Err(err)
      case Ok(rest) =>
        assert forall k :: 1 <= k < |thresholds| ==> thresholds[k] == thresholds[1..][k - 1];
        Ok([Point(thresholds[0], matrices[thresholds[0]])] + rest)
  }

  /**
   The tables are what the outer loop leaves from empty ones, and the points
   are the summary of their matrices.
   */
  predicate FromOuterLoop(v: (Tables, seq<RatePoint>), train: seq<Row>, test: seq<Row>, thresholds: seq<real>,
                                d: nat, kmeans: KMeansFit, sqrt: real -> real)
    requires KMeansShape(kmeans, d) && IsSqrt(sqrt) && Dim(Embeddings(train), d) && Dim(Embeddings(test), d)
  {
    var loop := OuterLoop(EmptyTables(), UniqueNames(train), thresholds, Runs(train, test, d, kmeans, sqrt));
    && loop == Ok(v.0)
    && Summary(v.0.matrices, thresholds) == Ok(v.1)
  }

  /** The outer loop over the distinct training names tabulates every training user. */
  lemma OuterLoopTabulatesUsers(train: seq<Row>, test: seq<Row>, thresholds: seq<real>,
                                d: nat, kmeans: KMeansFit, sqrt: real -> real)
    requires KMeansShape(kmeans, d) && IsSqrt(sqrt) && Dim(Embeddings(train), d) && Dim(Embeddings(test), d)
    requires OuterLoop(EmptyTables(), UniqueNames(train), thresholds, Runs(train, test, d, kmeans, sqrt)).Ok?
    ensures UsersTabulated(OuterLoop(EmptyTables(), UniqueNames(train), thresholds, Runs(train, test, d, kmeans, sqrt)).value,
                           train, test, thresholds, d, kmeans, sqrt)
  {
    var users := UniqueNames(train);
    var runs := Runs(train, test, d, kmeans, sqrt);
    var e := OuterLoop(EmptyTables(), users, thresholds, runs).value;
    forall u | HasName(train, u) ensures Tabulated(e, u, thresholds, UserRun(train, test, u, d, kmeans, sqrt)) {
      assert u in users;
      var k :| 0 <= k < |users| && users[k] == u;
      assert Tabulated(e, users[k], thresholds, runs(users[k]));
    }
  }

  /**
   `evaluate_model_performance` after loading: the users are the distinct
   training names in first-appearance order. The function itself returns
   nothing; the model returns the tables and the summary points it builds.
   */
  function EvaluateModelPerformance(train: seq<Row>, test: seq<Row>, thresholds: seq<real>,
                                    d: nat, kmeans: KMeansFit, sqrt: real -> real): (r: Result<(Tables, seq<RatePoint>)>)
    requires KMeansShape(kmeans, d) && IsSqrt(sqrt) && Dim(Embeddings(train), d) && Dim(Embeddings(test), d)
    ensures r.Err? <==>
      |thresholds| > 0 && (|train| == 0 || exists u :: HasName(train, u) && |UserEmbeddings(train, u)| < NumClusters)
    ensures r.Ok? ==> HasTables(r.value.0, UniqueNames(train))
    ensures r.Ok? ==> UsersTabulated(r.value.0, train, test, thresholds, d, kmeans, sqrt)
    ensures r.Ok? ==> FromOuterLoop(r.value, train, test, thresholds, d, kmeans, sqrt)
    ensures r.Ok? ==> |r.value.1| == |thresholds| && forall k :: 0 <= k < |thresholds| ==>
      thresholds[k] in r.value.0.matrices && r.value.1[k] == Point(thresholds[k], r.value.0.matrices[thresholds[k]])
  {
    var users := UniqueNames(train);
    var runs := Runs(train, test, d, kmeans, sqrt);
    OuterLoopFails(EmptyTables(), users, thresholds, runs);
    UsersExist(train);
    AllModelsExist(train, test, d, kmeans, sqrt);
    match OuterLoop(EmptyTables(), users, thresholds, runs)
    case Err(err) => Err(err)
    case Ok(e) =>
      SummaryFails(users, thresholds, runs);
      OuterLoopTabulatesUsers(train, test, thresholds, d, kmeans, sqrt);
      match Summary(e.matrices, thresholds)
      case Err(err) => Err(err)
      case Ok(points) => Ok((e, points))
  }

  /**
   Each training user's finished entries, in the terms of the loop body: the
   k-th point is the rounded rates of the user's fraud matrix at the k-th
   threshold, and the matrix table maps every listed threshold, and nothing
   else, to that matrix.
   */
  lemma EvaluationUserTables(train: seq<Row>, test: seq<Row>, thresholds: seq<real>,
                             d: nat, kmeans: KMeansFit, sqrt: real -> real, u: string)
    requires KMeansShape(kmeans, d) && IsSqrt(sqrt) && Dim(Embeddings(train), d) && Dim(Embeddings(test), d)
    requires EvaluateModelPerformance(train, test, thresholds, d, kmeans, sqrt).Ok?
    requires HasName(train, u) && |thresholds| > 0
    ensures var e := EvaluateModelPerformance(train, test, thresholds, d, kmeans, sqrt).value.0;
      var m := UserModel(train, u, d, kmeans, sqrt);
      && m.Ok? && Fits(m.value, test)
      && u in e.ratesByUser && u in e.matrixByUser
      && |e.ratesByUser[u]| == |thresholds|
      && (forall k :: 0 <= k < |thresholds| ==>
            e.ratesByUser[u][k] == Point(thresholds[k], FraudMatrix(m.value, test, u, thresholds[k])))
      && (forall t :: t in e.matrixByUser[u] <==> t in thresholds)
      && (forall t :: t in thresholds ==> e.matrixByUser[u][t] == FraudMatrix(m.value, test, u, t))
  {
    var e := EvaluateModelPerformance(train, test, thresholds, d, kmeans, sqrt).value.0;
    var run := UserRun(train, test, u, d, kmeans, sqrt);
    assert UsersTabulated(e, train, test, thresholds, d, kmeans, sqrt);
    assert Tabulated(e, u, thresholds, run);
    assert run.value == ModelRun(UserModel(train, u, d, kmeans, sqrt).value, test, u);
  }

  /** Every training user is tabulated from the model built on its training rows. */
  ghost predicate UsersTabulated(e: Tables, train: seq<Row>, test: seq<Row>, thresholds: seq<real>,
                                 d: nat, kmeans: KMeansFit, sqrt: real -> real)
    requires KMeansShape(kmeans, d) && IsSqrt(sqrt) && Dim(Embeddings(train), d) && Dim(Embeddings(test), d)
  {
    forall u :: HasName(train, u) ==> Tabulated(e, u, thresholds, UserRun(train, test, u, d, kmeans, sqrt))
  }

  /** Scaling a matrix by a positive count leaves both rates unchanged. */
  lemma RatesIgnoreMultiplicity(k: nat, c: Matrix)
    requires k > 0
    ensures TPR(Times(k, c)) == TPR(c) && FPR(Times(k, c)) == FPR(c)
  {
    ScaledRate(k, c.c00, c.c01);
    ScaledRate(k, c.c10, c.c11);
  }

  /** Scaling both counts by the same positive factor leaves the rate unchanged. */
  lemma ScaledRate(k: nat, hit: nat, miss: nat)
    requires k > 0
    ensures RateOfCounts(k * hit, k * miss) == RateOfCounts(hit, miss)
  {
    assert k * hit + k * miss == k * (hit + miss);
    if hit + miss > 0 {
      var kr, h, n := k as real, hit as real, (hit + miss) as real;
      var v1, v2 := RateOfCounts(k * hit, k * miss).value, RateOfCounts(hit, miss).value;
      assert v1 * (kr * n) == kr * h;
      assert v2 * n == h;
      assert kr * (v1 * n) == kr * (v2 * n);
      assert v1 * n == v2 * n;
    }
  }

  /** There is a user exactly when there is a training row. */
  lemma UsersExist(train: seq<Row>)
    ensures |UniqueNames(train)| > 0 <==> |train| > 0
  {
    var users := UniqueNames(train);
    if |train| > 0 { assert HasName(train, train[0].name); assert train[0].name in users; }
    if |users| > 0 { assert users[0] in users; }
  }

  /** Every user's model exists iff every training name has at least four rows. */
  lemma AllModelsExist(train: seq<Row>, test: seq<Row>, d: nat, kmeans: KMeansFit, sqrt: real -> real)
    requires KMeansShape(kmeans, d) && IsSqrt(sqrt) && Dim(Embeddings(train), d) && Dim(Embeddings(test), d)
    ensures ModelsExist(UniqueNames(train), Runs(train, test, d, kmeans, sqrt)) <==>
      forall u :: HasName(train, u) ==> |UserEmbeddings(train, u)| >= NumClusters
  {
    var users := UniqueNames(train);
    var runs := Runs(train, test, d, kmeans, sqrt);
    if !ModelsExist(users, runs) {
      var k :| 0 <= k < |users| && !runs(users[k]).Ok?;
      assert HasName(train, users[k]);
    }
    if ModelsExist(users, runs) {
      forall u | HasName(train, u) ensures |UserEmbeddings(train, u)| >= NumClusters {
        assert u in users;
        var k :| 0 <= k < |users| && users[k] == u;
        assert runs(users[k]).Ok?;
      }
    }
  }

  /**
   Each summary point holds the rates of the sum over users of their
   matrices at its threshold, and the global matrix is that sum taken once
   per occurrence of the threshold: listing a threshold twice doubles the
   global matrix but leaves its rates unchanged.
   */
  lemma EvaluationAt(train: seq<Row>, test: seq<Row>, thresholds: seq<real>,
                     d: nat, kmeans: KMeansFit, sqrt: real -> real, k: nat)
    requires KMeansShape(kmeans, d) && IsSqrt(sqrt) && Dim(Embeddings(train), d) && Dim(Embeddings(test), d)
    requires EvaluateModelPerformance(train, test, thresholds, d, kmeans, sqrt).Ok?
    requires k < |thresholds|
    ensures var r := EvaluateModelPerformance(train, test, thresholds, d, kmeans, sqrt).value;
      var total := UsersMatrix(UniqueNames(train), thresholds[k], Runs(train, test, d, kmeans, sqrt));
      && |r.1| == |thresholds|
      && r.1[k] == Point(thresholds[k], total)
      && thresholds[k] in r.0.matrices
      && r.0.matrices[thresholds[k]] == Times(multiset(thresholds)[thresholds[k]], total)
  {
    var users := UniqueNames(train);
    var runs := Runs(train, test, d, kmeans, sqrt);
    var t := thresholds[k];
    var total := UsersMatrix(users, t, runs);
    var r := EvaluateModelPerformance(train, test, thresholds, d, kmeans, sqrt).value;
    assert FromOuterLoop(r, train, test, thresholds, d, kmeans, sqrt);
    assert OuterLoop(EmptyTables(), users, thresholds, runs) == Ok(r.0);
    OuterLoopKeys(EmptyTables(), users, thresholds, runs, t);
    OuterLoopAt(EmptyTables(), users, thresholds, runs, t);
    assert t in thresholds;
    assert multiset(thresholds)[t] > 0;
    RatesIgnoreMultiplicity(multiset(thresholds)[t], total);
  }

  /** Raising the threshold only adds flags, so one user's matrix grows. */
  lemma FraudMatrixMonotone(m: ClusteredModel, test: seq<Row>, user: string, t1: real, t2: real)
    requires Fits(m, test) && t1 <= t2
    ensures Grows(FraudMatrix(m, test, user, t1), FraudMatrix(m, test, user, t2))
  {
    var p1 := Flags(m, test, t1);
    var p2 := Flags(m, test, t2);
    forall i | 0 <= i < |test| ensures p1[i] == true ==> p2[i] == true {
      ClusteredFlagsMonotone(m, Embeddings(test), t1, t2, i);
    }
    FirstColumnMonotone(IsFraud(test, user), p1, p2, true);
  }

  /** Every user's matrix grows from `t1` to `t2`. */
  ghost predicate RunsGrow(runs: string -> Result<Run>, t1: real, t2: real) {
    forall u :: runs(u).Ok? ==> Grows(runs(u).value.matrix(t1), runs(u).value.matrix(t2))
  }

  /** The evaluation's per-user models all grow with the threshold. */
  lemma ModelRunsGrow(train: seq<Row>, test: seq<Row>, d: nat, kmeans: KMeansFit, sqrt: real -> real, t1: real, t2: real)
    requires KMeansShape(kmeans, d) && IsSqrt(sqrt) && Dim(Embeddings(train), d) && Dim(Embeddings(test), d)
    requires t1 <= t2
    ensures RunsGrow(Runs(train, test, d, kmeans, sqrt), t1, t2)
  {
    var runs := Runs(train, test, d, kmeans, sqrt);
    forall u | runs(u).Ok? ensures Grows(runs(u).value.matrix(t1), runs(u).value.matrix(t2)) {
      FraudMatrixMonotone(UserModel(train, u, d, kmeans, sqrt).value, test, u, t1, t2);
    }
  }

  /** When every user's matrix grows, so does their sum. */
  lemma {:induction false} UsersMatrixMonotone(users: seq<string>, runs: string -> Result<Run>, t1: real, t2: real)
    requires RunsGrow(runs, t1, t2)
    ensures Grows(UsersMatrix(users, t1, runs), UsersMatrix(users, t2, runs))
    decreases |users|
  {
    if |users| > 0 {
      UsersMatrixMonotone(users[1..], runs, t1, t2);
    }
  }

  /** With row totals fixed, a larger flagged count gives rates at least as large, before and after rounding. */
  lemma RatesMonotone(a: Matrix, b: Matrix)
    requires Grows(a, b)
    ensures TPR(a).Num? <==> TPR(b).Num?
    ensures FPR(a).Num? <==> FPR(b).Num?
    ensures TPR(a).Num? ==> Point(0.0, a).tpr.value <= Point(0.0, b).tpr.value
    ensures FPR(a).Num? ==> Point(0.0, a).fpr.value <= Point(0.0, b).fpr.value
  {
    RatesGrow(a, b);
    if TPR(a).Num? {
      Round2Monotone(TPR(a).value, TPR(b).value);
    }
    if FPR(a).Num? {
      Round2Monotone(FPR(a).value, FPR(b).value);
    }
  }

  /**
   Across the summary, a higher threshold never gives a lower rate: both
   the rate of flagged other-user rows and the rate of flagged own rows are
   non-decreasing in the threshold.
   */
  lemma SummaryMonotone(train: seq<Row>, test: seq<Row>, thresholds: seq<real>,
                        d: nat, kmeans: KMeansFit, sqrt: real -> real, i: nat, j: nat)
    requires KMeansShape(kmeans, d) && IsSqrt(sqrt) && Dim(Embeddings(train), d) && Dim(Embeddings(test), d)
    requires EvaluateModelPerformance(train, test, thresholds, d, kmeans, sqrt).Ok?
    requires i < |thresholds| && j < |thresholds| && thresholds[i] <= thresholds[j]
    ensures var p := EvaluateModelPerformance(train, test, thresholds, d, kmeans, sqrt).value.1;
      && (p[i].tpr.Num? <==> p[j].tpr.Num?) && (p[i].fpr.Num? <==> p[j].fpr.Num?)
      && (p[i].tpr.Num? ==> p[i].tpr.value <= p[j].tpr.value)
      && (p[i].fpr.Num? ==> p[i].fpr.value <= p[j].fpr.value)
  {
    var users := UniqueNames(train);
    var runs := Runs(train, test, d, kmeans, sqrt);
    var a := UsersMatrix(users, thresholds[i], runs);
    var b := UsersMatrix(users, thresholds[j], runs);
    EvaluationAt(train, test, thresholds, d, kmeans, sqrt, i);
    EvaluationAt(train, test, thresholds, d, kmeans, sqrt, j);
    ModelRunsGrow(train, test, d, kmeans, sqrt, thresholds[i], thresholds[j]);
    UsersMatrixMonotone(users, runs, thresholds[i], thresholds[j]);
    PointsMonotone(thresholds[i], thresholds[j], a, b);
  }

  /** The points of a growing matrix, at any two thresholds, have growing rates. */
  lemma PointsMonotone(ti: real, tj: real, a: Matrix, b: Matrix)
    requires Grows(a, b)
    ensures var p, q := Point(ti, a), Point(tj, b);
      && (p.tpr.Num? <==> q.tpr.Num?) && (p.fpr.Num? <==> q.fpr.Num?)
      && (p.tpr.Num? ==> p.tpr.value <= q.tpr.value)
      && (p.fpr.Num? ==> p.fpr.value <= q.fpr.value)
  {
    RatesMonotone(a, b);
  }
}

=== FILE: filters.dfy ===
/**
 The tweet filter that turns raw downloads into preprocessed files. Every
 tweet's text has each regular expression's matches deleted, one pattern
 after another, and is stripped of surrounding white space; it is kept
 with its original date when enough text is left. A directory run treats
 every `@`-file of the input directory and writes a file of the same name
 to the output directory.

 The regular-expression engine (`re.sub(pattern, '', text)`) is an oracle
 `sub`, the directory listing an oracle `listdir`, and reading one input
 file an oracle `read` that yields its `[text, date]` pairs.
 */
module Filters {
  import opened Wrappers
  import opened Strings
  import opened Paths
  import Dataset

  /** One stored tweet: `[text, date]`. */
  datatype Tweet = Tweet(text: string, date: string)

  /** One written output file: its path and the tweets it holds. */
  datatype Output = Output(path: string, tweets: seq<Tweet>)

  /** Deletes each pattern's matches from the text in list order. */
  function ApplyFilters(text: string, filters: seq<string>, sub: (string, string) -> string): string
    decreases |filters|
  {
    if |filters| == 0 then text else ApplyFilters(sub(filters[0], text), filters[1..], sub)
  }

  /** Filtering with two lists in a row is filtering with their concatenation. */
  lemma {:induction false} FiltersCompose(text: string, f1: seq<string>, f2: seq<string>, sub: (string, string) -> string)
    ensures ApplyFilters(text, f1 + f2, sub) == ApplyFilters(ApplyFilters(text, f1, sub), f2, sub)
    decreases |f1|
  {
    if |f1| == 0 {
      assert f1 + f2 == f2;
    } else {
      assert (f1 + f2)[1..] == f1[1..] + f2;
      FiltersCompose(sub(f1[0], text), f1[1..], f2, sub);
    }
  }

  /** The text a tweet is reduced to: filtered, then `strip()`ped. */
  function CleanText(text: string, filters: seq<string>, sub: (string, string) -> string): (r: string)
    ensures Trimmed(r, IsSpace)
  {
    Trim(ApplyFilters(text, filters, sub), IsSpace)
  }

  /** `[filtered, tweet[1]]`: the cleaned text with the original date. */
  function Cleaned(t: Tweet, filters: seq<string>, sub: (string, string) -> string): (r: Tweet)
    ensures r.date == t.date && Trimmed(r.text, IsSpace)
  {
    Tweet(CleanText(t.text, filters, sub), t.date)
  }

  /** The per-tweet cleaning as one function value. */
  function Cleaner(filters: seq<string>, sub: (string, string) -> string): (clean: Tweet -> Tweet)
    ensures forall t :: clean(t) == Cleaned(t, filters, sub)
  {
    t => Cleaned(t, filters, sub)
  }

  lemma CleanerIs(filters: seq<string>, sub: (string, string) -> string, t: Tweet)
    ensures Cleaner(filters, sub)(t) == Tweet(Trim(ApplyFilters(t.text, filters, sub), IsSpace), t.date)
  {
  }

  /**
   The tweets that survive a cleaning step `clean`, in input order: a tweet
   is kept, cleaned, iff its cleaned text is at least `minChars` long.
   */
  function Survivors(tweets: seq<Tweet>, clean: Tweet -> Tweet, minChars: int): (r: seq<Tweet>)
    ensures |r| <= |tweets|
    ensures forall i :: 0 <= i < |r| ==> |r[i].text| >= minChars
    decreases |tweets|
  {
    if |tweets| == 0 then []
    else
      var t := clean(tweets[0]);
      (if |t.text| >= minChars then [t] else []) + Survivors(tweets[1..], clean, minChars)
  }

  /** Selection is tweet by tweet: the survivors of a concatenation are the concatenated survivors. */
  lemma {:induction false} SurvivorsAppend(a: seq<Tweet>, b: seq<Tweet>, clean: Tweet -> Tweet, minChars: int)
    ensures Survivors(a + b, clean, minChars) == Survivors(a, clean, minChars) + Survivors(b, clean, minChars)
    decreases |a|
  {
    if |a| == 0 {
      assert a + b == b;
    } else {
      assert (a + b)[1..] == a[1..] + b;
      SurvivorsAppend(a[1..], b, clean, minChars);
    }
  }

  /** One more tweet of the input: its survivor, if any, goes at the end. */
  lemma SurvivorsStep(tweets: seq<Tweet>, n: nat, clean: Tweet -> Tweet, minChars: int)
    requires n < |tweets|
    ensures var t := clean(tweets[n]);
      Survivors(tweets[..n + 1], clean, minChars) == Survivors(tweets[..n], clean, minChars) + (if |t.text| >= minChars then [t] else [])
  {
    assert tweets[..n + 1] == tweets[..n] + [tweets[n]];
    SurvivorsAppend(tweets[..n], [tweets[n]], clean, minChars);
  }

  /** A survivor is exactly the cleaned form of an input tweet whose cleaned text is long enough. */
  lemma {:induction false} SurvivorsMembership(tweets: seq<Tweet>, clean: Tweet -> Tweet, minChars: int, t: Tweet)
    ensures t in Survivors(tweets, clean, minChars) <==>
      exists i :: 0 <= i < |tweets| && t == clean(tweets[i]) && |t.text| >= minChars
    decreases |tweets|
  {
    if |tweets| > 0 {
      SurvivorsMembership(tweets[1..], clean, minChars, t);
      if t in Survivors(tweets[1..], clean, minChars) {
        var i :| 0 <= i < |tweets[1..]| && t == clean(tweets[1..][i]) && |t.text| >= minChars;
        assert tweets[1..][i] == tweets[i + 1];
      }
      if i :| 0 <= i < |tweets| && t == clean(tweets[i]) && |t.text| >= minChars {
        if i > 0 {
          assert tweets[1..][i - 1] == tweets[i];
        }
      }
    }
  }

  /** With a gate no text fails, every tweet survives, cleaned, in order. */
  lemma {:induction false} SurvivorsAll(tweets: seq<Tweet>, clean: Tweet -> Tweet, minChars: int)
    requires minChars <= 0
    ensures var r := Survivors(tweets, clean, minChars);
      |r| == |tweets| && forall i :: 0 <= i < |r| ==> r[i] == clean(tweets[i])
    decreases |tweets|
  {
    if |tweets| > 0 {
      SurvivorsAll(tweets[1..], clean, minChars);
    }
  }

  /** One file's surviving tweets: cleaned with the patterns, kept iff at least `minChars` long. */
  function FilterTweets(tweets: seq<Tweet>, filters: seq<string>, minChars: int, sub: (string, string) -> string): (r: seq<Tweet>)
    ensures |r| <= |tweets|
    ensures forall i :: 0 <= i < |r| ==> |r[i].text| >= minChars
  {
    Survivors(tweets, Cleaner(filters, sub), minChars)
  }

  /**
   An output tweet is exactly a cleaned input tweet, with that tweet's date,
   whose text is long enough; so every output text is stripped.
   */
  lemma FilterMembership(tweets: seq<Tweet>, filters: seq<string>, minChars: int, sub: (string, string) -> string, t: Tweet)
    ensures t in FilterTweets(tweets, filters, minChars, sub) <==>
      exists i :: 0 <= i < |tweets| && t == Cleaned(tweets[i], filters, sub) && |t.text| >= minChars
    ensures t in FilterTweets(tweets, filters, minChars, sub) ==> Trimmed(t.text, IsSpace)
  {
    SurvivorsMembership(tweets, Cleaner(filters, sub), minChars, t);
  }

  /** With no patterns and no minimum, every tweet survives, only stripped. */
  lemma StripOnly(tweets: seq<Tweet>, sub: (string, string) -> string)
    ensures var r := FilterTweets(tweets, [], 0, sub);
      |r| == |tweets| && forall i :: 0 <= i < |r| ==> r[i] == Tweet(Trim(tweets[i].text, IsSpace), tweets[i].date)
  {
    SurvivorsAll(tweets, Cleaner([], sub), 0);
  }

  /** The inner loop of `filter_tweets_from_files`: `re.sub` with each pattern in turn. */
  method SubAll(text: string, filters: seq<string>, sub: (string, string) -> string) returns (filtered: string)
    ensures filtered == ApplyFilters(text, filters, sub)
  {
    filtered := text;
    for j := 0 to |filters|
      invariant filtered == ApplyFilters(text, filters[..j], sub)
    {
      FiltersCompose(text, filters[..j], [filters[j]], sub);
      assert filters[..j + 1] == filters[..j] + [filters[j]];
      filtered := sub(filters[j], filtered);
    }
    assert filters[..|filters|] == filters;
  }

  /**
   `filter_tweets_from_files` after reading the file: the loop over the
   tweets, appending each one that passes the length gate.
   */
  method FilterFile(tweets: seq<Tweet>, filters: seq<string>, minChars: int, sub: (string, string) -> string)
    returns (out: seq<Tweet>)
    ensures out == FilterTweets(tweets, filters, minChars, sub)
  {
    var clean := Cleaner(filters, sub);
    out := [];
    for n := 0 to |tweets|
      invariant out == Survivors(tweets[..n], clean, minChars)
    {
      var filtered := SubAll(tweets[n].text, filters, sub);
      filtered := Trim(filtered, IsSpace);
      CleanerIs(filters, sub, tweets[n]);
      SurvivorsStep(tweets, n, clean, minChars);
      if |filtered| >= minChars {
        out := out + [Tweet(filtered, tweets[n].date)];
      }
    }
    assert tweets[..|tweets|] == tweets;
  }

  /** The tweets whose cleaned text is not empty, cleaned, in input order. */
  function NonEmptySurvivors(tweets: seq<Tweet>, clean: Tweet -> Tweet): (r: seq<Tweet>)
    ensures |r| <= |tweets|
    ensures forall i :: 0 <= i < |r| ==> r[i].text != ""
    decreases |tweets|
  {
    if |tweets| == 0 then []
    else
      var t := clean(tweets[0]);
      (if t.text != "" then [t] else []) + NonEmptySurvivors(tweets[1..], clean)
  }

  /** The older `filterTweets` keeps a tweet iff anything is left of it. */
  function FilterNonEmpty(tweets: seq<Tweet>, filters: seq<string>, sub: (string, string) -> string): (r: seq<Tweet>)
    ensures |r| <= |tweets|
    ensures forall i :: 0 <= i < |r| ==> r[i].text != ""
  {
    NonEmptySurvivors(tweets, Cleaner(filters, sub))
  }

  /** Keeping what is non-empty is the length gate at one character. */
  lemma {:induction false} NonEmptyIsMinimumOne(tweets: seq<Tweet>, clean: Tweet -> Tweet)
    ensures NonEmptySurvivors(tweets, clean) == Survivors(tweets, clean, 1)
    decreases |tweets|
  {
    if |tweets| > 0 {
      NonEmptyIsMinimumOne(tweets[1..], clean);
    }
  }

  /** `[f for f in listing if f[0] == '@']`, in listing order. */
  function HandleFiles(listing: seq<string>): (r: seq<string>)
    ensures |r| <= |listing|
    ensures forall k :: 0 <= k < |r| ==> Dataset.IsHandleFile(r[k]) && r[k] in listing
    ensures forall f :: f in listing && Dataset.IsHandleFile(f) ==> f in r
  {
    if |listing| == 0 then []
    else (if Dataset.IsHandleFile(listing[0]) then [listing[0]] else []) + HandleFiles(listing[1..])
  }

  /**
   The selection is a filter: it distributes over concatenation and keeps a
   single file exactly when it is a handle file, so the handle files come
   out in listing order.
   */
  lemma {:induction false} HandleFilesAppend(a: seq<string>, b: seq<string>)
    ensures HandleFiles(a + b) == HandleFiles(a) + HandleFiles(b)
    decreases |a|
  {
    if |a| == 0 {
      assert a + b == b;
    } else {
      assert (a + b)[0] == a[0] && (a + b)[1..] == a[1..] + b;
      HandleFilesAppend(a[1..], b);
    }
  }

  /** A single file is kept exactly when it is a handle file. */
  lemma HandleFilesOne(f: string)
    ensures HandleFiles([f]) == if Dataset.IsHandleFile(f) then [f] else []
  {
  }

  /**
   The directory loop over already-selected names: each name is read from
   the input directory, filtered, and written under the same name to the
   output directory.
   */
  function FilterNamed(inputDir: string, outputDir: string, names: seq<string>, filters: seq<string>, minChars: int,
                       read: string -> seq<Tweet>, sub: (string, string) -> string): (r: seq<Output>)
    ensures |r| == |names|
    ensures forall k :: 0 <= k < |r| ==>
      r[k] == Output(Join(outputDir, names[k]), FilterTweets(read(Join(inputDir, names[k])), filters, minChars, sub))
  {
    seq(|names|, k requires 0 <= k < |names| =>
      Output(Join(outputDir, names[k]), FilterTweets(read(Join(inputDir, names[k])), filters, minChars, sub)))
  }

  /** `filter_tweets_from_directories`: every `@`-file of the input directory. */
  function FilterDirectories(inputDir: string, outputDir: string, filters: seq<string>, minChars: int,
                             listdir: string -> seq<string>, read: string -> seq<Tweet>,
                             sub: (string, string) -> string): (r: seq<Output>)
    ensures |r| == |HandleFiles(listdir(inputDir))|
  {
    FilterNamed(inputDir, outputDir, HandleFiles(listdir(inputDir)), filters, minChars, read, sub)
  }

  /**
   Every output file sits directly in the output directory under the name
   of the input file it was made from, and holds only that file's tweets.
   */
  lemma SameNames(inputDir: string, outputDir: string, filters: seq<string>, minChars: int,
                  listdir: string -> seq<string>, read: string -> seq<Tweet>, sub: (string, string) -> string, k: nat)
    requires |outputDir| > 0 && outputDir[|outputDir| - 1] != '/'
    requires forall f :: f in listdir(inputDir) ==> '/' !in f
    requires k < |HandleFiles(listdir(inputDir))|
    ensures var name := HandleFiles(listdir(inputDir))[k];
      var out := FilterDirectories(inputDir, outputDir, filters, minChars, listdir, read, sub)[k];
      && Dirname(out.path) == outputDir && Basename(out.path) == name
      && out.tweets == FilterTweets(read(Join(inputDir, name)), filters, minChars, sub)
  {
    var name := HandleFiles(listdir(inputDir))[k];
    DirnameOfJoin(outputDir, name);
  }

  /**
   The older `filterTweets`: the same directory loop, keeping non-empty
   tweets; the output list starts empty for every file.
   */
  function FilterTweetsOld(inputDir: string, outputDir: string, filters: seq<string>,
                           listdir: string -> seq<string>, read: string -> seq<Tweet>,
                           sub: (string, string) -> string): (r: seq<Output>)
    ensures |r| == |HandleFiles(listdir(inputDir))|
    ensures forall k :: 0 <= k < |r| ==> r[k].path == Join(outputDir, HandleFiles(listdir(inputDir))[k])
  {
    var names := HandleFiles(listdir(inputDir));
    seq(|names|, k requires 0 <= k < |names| =>
      Output(Join(outputDir, names[k]), FilterNonEmpty(read(Join(inputDir, names[k])), filters, sub)))
  }

  /** The older loop writes what the newer one writes with a one-character minimum. */
  lemma OldIsMinimumOne(inputDir: string, outputDir: string, filters: seq<string>,
                        listdir: string -> seq<string>, read: string -> seq<Tweet>, sub: (string, string) -> string)
    ensures FilterTweetsOld(inputDir, outputDir, filters, listdir, read, sub) ==
            FilterDirectories(inputDir, outputDir, filters, 1, listdir, read, sub)
  {
    var names := HandleFiles(listdir(inputDir));
    forall k | 0 <= k < |names|
      ensures FilterTweetsOld(inputDir, outputDir, filters, listdir, read, sub)[k] ==
              FilterDirectories(inputDir, outputDir, filters, 1, listdir, read, sub)[k]
    {
      NonEmptyIsMinimumOne(read(Join(inputDir, names[k])), Cleaner(filters, sub));
    }
  }

  /**
   The second copy of `filter_tweets_from_directories` as written: it lists
   the module-level `input_directory` rather than its parameter. That name
   is bound (`scriptInput`) only when the file runs as a script; imported,
   the call fails.
   */
  function FilterDirectoriesAsWritten(inputDir: string, outputDir: string, filters: seq<string>, minChars: int,
                                      scriptInput: Option<string>, listdir: string -> seq<string>,
                                      read: string -> seq<Tweet>, sub: (string, string) -> string): (r: Result<seq<Output>>)
    ensures scriptInput.None? <==> r.Err?
    ensures r.Err? ==> r.error == NameError("input_directory")
  {
    if scriptInput.None? then Err(NameError("input_directory"))
    else Ok(FilterNamed(inputDir, outputDir, HandleFiles(listdir(scriptInput.value)), filters, minChars, read, sub))
  }

  /** Called as a library function, the copy as written never processes a file. */
  lemma AsWrittenFailsWhenImported(inputDir: string, outputDir: string, filters: seq<string>, minChars: int,
                                   listdir: string -> seq<string>, read: string -> seq<Tweet>, sub: (string, string) -> string)
    ensures FilterDirectoriesAsWritten(inputDir, outputDir, filters, minChars, None, listdir, read, sub) == Err(NameError("input_directory"))
  {
  }

  /**
   Run as a script the copy passes `input_directory` as its own parameter,
   so there it does what the corrected function does; the corrected function
   is the one the rest of the model uses.
   */
  lemma AsWrittenAgreesAsScript(inputDir: string, outputDir: string, filters: seq<string>, minChars: int,
                                listdir: string -> seq<string>, read: string -> seq<Tweet>, sub: (string, string) -> string)
    ensures FilterDirectoriesAsWritten(inputDir, outputDir, filters, minChars, Some(inputDir), listdir, read, sub) ==
            Ok(FilterDirectories(inputDir, outputDir, filters, minChars, listdir, read, sub))
  {
  }
}

=== FILE: hyperparameters.dfy ===
/**
 The shared model base class: hyperparameter storage (a dictionary that
 `set_hyperparameters` replaces wholesale), the default classification
 threshold, and the stub constructor and `infer` of the base class itself.
 */
module Hyperparameters {
  import opened Wrappers

  /** A model's `params` dictionary; only real-valued entries are modelled. */
  type Params = map<string, real>

  const ThresholdKey: string := "threshold"

  /** The threshold every threshold-gate model installs in its constructor. */
  const DefaultThreshold: real := 0.3

  /** `{'threshold': 0.3}` */
  function DefaultParams(): Params {
    map[ThresholdKey := DefaultThreshold]
  }

  /**
   `self.params = params`, with `given == None` standing for a call without
   an argument, whose default is the empty dictionary. The current map plays
   no part: nothing is merged and every earlier key is dropped.
   */
  function SetHyperparameters(current: Params, given: Option<Params>): (r: Params)
    ensures given.None? ==> r == map[]
    ensures given.Some? ==> r.Keys == given.value.Keys
    ensures given.Some? ==> forall k :: k in r ==> r[k] == given.value[k]
    ensures forall k :: k in current && (given.None? || k !in given.value) ==> k !in r
  {
    match given
    case None => map[]
    case Some(p) => p
  }

  /** `self.params['threshold']`: a `KeyError` when the key is absent. */
  function ReadThreshold(params: Params): (r: Result<real>)
    ensures r.Ok? <==> ThresholdKey in params
    ensures r.Ok? ==> r.value == params[ThresholdKey]
    ensures r.Err? ==> r.error == KeyError(ThresholdKey)
  {
    if ThresholdKey in params then Ok(params[ThresholdKey]) else Err(KeyError(ThresholdKey))
  }

  /** Constructors install the default threshold; it reads back as 0.3. */
  lemma DefaultThresholdReads()
    ensures ReadThreshold(DefaultParams()) == Ok(0.3)
  {
  }

  /**
   Setting `{'threshold': t}` makes `t` the threshold whatever was stored
   before; calling without an argument leaves no threshold to read, so a
   derived `infer` that reads it fails with a `KeyError`.
   */
  lemma ThresholdAfterSet(current: Params, t: real)
    ensures ReadThreshold(SetHyperparameters(current, Some(map[ThresholdKey := t]))) == Ok(t)
    ensures ReadThreshold(SetHyperparameters(current, None)) == Err(KeyError(ThresholdKey))
  {
  }

  /** Replacing the params with a map that lacks the threshold loses it, even if it was set. */
  lemma ReplacementDropsThreshold(current: Params, given: Params)
    requires ThresholdKey !in given
    ensures ReadThreshold(SetHyperparameters(current, Some(given))).Err?
  {
  }

  /**
   The base class itself: its constructor assigns no attribute, so `params`
   exists only once `set_hyperparameters` has run.
   */
  datatype BaseModel = BaseModel(params: Option<Params>)

  /** `Model.__init__(corpus, embedded_corpus)`: stores nothing, whatever it is given. */
  function NewBaseModel<C>(corpus: Option<C>, embeddedCorpus: Option<C>): (m: BaseModel)
    ensures m.params.None?
  {
    BaseModel(None)
  }

  function BaseSetHyperparameters(m: BaseModel, given: Option<Params>): (r: BaseModel)
    ensures r.params.Some?
    ensures given.None? ==> r.params.value == map[]
    ensures given.Some? ==> r.params.value == given.value
  {
    BaseModel(Some(SetHyperparameters(if m.params.Some? then m.params.value else map[], given)))
  }

  /** `Model.infer`: a stub whose body is only a docstring, so it returns `None`. */
  function BaseInfer<T>(m: BaseModel, tweets: seq<T>): (r: Option<seq<bool>>)
    ensures r.None?
  {
    None
  }
}

=== FILE: legacy_evaluate.dfy ===
/**
 The first evaluation script: the rows are shuffled and cut in half, and for
 every training user and every threshold an averaged cosine-similarity model
 is built from the user's training embeddings and scored on all test rows,
 where a row is fraudulent for that user iff another user wrote it. Each
 threshold yields one unrounded `(threshold, TPR, FPR)` row of the user's
 table.
 */
module LegacyEvaluation {
  import opened Vectors
  import opened Permutations
  import opened Confusion
  import opened Dataset
  import opened AveragedCosSim

  /** The rate table printed for one user. */
  datatype UserTable = UserTable(user: string, points: seq<RatePoint>)

  /** `AvgCosSimModel(embedded_corpus=train_user_embs)` for a user with training rows. */
  function AvgUserModel(train: seq<Row>, user: string, d: nat, sqrt: real -> real): (m: AvgModel)
    requires HasName(train, user) && Dim(Embeddings(train), d) && IsSqrt(sqrt)
    ensures m.signature.Dimension() == d
    ensures m.signature.Undefined? <==> IsZero(Mean(UserEmbeddings(train, user), d))
  {
    UserEmbeddingsDim(train, user, d);
    NewAvgModel(UserEmbeddings(train, user), d, sqrt)
  }

  /**
   `model.infer` on the test embeddings after `set_hyperparameters({'threshold': t})`:
   a test row is flagged iff its similarity to the signature is a number
   strictly below `t`. The threshold was just set, so reading it never fails.
   */
  function AvgFlags(m: AvgModel, test: seq<Row>, t: real): (r: seq<bool>)
    requires Dim(Embeddings(test), m.signature.Dimension())
    ensures |r| == |test|
    ensures forall i :: 0 <= i < |test| ==> (r[i] <==> Below(Similarity(m.signature, test[i].embedding), t))
  {
    if |test| == 0 then []
    else
      AvgFlagsMonotone(m, Embeddings(test), t, t, 0);
      AvgInfer(WithThreshold(m, t), Embeddings(test)).value
  }

  /**
   `compute_confusion_matrix`, labels `[True, False]`: row 0 counts other
   users' test rows, row 1 the user's own, column 0 the flagged rows.
   */
  function ComputeConfusionMatrix(m: AvgModel, test: seq<Row>, user: string, t: real): (c: Matrix)
    requires Dim(Embeddings(test), m.signature.Dimension())
    ensures c.c00 + c.c01 == CountLabel(IsFraud(test, user), true)
    ensures c.c10 + c.c11 == CountLabel(IsFraud(test, user), false)
    ensures c.c00 + c.c10 == CountLabel(AvgFlags(m, test, t), true)
  {
    ConfusionMatrix(IsFraud(test, user), AvgFlags(m, test, t), true)
  }

  /** One printed row: the threshold and the unrounded rates of its matrix. */
  function RateRow(m: AvgModel, test: seq<Row>, user: string, t: real): (p: RatePoint)
    requires Dim(Embeddings(test), m.signature.Dimension())
    ensures p.threshold == t
    ensures p.tpr == TPR(ComputeConfusionMatrix(m, test, user, t))
    ensures p.fpr == FPR(ComputeConfusionMatrix(m, test, user, t))
  {
    var c := ComputeConfusionMatrix(m, test, user, t);
    RatePoint(t, TPR(c), FPR(c))
  }

  /** The user's table: one row per threshold, in order, all from the user's one model. */
  function UserRates(train: seq<Row>, test: seq<Row>, user: string, thresholds: seq<real>, d: nat, sqrt: real -> real): (r: seq<RatePoint>)
    requires HasName(train, user) && Dim(Embeddings(train), d) && Dim(Embeddings(test), d) && IsSqrt(sqrt)
    ensures |r| == |thresholds|
    ensures forall k :: 0 <= k < |thresholds| ==> r[k] == RateRow(AvgUserModel(train, user, d, sqrt), test, user, thresholds[k])
  {
    var m := AvgUserModel(train, user, d, sqrt);
    seq(|thresholds|, k requires 0 <= k < |thresholds| => RateRow(m, test, user, thresholds[k]))
  }

  /** The loop over `train_data['name'].unique()`: one table per distinct training user, in order. */
  function Tables(train: seq<Row>, test: seq<Row>, thresholds: seq<real>, d: nat, sqrt: real -> real): (r: seq<UserTable>)
    requires Dim(Embeddings(train), d) && Dim(Embeddings(test), d) && IsSqrt(sqrt)
    ensures |r| == |UniqueNames(train)|
    ensures forall i :: 0 <= i < |r| ==> r[i].user == UniqueNames(train)[i] && |r[i].points| == |thresholds|
    ensures forall i :: 0 <= i < |r| ==> HasName(train, r[i].user)
    ensures forall i, j :: 0 <= i < j < |r| ==> FirstIndex(train, r[i].user) < FirstIndex(train, r[j].user)
  {
    var users := UniqueNames(train);
    seq(|users|, i requires 0 <= i < |users| =>
      assert users[i] in users;
      UserTable(users[i], UserRates(train, test, users[i], thresholds, d, sqrt)))
  }

  /** Both halves of a reordering keep the embedding dimension. */
  lemma SplitDim(rows: seq<Row>, perm: seq<nat>, frac: real, d: nat)
    requires IsPermutation(perm, |rows|) && 0.0 <= frac <= 1.0 && Dim(Embeddings(rows), d)
    ensures Dim(Embeddings(SampleAndSplit(rows, perm, frac).0), d)
    ensures Dim(Embeddings(SampleAndSplit(rows, perm, frac).1), d)
  {
    var r := SampleAndSplit(rows, perm, frac);
    var shuffled := Reorder(rows, perm);
    forall i | 0 <= i < |r.0| ensures |r.0[i].embedding| == d {
      assert r.0[i] == shuffled[i] == rows[perm[i]];
      assert Embeddings(rows)[perm[i]] == rows[perm[i]].embedding;
    }
    forall i | 0 <= i < |r.1| ensures |r.1[i].embedding| == d {
      assert r.1[i] == shuffled[|r.0| + i] == rows[perm[|r.0| + i]];
      assert Embeddings(rows)[perm[|r.0| + i]] == rows[perm[|r.0| + i]].embedding;
    }
  }

  /**
   The script after loading: shuffle, split in half (`frac = 0.5`), then the
   tables. The split is a partition of the rows, and the tables cover every
   training user.
   */
  function Evaluate(rows: seq<Row>, perm: seq<nat>, thresholds: seq<real>, d: nat, sqrt: real -> real): (r: seq<UserTable>)
    requires IsPermutation(perm, |rows|) && Dim(Embeddings(rows), d) && IsSqrt(sqrt)
    ensures |r| == |UniqueNames(SampleAndSplit(rows, perm, 0.5).0)|
  {
    var split := SampleAndSplit(rows, perm, 0.5);
    SplitDim(rows, perm, 0.5, d);
    Tables(split.0, split.1, thresholds, d, sqrt)
  }

  /**
   What each table row means: its TPR is the share of other users' test
   rows that are flagged, NaN when there are none; its FPR the share of the
   user's own test rows that are flagged, NaN when there are none.
   */
  lemma RatesMeaning(m: AvgModel, test: seq<Row>, user: string, t: real)
    requires Dim(Embeddings(test), m.signature.Dimension())
    ensures var p := RateRow(m, test, user, t);
      var flags := AvgFlags(m, test, t);
      var fraud := IsFraud(test, user);
      && p.tpr == RateOfCounts(CountPairs(fraud, flags, true, true), CountPairs(fraud, flags, true, false))
      && p.fpr == RateOfCounts(CountPairs(fraud, flags, false, true), CountPairs(fraud, flags, false, false))
      && (p.tpr.Num? <==> CountLabel(fraud, true) > 0)
      && (p.fpr.Num? <==> CountLabel(fraud, false) > 0)
  {
    RatesOfConfusion(IsFraud(test, user), AvgFlags(m, test, t), true);
  }

  /** For one model, raising the threshold makes the matrix grow. */
  lemma MatrixGrowsWithThreshold(m: AvgModel, test: seq<Row>, user: string, t1: real, t2: real)
    requires Dim(Embeddings(test), m.signature.Dimension()) && t1 <= t2
    ensures Grows(ComputeConfusionMatrix(m, test, user, t1), ComputeConfusionMatrix(m, test, user, t2))
  {
    var f1 := AvgFlags(m, test, t1);
    var f2 := AvgFlags(m, test, t2);
    forall n | 0 <= n < |test| ensures f1[n] == true ==> f2[n] == true {
      AvgFlagsMonotone(m, Embeddings(test), t1, t2, n);
    }
    MatrixGrows(IsFraud(test, user), f1, f2, true);
  }

  /**
   For one model, a higher threshold never gives a lower rate: both rates
   are non-decreasing in the threshold, and each is NaN at one threshold iff
   at every other.
   */
  lemma RatesMonotone(m: AvgModel, test: seq<Row>, user: string, t1: real, t2: real)
    requires Dim(Embeddings(test), m.signature.Dimension()) && t1 <= t2
    ensures var p1 := RateRow(m, test, user, t1);
      var p2 := RateRow(m, test, user, t2);
      && (p1.tpr.Num? <==> p2.tpr.Num?) && (p1.fpr.Num? <==> p2.fpr.Num?)
      && (p1.tpr.Num? ==> p1.tpr.value <= p2.tpr.value)
      && (p1.fpr.Num? ==> p1.fpr.value <= p2.fpr.value)
  {
    MatrixGrowsWithThreshold(m, test, user, t1, t2);
    RatesGrow(ComputeConfusionMatrix(m, test, user, t1), ComputeConfusionMatrix(m, test, user, t2));
  }

  /** Over one user's table, the rates are non-decreasing down the thresholds' order. */
  lemma UserRatesMonotone(train: seq<Row>, test: seq<Row>, user: string, thresholds: seq<real>, d: nat, sqrt: real -> real, i: nat, j: nat)
    requires HasName(train, user) && Dim(Embeddings(train), d) && Dim(Embeddings(test), d) && IsSqrt(sqrt)
    requires i < |thresholds| && j < |thresholds| && thresholds[i] <= thresholds[j]
    ensures var p := UserRates(train, test, user, thresholds, d, sqrt);
      && (p[i].tpr.Num? <==> p[j].tpr.Num?) && (p[i].fpr.Num? <==> p[j].fpr.Num?)
      && (p[i].tpr.Num? ==> p[i].tpr.value <= p[j].tpr.value)
      && (p[i].fpr.Num? ==> p[i].fpr.value <= p[j].fpr.value)
  {
    RatesMonotone(AvgUserModel(train, user, d, sqrt), test, user, thresholds[i], thresholds[j]);
  }

  /**
   A signature that is NaN (the user's training embeddings average to the
   zero vector) flags nothing: every rate that is a number is zero.
   */
  lemma DegenerateRates(m: AvgModel, test: seq<Row>, user: string, t: real)
    requires Dim(Embeddings(test), m.signature.Dimension()) && m.signature.Undefined?
    ensures var p := RateRow(m, test, user, t);
      && (p.tpr.Num? ==> p.tpr.value == 0.0)
      && (p.fpr.Num? ==> p.fpr.value == 0.0)
  {
    NoFlagsWhenUndefined(m, test, t);
    ZeroColumnRates(ComputeConfusionMatrix(m, test, user, t));
  }

  lemma NoFlagsWhenUndefined(m: AvgModel, test: seq<Row>, t: real)
    requires Dim(Embeddings(test), m.signature.Dimension()) && m.signature.Undefined?
    ensures CountLabel(AvgFlags(m, test, t), true) == 0
  {
    var flags := AvgFlags(m, test, t);
    assert forall n :: 0 <= n < |flags| ==> !flags[n];
    NothingFlagged(flags);
  }

  /** A matrix with an empty first column has zero rates wherever they are numbers. */
  lemma ZeroColumnRates(c: Matrix)
    requires c.c00 == 0 && c.c10 == 0
    ensures TPR(c).Num? ==> TPR(c).value == 0.0
    ensures FPR(c).Num? ==> FPR(c).value == 0.0
  {
  }

  lemma {:induction false} NothingFlagged(flags: seq<bool>)
    requires forall n :: 0 <= n < |flags| ==> !flags[n]
    ensures CountLabel(flags, true) == 0
  {
    if |flags| > 0 {
      NothingFlagged(flags[1..]);
    }
  }
}

=== FILE: paths.dfy ===
/**
 The POSIX flavour of `os.path` the scripts use to build file names:
 `join`, `normpath`, `abspath`, `dirname` and `basename`. All of them are
 lexical; the one input from the file system, the working directory that
 `abspath` resolves against, is a parameter.
 */
module Paths {
  import opened Strings

  /** `os.path.isabs` */
  predicate IsAbs(p: string) {
    |p| > 0 && p[0] == '/'
  }

  /** `'/' * n` */
  function Slashes(n: nat): (r: string)
    ensures |r| == n && forall i :: 0 <= i < n ==> r[i] == '/'
  {
    seq(n, i => '/')
  }

  /** `os.path.join(a, b)`: an absolute `b` replaces `a`; otherwise one separator is added unless `a` is empty or already ends in one. */
  function Join(a: string, b: string): (r: string)
    ensures IsAbs(b) ==> r == b
    ensures !IsAbs(b) ==> a <= r && (r == a + b || r == a + "/" + b)
  {
    if IsAbs(b) then b
    else if |a| == 0 || a[|a| - 1] == '/' then a + b
    else a + "/" + b
  }

  /** `path.split('/')`: the components between separators, empty ones included. */
  function Split(s: string): (r: seq<string>)
    ensures |r| > 0
  {
    if |s| == 0 then [""]
    else if s[0] == '/' then [""] + Split(s[1..])
    else
      var t := Split(s[1..]);
      [[s[0]] + t[0]] + t[1..]
  }

  /** `'/'.join(comps)` */
  function JoinSlash(cs: seq<string>): string {
    if |cs| == 0 then ""
    else if |cs| == 1 then cs[0]
    else cs[0] + "/" + JoinSlash(cs[1..])
  }

  /** Joining the components of a split gives back the string. */
  lemma {:induction false} JoinSplit(s: string)
    ensures JoinSlash(Split(s)) == s
    decreases |s|
  {
    if |s| > 0 {
      JoinSplit(s[1..]);
      var t := Split(s[1..]);
      if s[0] == '/' {
        assert s == "/" + s[1..];
      } else if |t| == 1 {
        assert s == [s[0]] + s[1..];
      } else {
        assert JoinSlash(t) == t[0] + "/" + JoinSlash(t[1..]);
        assert s == [s[0]] + s[1..];
      }
    }
  }

  /** No component of a split holds a separator. */
  lemma {:induction false} SplitComponents(s: string)
    ensures forall k :: 0 <= k < |Split(s)| ==> '/' !in Split(s)[k]
    decreases |s|
  {
    if |s| > 0 {
      var t := Split(s[1..]);
      SplitComponents(s[1..]);
      if s[0] != '/' {
        var h := [s[0]] + t[0];
        assert '/' !in h by {
          assert forall j :: 0 <= j < |h| ==> h[j] == s[0] || h[j] in t[0];
        }
      }
    }
  }

  lemma {:induction false} SplitWithPrefix(c: string, x: string)
    requires '/' !in c
    ensures Split(c + x) == [c + Split(x)[0]] + Split(x)[1..]
    decreases |c|
  {
    if |c| == 0 {
      assert c + x == x && c + Split(x)[0] == Split(x)[0];
      assert Split(x) == [Split(x)[0]] + Split(x)[1..];
    } else {
      assert (c + x)[1..] == c[1..] + x;
      SplitWithPrefix(c[1..], x);
      assert [c[0]] + (c[1..] + Split(x)[0]) == c + Split(x)[0];
    }
  }

  /** Splitting at one more separator: the components of both sides, in order. */
  lemma {:induction false} SplitAround(x: string, y: string)
    ensures Split(x + "/" + y) == Split(x) + Split(y)
    decreases |x|
  {
    if |x| == 0 {
      assert x + "/" + y == "/" + y;
    } else {
      var z := x + "/" + y;
      assert z[0] == x[0] && z[1..] == x[1..] + "/" + y;
      SplitAround(x[1..], y);
      SplitCons(z, x[1..], Split(y));
      assert [z[0]] + x[1..] == x;
    }
  }

  /** Splitting `s` when its tail splits as `u` followed by more components. */
  lemma SplitCons(s: string, u: string, b: seq<string>)
    requires |s| > 0 && Split(s[1..]) == Split(u) + b
    ensures Split(s) == Split([s[0]] + u) + b
  {
    var v := [s[0]] + u;
    assert v[0] == s[0] && v[1..] == u;
    var a := Split(u);
    var t := Split(s[1..]);
    if s[0] != '/' {
      var h := [s[0]] + a[0];
      assert Split(s) == [h] + t[1..] by {
        ExtendHead(h, a, b);
      }
      assert Split(v) == [h] + a[1..];
      ExtendHead(h, a, b);
    } else {
      ConsAssociative("", a, b);
    }
  }

  lemma ConsAssociative<T>(h: T, a: seq<T>, b: seq<T>)
    ensures [h] + (a + b) == ([h] + a) + b
  {
  }

  lemma ExtendHead<T>(h: T, a: seq<T>, b: seq<T>)
    requires |a| > 0
    ensures (a + b)[0] == a[0] && [h] + (a + b)[1..] == ([h] + a[1..]) + b
  {
    assert (a + b)[1..] == a[1..] + b;
  }

  /** Splitting a join of separator-free components gives the components back. */
  lemma {:induction false} SplitJoin(cs: seq<string>)
    requires |cs| > 0 && forall k :: 0 <= k < |cs| ==> '/' !in cs[k]
    ensures Split(JoinSlash(cs)) == cs
    decreases |cs|
  {
    if |cs| == 1 {
      SplitWithPrefix(cs[0], "");
      assert cs[0] + "" == cs[0];
    } else {
      SplitJoin(cs[1..]);
      SplitWithPrefix(cs[0], "/" + JoinSlash(cs[1..]));
      assert cs[0] + "/" + JoinSlash(cs[1..]) == cs[0] + ("/" + JoinSlash(cs[1..]));
      assert Split("/" + JoinSlash(cs[1..])) == [""] + cs[1..];
      assert cs[0] + "" == cs[0];
    }
  }

  /** A join starts with its first component. */
  lemma JoinStart(cs: seq<string>)
    requires |cs| > 0
    ensures cs[0] <= JoinSlash(cs)
  {
  }

  /** A join ending in two more components ends in them, separated. */
  lemma {:induction false} JoinEnd(cs: seq<string>, a: string, b: string)
    ensures JoinSlash(cs + [a, b]) == (if |cs| == 0 then "" else JoinSlash(cs) + "/") + a + "/" + b
    decreases |cs|
  {
    if |cs| > 0 {
      assert (cs + [a, b])[1..] == cs[1..] + [a, b];
      JoinEnd(cs[1..], a, b);
    }
  }

  /** One step of `normpath`'s loop over components. */
  function Push(stack: seq<string>, comp: string, rooted: bool): seq<string> {
    if comp == "" || comp == "." then stack
    else if comp != ".." || (!rooted && |stack| == 0) || (|stack| > 0 && stack[|stack| - 1] == "..") then stack + [comp]
    else if |stack| > 0 then stack[..|stack| - 1]
    else stack
  }

  /** The loop itself, from the components collected so far. */
  function Resolve(stack: seq<string>, comps: seq<string>, rooted: bool): seq<string>
    decreases |comps|
  {
    if |comps| == 0 then stack else Resolve(Push(stack, comps[0], rooted), comps[1..], rooted)
  }

  /**
   What the loop leaves behind: no empty, `.` or separator-holding
   component, every `..` before every other component, and no `..` at all
   under a root.
   */
  predicate Resolved(stack: seq<string>, rooted: bool) {
    && (forall k :: 0 <= k < |stack| ==> stack[k] != "" && stack[k] != "." && '/' !in stack[k])
    && (forall j, k :: 0 <= j < k < |stack| && stack[k] == ".." ==> stack[j] == "..")
    && (rooted ==> forall k :: 0 <= k < |stack| ==> stack[k] != "..")
  }

  /** `normpath`'s count of leading separators: two stay two, one or three or more become one. */
  function InitialSlashes(p: string): (n: nat)
    ensures n <= 2 && (n > 0 <==> IsAbs(p))
  {
    if |p| >= 2 && p[0] == '/' && p[1] == '/' && !(|p| >= 3 && p[2] == '/') then 2
    else if IsAbs(p) then 1
    else 0
  }

  /** `os.path.normpath` */
  function Normpath(p: string): (r: string)
    ensures |r| > 0
    ensures IsAbs(p) ==> IsAbs(r)
  {
    if p == "" then "."
    else
      var k := InitialSlashes(p);
      var r := Slashes(k) + JoinSlash(Resolve([], Split(p), k > 0));
      if r == "" then "." else r
  }

  lemma {:induction false} PushResolved(stack: seq<string>, comp: string, rooted: bool)
    requires Resolved(stack, rooted) && '/' !in comp
    ensures Resolved(Push(stack, comp, rooted), rooted)
  {
    var s := Push(stack, comp, rooted);
    if comp != "" && comp != "." && comp == ".." && |stack| > 0 && stack[|stack| - 1] == ".." {
      assert forall k :: 0 <= k < |stack| ==> stack[k] == "..";
    }
  }

  lemma {:induction false} ResolveResolved(stack: seq<string>, comps: seq<string>, rooted: bool)
    requires Resolved(stack, rooted) && forall k :: 0 <= k < |comps| ==> '/' !in comps[k]
    ensures Resolved(Resolve(stack, comps, rooted), rooted)
    decreases |comps|
  {
    if |comps| > 0 {
      PushResolved(stack, comps[0], rooted);
      ResolveResolved(Push(stack, comps[0], rooted), comps[1..], rooted);
    }
  }

  /** The loop run on components it would leave alone changes nothing. */
  lemma {:induction false} ResolveKeeps(stack: seq<string>, comps: seq<string>, rooted: bool)
    requires Resolved(stack + comps, rooted)
    ensures Resolve(stack, comps, rooted) == stack + comps
    decreases |comps|
  {
    if |comps| > 0 {
      var c := comps[0];
      assert (stack + comps)[|stack|] == c;
      assert c != "" && c != ".";
      if c == ".." {
        assert !rooted;
        if |stack| > 0 {
          assert stack[|stack| - 1] == (stack + comps)[|stack| - 1] == "..";
        }
      }
      assert Push(stack, c, rooted) == stack + [c];
      assert stack + [c] + comps[1..] == stack + comps;
      ResolveKeeps(stack + [c], comps[1..], rooted);
    }
  }

  /** Running the loop over two parts runs it over the second from where the first ended. */
  lemma {:induction false} ResolveAppend(stack: seq<string>, xs: seq<string>, ys: seq<string>, rooted: bool)
    ensures Resolve(stack, xs + ys, rooted) == Resolve(Resolve(stack, xs, rooted), ys, rooted)
    decreases |xs|
  {
    if |xs| == 0 {
      assert xs + ys == ys;
    } else {
      assert (xs + ys)[1..] == xs[1..] + ys;
      ResolveAppend(Push(stack, xs[0], rooted), xs[1..], ys, rooted);
    }
  }

  /** `k` empty components, as leading separators produce. */
  function Empties(k: nat): (r: seq<string>)
    ensures |r| == k && forall i :: 0 <= i < k ==> r[i] == ""
  {
    seq(k, i => "")
  }

  lemma {:induction false} SplitSlashes(k: nat, x: string)
    ensures Split(Slashes(k) + x) == Empties(k) + Split(x)
    decreases k
  {
    if k > 0 {
      assert (Slashes(k) + x)[0] == '/';
      assert (Slashes(k) + x)[1..] == Slashes(k - 1) + x;
      SplitSlashes(k - 1, x);
      assert Empties(k) + Split(x) == [""] + (Empties(k - 1) + Split(x));
    } else {
      assert Slashes(k) + x == x;
    }
  }

  lemma {:induction false} ResolveSkipsEmpties(stack: seq<string>, k: nat, comps: seq<string>, rooted: bool)
    ensures Resolve(stack, Empties(k) + comps, rooted) == Resolve(stack, comps, rooted)
    decreases k
  {
    if k > 0 {
      assert (Empties(k) + comps)[0] == "";
      assert (Empties(k) + comps)[1..] == Empties(k - 1) + comps;
      ResolveSkipsEmpties(stack, k - 1, comps, rooted);
    } else {
      assert Empties(k) + comps == comps;
    }
  }

  /** The components of a rendered stack resolve to the stack itself. */
  lemma RenderedResolves(k: nat, stack: seq<string>, rooted: bool)
    requires Resolved(stack, rooted)
    ensures Resolve([], Split(Slashes(k) + JoinSlash(stack)), rooted) == stack
  {
    SplitSlashes(k, JoinSlash(stack));
    ResolveSkipsEmpties([], k, Split(JoinSlash(stack)), rooted);
    if |stack| == 0 {
      assert Split(JoinSlash(stack)) == [""];
    } else {
      SplitJoin(stack);
      ResolveKeeps([], stack, rooted);
      assert [] + stack == stack;
    }
  }

  /** A rendered stack keeps the leading separators it was rendered with. */
  lemma RenderedSlashes(k: nat, stack: seq<string>, rooted: bool)
    requires k <= 2 && Resolved(stack, rooted)
    requires k == 0 ==> |stack| > 0
    ensures InitialSlashes(Slashes(k) + JoinSlash(stack)) == k
  {
    var body := JoinSlash(stack);
    if |stack| > 0 {
      JoinStart(stack);
      assert |body| > 0 && body[0] == stack[0][0] && body[0] != '/';
    }
    assert (Slashes(k) + body)[..k] == Slashes(k);
  }

  lemma SplitDot()
    ensures Split(".") == ["."]
  {
    var t := Split(""[..]);
    assert "."[1..] == "" && t == [""];
    assert ['.'] + t[0] == ".";
    assert t[1..] == [];
  }

  /** `normpath` is idempotent: a normalised path is left as it is. */
  lemma NormpathIdempotent(p: string)
    ensures Normpath(Normpath(p)) == Normpath(p)
  {
    var q := Normpath(p);
    if p != "" {
      var k := InitialSlashes(p);
      var stack := Resolve([], Split(p), k > 0);
      SplitComponents(p);
      ResolveResolved([], Split(p), k > 0);
      if Slashes(k) + JoinSlash(stack) == "" {
        assert q == ".";
        SplitDot();
      } else {
        if k == 0 {
          assert |stack| > 0;
        }
        RenderedSlashes(k, stack, k > 0);
        RenderedResolves(k, stack, k > 0);
      }
    } else {
      SplitDot();
    }
  }

  /** `normpath` keeps a path relative exactly when it was relative. */
  lemma NormpathAbs(p: string)
    ensures IsAbs(Normpath(p)) <==> IsAbs(p)
  {
    if p != "" && !IsAbs(p) {
      var stack := Resolve([], Split(p), false);
      SplitComponents(p);
      ResolveResolved([], Split(p), false);
      if |stack| > 0 {
        JoinStart(stack);
      }
    }
  }

  /** `os.path.abspath` against the working directory `cwd`. */
  function Abspath(p: string, cwd: string): (r: string)
    requires IsAbs(cwd)
    ensures IsAbs(r)
  {
    if IsAbs(p) then Normpath(p) else Normpath(Join(cwd, p))
  }

  /** An absolute path is only normalised, and an `abspath` result is a fixed point. */
  lemma AbspathIdempotent(p: string, cwd: string)
    requires IsAbs(cwd)
    ensures IsAbs(p) ==> Abspath(p, cwd) == Normpath(p)
    ensures Abspath(Abspath(p, cwd), cwd) == Abspath(p, cwd)
  {
    NormpathIdempotent(if IsAbs(p) then p else Join(cwd, p));
  }

  /** The index of the last separator, `-1` when there is none (`p.rfind('/')`). */
  function LastSlash(p: string): (i: int)
    ensures -1 <= i < |p|
    ensures i >= 0 ==> p[i] == '/'
    ensures forall j :: i < j < |p| ==> p[j] != '/'
    decreases |p|
  {
    if |p| == 0 then -1
    else if p[|p| - 1] == '/' then |p| - 1
    else LastSlash(p[..|p| - 1])
  }

  /** `os.path.basename`: everything after the last separator. */
  function Basename(p: string): (r: string)
    ensures '/' !in r
  {
    p[LastSlash(p) + 1..]
  }

  predicate IsSlash(c: char) {
    c == '/'
  }

  /**
   `os.path.dirname`: everything up to the last separator, with trailing
   separators removed unless that would leave nothing but separators.
   */
  function Dirname(p: string): (r: string)
    ensures r <= p
  {
    var head := p[..LastSlash(p) + 1];
    if |head| > 0 && head != Slashes(|head|) then TrimEnd(head, IsSlash) else head
  }

  /** `dirname` and `basename` undo a `join` of a directory and a plain name. */
  lemma DirnameOfJoin(d: string, name: string)
    requires |name| > 0 && '/' !in name
    requires |d| > 0 && d[|d| - 1] != '/'
    ensures Dirname(Join(d, name)) == d
    ensures Basename(Join(d, name)) == name
  {
    var p := Join(d, name);
    assert p == d + "/" + name;
    var l := LastSlash(p);
    assert p[|d|] == '/';
    assert l == |d|;
    var head := p[..|d| + 1];
    assert head == d + "/";
    assert head[|d| - 1] != '/';
    TrimEndOf(d, "/", IsSlash);
  }

  /** A component `normpath` neither drops nor treats as a step up. */
  predicate Ordinary(c: string) {
    c != "" && c != "." && c != ".." && '/' !in c
  }

  lemma ResolveTail(t: seq<string>, a: string, b: string, rooted: bool)
    requires Ordinary(a) && Ordinary(b)
    ensures Resolve(t, [a, b], rooted) == t + [a, b]
  {
    assert Push(t, a, rooted) == t + [a];
    assert Resolve(t, [a, b], rooted) == Resolve(t + [a], [b], rooted) by {
      assert [a, b][1..] == [b];
    }
    assert Push(t + [a], b, rooted) == t + [a] + [b] == t + [a, b];
    assert Resolve(t + [a], [b], rooted) == Resolve(t + [a, b], [], rooted) by {
      assert [b][1..] == [];
    }
  }

  lemma SuffixOf(x: string, y: string)
    ensures |x + y| >= |y| && (x + y)[|x + y| - |y|..] == y
  {
    assert (x + y)[|x|..] == y;
  }

  lemma RegroupTail(s: string, fewer: string, j: string, full: string, a: string, b: string, empty: bool)
    requires full == (if empty then "" else j + "/") + a + "/" + b
    requires s == fewer + "/"
    ensures s + full == (if empty then fewer else s + j) + ("/" + a + "/" + b)
  {
  }

  lemma SlashesStep(k: nat)
    requires k > 0
    ensures Slashes(k) == Slashes(k - 1) + "/"
  {
  }

  lemma RenderTail(k: nat, t: seq<string>, a: string, b: string)
    requires k > 0
    ensures Slashes(k) + JoinSlash(t + [a, b]) ==
      (if |t| == 0 then Slashes(k - 1) else Slashes(k) + JoinSlash(t)) + ("/" + a + "/" + b)
  {
    JoinEnd(t, a, b);
    SlashesStep(k);
    RegroupTail(Slashes(k), Slashes(k - 1), JoinSlash(t), JoinSlash(t + [a, b]), a, b, |t| == 0);
  }

  /**
   Under a root, `normpath` keeps the last two components of a path when
   both are ordinary names: whatever precedes them, the result ends in
   `/a/b`.
   */
  lemma NormpathKeepsTail(z: string, pre: seq<string>, a: string, b: string)
    requires Ordinary(a) && Ordinary(b) && forall k :: 0 <= k < |pre| ==> '/' !in pre[k]
    requires IsAbs(z + "/" + JoinSlash(pre + [a, b]))
    ensures var r := Normpath(z + "/" + JoinSlash(pre + [a, b]));
      var tail := "/" + a + "/" + b;
      |r| >= |tail| && r[|r| - |tail|..] == tail
  {
    var rel := pre + [a, b];
    var p := z + "/" + JoinSlash(rel);
    SplitJoin(rel);
    SplitAround(z, JoinSlash(rel));
    var k := InitialSlashes(p);
    var s := Resolve([], Split(z), true);
    ResolveAppend([], Split(z), rel, true);
    ResolveAppend(s, pre, [a, b], true);
    var t := Resolve(s, pre, true);
    ResolveTail(t, a, b, true);
    var front := if |t| == 0 then Slashes(k - 1) else Slashes(k) + JoinSlash(t);
    RenderTail(k, t, a, b);
    SuffixOf(front, "/" + a + "/" + b);
  }
}

=== FILE: permutations.dfy ===
/**
 Shuffles as given permutations: `np.random.shuffle`, `DataFrame.sample(frac=1)`
 and the permutation inside `train_test_split` all reorder rows in an order
 this model takes as an input. Reordering by a permutation keeps the multiset.
 */
module Permutations {

  /** `perm` lists each index below `n` exactly once. */
  predicate IsPermutation(perm: seq<nat>, n: nat) {
    && |perm| == n
    && (forall i :: 0 <= i < n ==> perm[i] < n)
    && (forall i, j :: 0 <= i < j < n ==> perm[i] != perm[j])
  }

  /** `s` reordered: position `i` holds `s[perm[i]]`. */
  function Reorder<T>(s: seq<T>, perm: seq<nat>): (r: seq<T>)
    requires IsPermutation(perm, |s|)
    ensures |r| == |s|
    ensures forall i :: 0 <= i < |s| ==> r[i] == s[perm[i]]
  {
    seq(|s|, i requires 0 <= i < |s| => s[perm[i]])
  }

  /** The identity permutation, for an unshuffled order. */
  function Identity(n: nat): (perm: seq<nat>)
    ensures IsPermutation(perm, n)
  {
    seq(n, i => i)
  }

  /** `perm` without its last entry `v`, the larger entries moved down by one. */
  function Shrink(perm: seq<nat>, v: nat): (r: seq<nat>)
    requires |perm| > 0
    ensures |r| == |perm| - 1
    ensures forall i :: 0 <= i < |r| ==> r[i] == if perm[i] > v then perm[i] - 1 else perm[i]
  {
    seq(|perm| - 1, i requires 0 <= i < |perm| - 1 => if perm[i] > v then perm[i] - 1 else perm[i])
  }

  lemma ShrinkIsPermutation(perm: seq<nat>, n: nat)
    requires n > 0 && IsPermutation(perm, n)
    ensures IsPermutation(Shrink(perm, perm[n - 1]), n - 1)
  {
    var v := perm[n - 1];
    var shrunk := Shrink(perm, v);
    forall i, j | 0 <= i < j < n - 1 ensures shrunk[i] != shrunk[j] {
      assert perm[i] != perm[j] && perm[i] != v && perm[j] != v;
    }
    forall i | 0 <= i < n - 1 ensures shrunk[i] < n - 1 {
      assert perm[i] != v;
    }
  }

  /** Taking out the item at `v` takes one copy of it out of the multiset. */
  lemma RemoveAt<T>(s: seq<T>, v: nat)
    requires v < |s|
    ensures multiset(s[..v] + s[v + 1..]) + multiset{s[v]} == multiset(s)
  {
    assert s == s[..v] + [s[v]] + s[v + 1..];
  }

  /** A reordering loses and duplicates nothing: it is a permutation of the input. */
  lemma {:induction false} ReorderIsPermutation<T>(s: seq<T>, perm: seq<nat>)
    requires IsPermutation(perm, |s|)
    ensures multiset(Reorder(s, perm)) == multiset(s)
    decreases |s|
  {
    var n := |s|;
    if n > 0 {
      var v := perm[n - 1];
      var shrunk := Shrink(perm, v);
      var rest := s[..v] + s[v + 1..];
      ShrinkIsPermutation(perm, n);
      ReorderIsPermutation(rest, shrunk);
      var r := Reorder(s, perm);
      assert r[..n - 1] == Reorder(rest, shrunk) by {
        forall i | 0 <= i < n - 1 ensures r[i] == rest[shrunk[i]] {
          assert perm[i] != v;
        }
      }
      assert r == r[..n - 1] + [s[v]];
      RemoveAt(s, v);
    }
  }
}

=== FILE: random_forest_model.dfy ===
/**
 The random-forest model's characterisation: a balanced labelled training
 set of the user's vectors (label 1) and as many shuffled context vectors
 (label 0). The shuffle is a given permutation and the classifier an oracle.
 */
module RandomForest {
  import opened Wrappers
  import opened Vectors
  import opened Permutations

  datatype TrainingSet = TrainingSet(x: seq<Vector>, y: seq<real>)

  datatype RandomForestModel = RandomForestModel(verbose: bool, characterizationComplete: bool,
                                                 training: Option<TrainingSet>)

  /** `RandomForestClassifier(...).fit(X, Y).predict(tweets)`, as an oracle. */
  type Predictor = (TrainingSet, seq<Vector>) -> seq<real>

  /** `RandomForestModel.__init__`: not yet characterised. */
  function NewRandomForestModel(verbose: bool): (m: RandomForestModel)
    ensures m.verbose == verbose
    ensures !m.characterizationComplete && m.training.None?
  {
    RandomForestModel(verbose, false, None)
  }

  function Ones(n: nat): (r: seq<real>)
    ensures |r| == n && forall i :: 0 <= i < n ==> r[i] == 1.0
  {
    seq(n, _ => 1.0)
  }

  function Zeros(n: nat): (r: seq<real>)
    ensures |r| == n && forall i :: 0 <= i < n ==> r[i] == 0.0
  {
    seq(n, _ => 0.0)
  }

  /**
   `RandomForestModel.characterize`: the positives are the corpus unchanged
   and in order; the negatives are the first `len(corpus)` shuffled context
   vectors (`perm` is the order `np.random.shuffle` chose), so
   `min(|context|, |corpus|)` of them; the
   labels are that many ones then zeros, so `X` and `Y` have one length.
   An empty corpus or context becomes a one-dimensional empty array that
   cannot be stacked on the other side's rows (or, both empty, fitted), so
   either one being empty raises `ValueError`.
   */
  function Characterize(m: RandomForestModel, corpus: seq<Vector>, context: seq<Vector>, perm: seq<nat>): (r: Result<RandomForestModel>)
    requires IsPermutation(perm, |context|)
    ensures r.Err? <==> |corpus| == 0 || |context| == 0
    ensures r.Err? ==> r.error == ValueError
    ensures r.Ok? ==> r.value.characterizationComplete && r.value.training.Some? && r.value.verbose == m.verbose
    ensures r.Ok? ==> var t := r.value.training.value;
      var negatives := if |context| < |corpus| then |context| else |corpus|;
      && |t.x| == |t.y| == |corpus| + negatives
      && t.x[..|corpus|] == corpus
      && (forall i :: 0 <= i < negatives ==> t.x[|corpus| + i] == context[perm[i]])
      && (forall i :: 0 <= i < |corpus| ==> t.y[i] == 1.0)
      && (forall i :: |corpus| <= i < |t.y| ==> t.y[i] == 0.0)
  {
    if |corpus| == 0 || |context| == 0 then Err(ValueError)
    else
      var shuffled := Reorder(context, perm);
      var negatives := if |shuffled| <= |corpus| then shuffled else shuffled[..|corpus|];
      var x := corpus + negatives;
      var y := Ones(|corpus|) + Zeros(|negatives|);
      assert forall i :: |corpus| <= i < |y| ==> y[i] == Zeros(|negatives|)[i - |corpus|];
      Ok(RandomForestModel(m.verbose, true, Some(TrainingSet(x, y))))
  }

  /**
   `RandomForestModel.infer`: the classifier's predictions (1.0 for the
   user, 0.0 for others); before `characterize` there is no classifier,
   and an empty tweet list is a one-dimensional array `predict` rejects.
   */
  function RandomForestInfer(m: RandomForestModel, embeddedTweets: seq<Vector>, predict: Predictor): (r: Result<seq<real>>)
    ensures r.Ok? <==> m.training.Some? && |embeddedTweets| > 0
    ensures m.training.None? ==> r == Err(AttributeError("clf"))
    ensures m.training.Some? && |embeddedTweets| == 0 ==> r == Err(ValueError)
    ensures r.Ok? ==> r.value == predict(m.training.value, embeddedTweets)
  {
    match m.training
    case None => Err(AttributeError("clf"))
    case Some(t) => if |embeddedTweets| == 0 then Err(ValueError) else Ok(predict(t, embeddedTweets))
  }

  /**
   Characterisation is complete exactly when a classifier exists: a new
   model has neither and cannot infer; characterising it on non-empty
   inputs sets both, and it then labels any non-empty tweet list.
   */
  lemma CompletionFlagTracksTraining(verbose: bool, corpus: seq<Vector>, context: seq<Vector>, perm: seq<nat>,
                                     tweets: seq<Vector>, predict: Predictor)
    requires IsPermutation(perm, |context|)
    requires |corpus| > 0 && |context| > 0
    ensures !NewRandomForestModel(verbose).characterizationComplete
    ensures RandomForestInfer(NewRandomForestModel(verbose), tweets, predict).Err?
    ensures var r := Characterize(NewRandomForestModel(verbose), corpus, context, perm);
      r.Ok? && r.value.characterizationComplete &&
      (RandomForestInfer(r.value, tweets, predict).Ok? <==> |tweets| > 0)
  {
  }

  /** The negatives are drawn from the context without replacement: a sub-multiset of it. */
  lemma NegativesDrawnFromContext(m: RandomForestModel, corpus: seq<Vector>, context: seq<Vector>, perm: seq<nat>)
    requires IsPermutation(perm, |context|)
    requires Characterize(m, corpus, context, perm).Ok?
    ensures multiset(Characterize(m, corpus, context, perm).value.training.value.x[|corpus|..]) <= multiset(context)
  {
    var x := Characterize(m, corpus, context, perm).value.training.value.x;
    var shuffled := Reorder(context, perm);
    var k := |x| - |corpus|;
    assert x[|corpus|..] == shuffled[..k];
    assert shuffled == shuffled[..k] + shuffled[k..];
    assert multiset(shuffled) == multiset(shuffled[..k]) + multiset(shuffled[k..]);
    ReorderIsPermutation(context, perm);
  }
}

=== FILE: strings.dfy ===
/**
 The few Python `str` operations the scripts rely on: stripping characters
 from either end (`strip`, `rstrip`), the whitespace `str.strip()` removes
 by default, and the substring test `sub in s`.
 */
module Strings {

  /**
   `str.isspace()` for one character: the ASCII controls `\t` to `\r`, the
   separators `\x1c` to `\x1f`, the space, and Unicode's other white space.
   */
  predicate IsSpace(c: char) {
    || c == ' ' || '\t' <= c <= '\r' || '\U{1c}' <= c <= '\U{1f}'
    || c == '\U{85}' || c == '\U{a0}' || c == '\U{1680}' || '\U{2000}' <= c <= '\U{200a}'
    || c == '\U{2028}' || c == '\U{2029}' || c == '\U{202f}' || c == '\U{205f}' || c == '\U{3000}'
  }

  /** `s.lstrip(chars)`: drop the longest prefix whose characters satisfy `drop`. */
  function TrimStart(s: string, drop: char -> bool): (r: string)
    ensures |r| <= |s| && r == s[|s| - |r|..]
    ensures forall i :: 0 <= i < |s| - |r| ==> drop(s[i])
    ensures |r| == 0 || !drop(r[0])
  {
    if |s| == 0 || !drop(s[0]) then s else TrimStart(s[1..], drop)
  }

  /** `s.rstrip(chars)`: drop the longest suffix whose characters satisfy `drop`. */
  function TrimEnd(s: string, drop: char -> bool): (r: string)
    ensures r <= s
    ensures forall i :: |r| <= i < |s| ==> drop(s[i])
    ensures |r| == 0 || !drop(r[|r| - 1])
  {
    if |s| == 0 || !drop(s[|s| - 1]) then s else TrimEnd(s[..|s| - 1], drop)
  }

  /** `s.strip(chars)`. */
  function Trim(s: string, drop: char -> bool): (r: string)
    ensures |r| <= |s|
    ensures |r| == 0 || (!drop(r[0]) && !drop(r[|r| - 1]))
  {
    TrimEnd(TrimStart(s, drop), drop)
  }

  /** Every character of `s` satisfies `drop`. */
  predicate AllDrop(s: string, drop: char -> bool) {
    forall i :: 0 <= i < |s| ==> drop(s[i])
  }

  /** Neither end of `s` is a character `drop` would strip. */
  predicate Trimmed(s: string, drop: char -> bool) {
    |s| == 0 || (!drop(s[0]) && !drop(s[|s| - 1]))
  }

  lemma {:induction false} TrimStartOf(a: string, x: string, drop: char -> bool)
    requires AllDrop(a, drop) && (|x| == 0 || !drop(x[0]))
    ensures TrimStart(a + x, drop) == x
    decreases |a|
  {
    if |a| == 0 {
      assert a + x == x;
    } else {
      assert (a + x)[1..] == a[1..] + x;
      TrimStartOf(a[1..], x, drop);
    }
  }

  lemma {:induction false} TrimEndOf(x: string, b: string, drop: char -> bool)
    requires AllDrop(b, drop) && (|x| == 0 || !drop(x[|x| - 1]))
    ensures TrimEnd(x + b, drop) == x
    decreases |b|
  {
    if |b| == 0 {
      assert x + b == x;
    } else {
      assert (x + b)[..|x + b| - 1] == x + b[..|b| - 1];
      TrimEndOf(x, b[..|b| - 1], drop);
    }
  }

  /**
   What `strip` computes: whenever `s` is a run of stripped characters, a
   middle part with no strippable character at either end, and another
   such run, the middle part is the result.
   */
  lemma TrimIsMiddle(a: string, m: string, b: string, drop: char -> bool)
    requires AllDrop(a, drop) && AllDrop(b, drop) && Trimmed(m, drop)
    ensures Trim(a + m + b, drop) == m
  {
    if |m| == 0 {
      assert a + m + b == a + b;
      assert AllDrop(a + b, drop);
      TrimStartOf(a + b, [], drop);
      assert a + b + [] == a + b;
    } else {
      assert a + m + b == a + (m + b);
      TrimStartOf(a, m + b, drop);
      TrimEndOf(m, b, drop);
    }
  }

  /** `s` is a run of stripped characters, then `r` from offset `i`, then another such run. */
  predicate SplitsAround(s: string, i: int, r: string, drop: char -> bool) {
    && 0 <= i && i + |r| <= |s| && s == s[..i] + r + s[i + |r|..]
    && AllDrop(s[..i], drop) && AllDrop(s[i + |r|..], drop)
  }

  /** The three parts `strip` sees: the stripped ends around the result. */
  lemma TrimSplits(s: string, drop: char -> bool)
    ensures SplitsAround(s, |s| - |TrimStart(s, drop)|, Trim(s, drop), drop)
  {
    ThreeParts(s, TrimStart(s, drop), Trim(s, drop), drop);
  }

  lemma ThreeParts(s: string, t: string, r: string, drop: char -> bool)
    requires |t| <= |s| && t == s[|s| - |t|..] && r <= t
    requires forall k :: 0 <= k < |s| - |t| ==> drop(s[k])
    requires forall k :: |r| <= k < |t| ==> drop(t[k])
    ensures SplitsAround(s, |s| - |t|, r, drop)
  {
    var i := |s| - |t|;
    assert s[i + |r|..] == t[|r|..];
    assert s == s[..i] + t;
    assert t == r + t[|r|..];
  }

  /** Stripping twice strips nothing more. */
  lemma TrimIdempotent(s: string, drop: char -> bool)
    ensures Trim(Trim(s, drop), drop) == Trim(s, drop)
  {
    var r := Trim(s, drop);
    TrimIsMiddle([], r, [], drop);
    assert [] + r + [] == r;
  }

  /** `sub` occurs in `s` at offset `i`. */
  predicate OccursAt(s: string, sub: string, i: int) {
    0 <= i <= |s| - |sub| && s[i..i + |sub|] == sub
  }

  /** `sub in s` for strings, scanning the offsets from the left. */
  predicate Contains(s: string, sub: string)
    decreases |s|
  {
    |sub| <= |s| && (s[..|sub|] == sub || (|s| > 0 && Contains(s[1..], sub)))
  }

  /** `sub in s` holds exactly when `sub` occurs at some offset of `s`. */
  lemma {:induction false} ContainsAt(s: string, sub: string)
    ensures Contains(s, sub) <==> exists i :: OccursAt(s, sub, i)
    decreases |s|
  {
    if |sub| <= |s| {
      if s[..|sub|] == sub {
        assert OccursAt(s, sub, 0);
      } else if |s| > 0 {
        ContainsAt(s[1..], sub);
        if i :| OccursAt(s, sub, i) {
          assert i > 0 && OccursAt(s[1..], sub, i - 1);
        }
        if Contains(s[1..], sub) {
          var j :| OccursAt(s[1..], sub, j);
          assert s[j + 1..j + 1 + |sub|] == s[1..][j..j + |sub|];
          assert OccursAt(s, sub, j + 1);
        }
      }
    }
  }
}

=== FILE: tfidf_model.dfy ===
/**
 The term-frequency / TF-IDF model. Characterisation fits a vectorizer on
 one document (the user's tweets joined with spaces) or, with context, on
 two (the user document, and the user document immediately followed by the
 joined context tweets), and keeps the weight row of the user document and
 the fitted vocabulary. Scoring counts each vocabulary term in a tweet,
 L2-normalises the counts, and takes the dot product with the stored row.

 The vectorizer's fit (English stop words, IDF smoothing, normalisation of
 the fitted rows) is an oracle; so is its analyzer (tokenisation with stop
 words removed). The scoring side, with a fixed vocabulary and no IDF, is
 modelled: counts, then L2 normalisation that leaves an all-zero row at zero.
 */
module Tfidf {
  import opened Wrappers
  import opened Vectors
  import opened Hyperparameters

  /** A fitted vectorizer: its vocabulary, and one weight row per document. */
  datatype Fitted = Fitted(vocabulary: seq<string>, rows: seq<Vector>)

  /** `TfidfVectorizer(stop_words='english', use_idf=useIdf).fit_transform(docs)`. */
  type Fitter = (seq<string>, bool) -> Fitted

  /** What the fit oracle must promise: one row per document, one weight per term. */
  ghost predicate FitShape(fit: Fitter) {
    forall docs: seq<string>, useIdf: bool {:trigger fit(docs, useIdf)} ::
      |fit(docs, useIdf).rows| == |docs| && Dim(fit(docs, useIdf).rows, |fit(docs, useIdf).vocabulary|)
  }

  /** The vectorizer's analyzer: the terms of one text, stop words removed. */
  type Analyzer = string -> seq<string>

  /** What characterisation stores: `feature_names` and `word_freq_vec`. */
  datatype Characterization = Characterization(vocabulary: seq<string>, weights: Vector)

  datatype TfidfModel = TfidfModel(useContext: bool, params: Params, fit: Option<Characterization>)

  /** `TFIDFModel.__init__`: `use_context` is fixed here; the threshold defaults to 0.3. */
  function NewTfidfModel(useContext: bool): (m: TfidfModel)
    ensures m.useContext == useContext
    ensures ReadThreshold(m.params) == Ok(DefaultThreshold)
    ensures m.fit.None?
  {
    TfidfModel(useContext, DefaultParams(), None)
  }

  function TotalLength(xs: seq<string>): nat {
    if |xs| == 0 then 0 else |xs[0]| + TotalLength(xs[1..])
  }

  /** `' '.join(xs)`. */
  function JoinSpace(xs: seq<string>): (r: string)
    ensures |r| == TotalLength(xs) + (if |xs| == 0 then 0 else |xs| - 1)
    ensures |xs| > 0 ==> r[..|xs[0]|] == xs[0]
  {
    if |xs| == 0 then ""
    else if |xs| == 1 then xs[0]
    else xs[0] + " " + JoinSpace(xs[1..])
  }

  /**
   The documents the vectorizer is fitted on. Without context: the user
   document alone. With context: the user document, then the user document
   followed directly (no separator) by the joined context, which must exist.
   */
  function Documents(useContext: bool, corpus: seq<string>, context: Option<seq<string>>): (r: Result<seq<string>>)
    ensures r.Err? <==> useContext && context.None?
    ensures r.Ok? ==> |r.value| == (if useContext then 2 else 1)
    ensures r.Ok? ==> r.value[0] == JoinSpace(corpus)
    ensures r.Ok? && useContext ==>
      |r.value[1]| == |r.value[0]| + |JoinSpace(context.value)| &&
      r.value[1][..|r.value[0]|] == r.value[0] &&
      r.value[1][|r.value[0]|..] == JoinSpace(context.value)
  {
    if !useContext then Ok([JoinSpace(corpus)])
    else match context
      case None => Err(TypeError)
      case Some(other) => Ok([JoinSpace(corpus), JoinSpace(corpus) + JoinSpace(other)])
  }

  /**
   `TFIDFModel.characterize`: fits on the documents (with IDF exactly when
   there is context), keeps row 0 -- the user document's weights -- and the
   vocabulary. A fit that finds no terms raises.
   */
  function Characterize(m: TfidfModel, corpus: seq<string>, context: Option<seq<string>>, fit: Fitter): (r: Result<TfidfModel>)
    requires FitShape(fit)
    ensures r.Err? <==> Documents(m.useContext, corpus, context).Err? ||
                        |fit(Documents(m.useContext, corpus, context).value, m.useContext).vocabulary| == 0
    ensures r.Ok? ==> r.value.useContext == m.useContext && r.value.params == m.params
    ensures r.Ok? ==>
      var fitted := fit(Documents(m.useContext, corpus, context).value, m.useContext);
      r.value.fit == Some(Characterization(fitted.vocabulary, fitted.rows[0]))
    ensures r.Ok? ==> |r.value.fit.value.weights| == |r.value.fit.value.vocabulary| > 0
  {
    match Documents(m.useContext, corpus, context)
    case Err(e) => Err(e)
    case Ok(docs) =>
      var fitted := fit(docs, m.useContext);
      if |fitted.vocabulary| == 0 then Err(EmptyVocabulary)
      else Ok(m.(fit := Some(Characterization(fitted.vocabulary, fitted.rows[0]))))
  }

  /** How often `term` occurs in `tokens`. */
  function Count(tokens: seq<string>, term: string): (n: nat)
    ensures n > 0 <==> term in tokens
  {
    if |tokens| == 0 then 0
    else (if tokens[0] == term then 1 else 0) + Count(tokens[1..], term)
  }

  /** Raw counts of each vocabulary term in a token list. */
  function TermCounts(vocabulary: seq<string>, tokens: seq<string>): (r: Vector)
    ensures |r| == |vocabulary|
    ensures forall k :: 0 <= k < |vocabulary| ==> r[k] >= 0.0
    ensures forall k :: 0 <= k < |vocabulary| ==> (r[k] > 0.0 <==> vocabulary[k] in tokens)
  {
    seq(|vocabulary|, k requires 0 <= k < |vocabulary| => Count(tokens, vocabulary[k]) as real)
  }

  /** One row of the scoring vectorizer: counts, L2-normalised; an all-zero row stays zero. */
  function TermRow(vocabulary: seq<string>, tokens: seq<string>, sqrt: real -> real): (r: Vector)
    requires IsSqrt(sqrt)
    ensures |r| == |vocabulary|
    ensures forall k :: 0 <= k < |vocabulary| ==> r[k] >= 0.0
    ensures forall k :: 0 <= k < |vocabulary| ==> (r[k] > 0.0 <==> vocabulary[k] in tokens)
  {
    var counts := TermCounts(vocabulary, tokens);
    if IsZero(counts) then counts
    else
      NormalizedSigns(counts, sqrt);
      Normalize(counts, sqrt).v
  }

  /** Normalising non-negative counts keeps every sign. */
  lemma NormalizedSigns(counts: Vector, sqrt: real -> real)
    requires IsSqrt(sqrt) && !IsZero(counts)
    requires forall k :: 0 <= k < |counts| ==> counts[k] >= 0.0
    ensures Normalize(counts, sqrt).Unit?
    ensures var u := Normalize(counts, sqrt).v;
      |u| == |counts| && forall k :: 0 <= k < |u| ==> u[k] >= 0.0 && (u[k] > 0.0 <==> counts[k] > 0.0)
  {
    var n := sqrt(Inner(counts, counts));
    InnerSelfZero(counts);
    var u := Normalize(counts, sqrt).v;
    assert Scale(n, u) == counts;
    assert n >= 0.0;
    assert forall k :: 0 <= k < |u| ==> n * u[k] == counts[k] by {
      forall k | 0 <= k < |u| ensures n * u[k] == counts[k] { assert Scale(n, u)[k] == counts[k]; }
    }
    SignOfQuotient(n, u, counts);
  }

  lemma SignOfQuotient(n: real, u: Vector, counts: Vector)
    requires |u| == |counts| && n >= 0.0
    requires forall k :: 0 <= k < |u| ==> n * u[k] == counts[k] && counts[k] >= 0.0
    requires !IsZero(counts)
    ensures forall k :: 0 <= k < |u| ==> u[k] >= 0.0 && (u[k] > 0.0 <==> counts[k] > 0.0)
  {
    var j :| 0 <= j < |counts| && counts[j] != 0.0;
    assert n * u[j] == counts[j];
    assert n > 0.0;
    forall k | 0 <= k < |u| ensures u[k] >= 0.0 && (u[k] > 0.0 <==> counts[k] > 0.0) {
      assert u[k] == counts[k] / n;
    }
  }

  /**
   `TFIDFModel.similarity_score`: one score per tweet, in order, each the dot
   product of the tweet's row over the stored vocabulary with the stored
   weights. Scoring before characterisation fails on the missing attribute;
   an empty tweet list leaves the vectorizer's transformer no sample to fit,
   which it rejects.
   */
  function SimilarityScore(m: TfidfModel, tweets: seq<string>, analyze: Analyzer, sqrt: real -> real): (r: Result<seq<real>>)
    requires IsSqrt(sqrt)
    requires m.fit.Some? ==> |m.fit.value.weights| == |m.fit.value.vocabulary|
    ensures r.Err? <==> m.fit.None? || |tweets| == 0
    ensures m.fit.None? ==> r == Err(AttributeError("feature_names"))
    ensures m.fit.Some? && |tweets| == 0 ==> r == Err(ValueError)
    ensures r.Ok? ==> |r.value| == |tweets|
    ensures r.Ok? ==> forall i :: 0 <= i < |tweets| ==>
      r.value[i] == Inner(TermRow(m.fit.value.vocabulary, analyze(tweets[i]), sqrt), m.fit.value.weights)
  {
    match m.fit
    case None => Err(AttributeError("feature_names"))
    case Some(c) =>
      if |tweets| == 0 then Err(ValueError)
      else Ok(seq(|tweets|, i requires 0 <= i < |tweets| =>
        Inner(TermRow(c.vocabulary, analyze(tweets[i]), sqrt), c.weights)))
  }

  /** `TFIDFModel.infer`: a score strictly below the threshold is flagged. */
  function TfidfInfer(m: TfidfModel, tweets: seq<string>, analyze: Analyzer, sqrt: real -> real): (r: Result<seq<bool>>)
    requires IsSqrt(sqrt)
    requires m.fit.Some? ==> |m.fit.value.weights| == |m.fit.value.vocabulary|
    ensures m.fit.None? ==> r == Err(AttributeError("feature_names"))
    ensures m.fit.Some? && |tweets| == 0 ==> r == Err(ValueError)
    ensures m.fit.Some? ==> (r.Err? <==> |tweets| == 0 || ThresholdKey !in m.params)
    ensures r.Ok? ==> |r.value| == |tweets|
    ensures r.Ok? ==> forall i :: 0 <= i < |tweets| ==>
      (r.value[i] <==> SimilarityScore(m, tweets, analyze, sqrt).value[i] < m.params[ThresholdKey])
  {
    match SimilarityScore(m, tweets, analyze, sqrt)
    case Err(e) => Err(e)
    case Ok(scores) =>
      match ReadThreshold(m.params)
      case Err(e) => Err(e)
      case Ok(t) => Ok(seq(|scores|, i requires 0 <= i < |scores| => scores[i] < t))
  }

  /** Tokens outside the vocabulary do not change a tweet's counts. */
  lemma {:induction false} CountIgnoresOtherTerms(tokens: seq<string>, extra: seq<string>, term: string)
    requires term !in extra
    ensures Count(tokens + extra, term) == Count(tokens, term)
  {
    if |tokens| == 0 {
      assert tokens + extra == extra;
      CountAbsent(extra, term);
    } else {
      assert (tokens + extra)[1..] == tokens[1..] + extra;
      CountIgnoresOtherTerms(tokens[1..], extra, term);
    }
  }

  lemma {:induction false} CountAbsent(tokens: seq<string>, term: string)
    requires term !in tokens
    ensures Count(tokens, term) == 0
  {
    if |tokens| > 0 {
      CountAbsent(tokens[1..], term);
    }
  }

  /**
   The vocabulary is fixed at characterisation: appending out-of-vocabulary
   terms to a tweet leaves its score unchanged.
   */
  lemma OutOfVocabularyTermsIgnored(vocabulary: seq<string>, weights: Vector, tokens: seq<string>,
                                    extra: seq<string>, sqrt: real -> real)
    requires IsSqrt(sqrt) && |weights| == |vocabulary|
    requires forall x :: x in extra ==> x !in vocabulary
    ensures Inner(TermRow(vocabulary, tokens + extra, sqrt), weights) == Inner(TermRow(vocabulary, tokens, sqrt), weights)
  {
    forall k | 0 <= k < |vocabulary|
      ensures TermCounts(vocabulary, tokens + extra)[k] == TermCounts(vocabulary, tokens)[k]
    {
      CountIgnoresOtherTerms(tokens, extra, vocabulary[k]);
    }
    assert TermCounts(vocabulary, tokens + extra) == TermCounts(vocabulary, tokens);
  }

  /** A tweet none of whose terms is in the vocabulary scores exactly 0. */
  lemma OutOfVocabularyScoresZero(vocabulary: seq<string>, weights: Vector, tokens: seq<string>, sqrt: real -> real)
    requires IsSqrt(sqrt) && |weights| == |vocabulary|
    requires forall x :: x in tokens ==> x !in vocabulary
    ensures Inner(TermRow(vocabulary, tokens, sqrt), weights) == 0.0
  {
    var row := TermRow(vocabulary, tokens, sqrt);
    assert IsZero(row) by {
      forall k | 0 <= k < |row| ensures row[k] == 0.0 {
        assert vocabulary[k] !in tokens;
      }
    }
    InnerZeroLeft(row, weights);
  }

  /**
   With a positive threshold, a characterised model flags every tweet none
   of whose terms is in the vocabulary.
   */
  lemma OutOfVocabularyFlagged(m: TfidfModel, tweets: seq<string>, analyze: Analyzer, sqrt: real -> real, i: nat)
    requires IsSqrt(sqrt) && m.fit.Some? && |m.fit.value.weights| == |m.fit.value.vocabulary|
    requires ThresholdKey in m.params && m.params[ThresholdKey] > 0.0
    requires i < |tweets|
    requires forall x :: x in analyze(tweets[i]) ==> x !in m.fit.value.vocabulary
    ensures TfidfInfer(m, tweets, analyze, sqrt).Ok?
    ensures TfidfInfer(m, tweets, analyze, sqrt).value[i]
  {
    OutOfVocabularyScoresZero(m.fit.value.vocabulary, m.fit.value.weights, analyze(tweets[i]), sqrt);
  }

  lemma {:induction false} InnerPositive(a: Vector, b: Vector, k: nat)
    requires |a| == |b| && k < |a|
    requires forall j :: 0 <= j < |a| ==> a[j] >= 0.0 && b[j] >= 0.0
    requires a[k] > 0.0 && b[k] > 0.0
    ensures Inner(a, b) > 0.0
  {
    if k == 0 {
      InnerNonNegative(a[1..], b[1..]);
    } else {
      InnerPositive(a[1..], b[1..], k - 1);
    }
  }

  lemma {:induction false} InnerNonNegative(a: Vector, b: Vector)
    requires |a| == |b|
    requires forall j :: 0 <= j < |a| ==> a[j] >= 0.0 && b[j] >= 0.0
    ensures Inner(a, b) >= 0.0
  {
    if |a| > 0 {
      InnerNonNegative(a[1..], b[1..]);
    }
  }

  /**
   With non-negative weights (as TF and TF-IDF rows are), a tweet containing
   a vocabulary term of positive weight scores strictly above one whose terms
   are all outside the vocabulary.
   */
  lemma InVocabularyBeatsOutOfVocabulary(vocabulary: seq<string>, weights: Vector, tokens: seq<string>,
                                         oov: seq<string>, k: nat, sqrt: real -> real)
    requires IsSqrt(sqrt) && |weights| == |vocabulary| && k < |vocabulary|
    requires forall j :: 0 <= j < |weights| ==> weights[j] >= 0.0
    requires vocabulary[k] in tokens && weights[k] > 0.0
    requires forall x :: x in oov ==> x !in vocabulary
    ensures Inner(TermRow(vocabulary, tokens, sqrt), weights) > Inner(TermRow(vocabulary, oov, sqrt), weights)
  {
    InnerPositive(TermRow(vocabulary, tokens, sqrt), weights, k);
    OutOfVocabularyScoresZero(vocabulary, weights, oov, sqrt);
  }
}

=== FILE: train_models.dfy ===
/**
 `train_models`: for each user, a model is characterised on the user's
 training rows and on other users' training rows, then asked to label the
 user's test rows and an equally long prefix of the other users' test rows.
 The truth vector labels own rows 1 and other rows 0; the matrix is read
 with the label order `[0, 1]`, so row 0 counts the other users' rows.

 The model is any object with `characterize` and `infer`; both are oracles
 here, and the model value is threaded from user to user as the one Python
 object is. A label `1` is `true`, a label `0` is `false`. The column passed
 to the model (`'tweet'` or `'embedding'`) is a selector on rows.
 */
module Training {
  import opened Wrappers
  import opened Vectors
  import opened Permutations
  import opened Confusion
  import opened Dataset

  /** The two selections split the rows: every row lands in exactly one of them. */
  lemma {:induction false} OwnOthersPartition(rows: seq<Row>, user: string)
    ensures multiset(Own(rows, user)) + multiset(Others(rows, user)) == multiset(rows)
    decreases |rows|
  {
    if |rows| > 0 {
      var x, rest := rows[0], rows[1..];
      OwnOthersPartition(rest, user);
      assert rows == [x] + rest;
      PartitionStep(x, Own(rest, user), Others(rest, user), rest, Own(rows, user), Others(rows, user));
    }
  }

  /** Adding one item in front of a split input adds it to exactly one side. */
  lemma PartitionStep<T>(x: T, a: seq<T>, b: seq<T>, rest: seq<T>, a': seq<T>, b': seq<T>)
    requires multiset(a) + multiset(b) == multiset(rest)
    requires (a' == [x] + a && b' == b) || (a' == a && b' == [x] + b)
    ensures multiset(a') + multiset(b') == multiset([x] + rest)
  {
  }

  /** So the user's selection holds every row the user wrote, as often as it occurs. */
  lemma OwnIsComplete(rows: seq<Row>, user: string, x: Row)
    requires x.name == user
    ensures multiset(Own(rows, user))[x] == multiset(rows)[x]
  {
    OwnOthersPartition(rows, user);
    assert x !in Others(rows, user);
  }

  /** `frame[data_column]`: one column of the rows, in order. */
  function Column<D>(rows: seq<Row>, column: Row -> D): (r: seq<D>)
    ensures |r| == |rows|
    ensures forall i :: 0 <= i < |rows| ==> r[i] == column(rows[i])
  {
    seq(|rows|, i requires 0 <= i < |rows| => column(rows[i]))
  }

  /** `s[:n]`: the first `n` items, or all of them when there are fewer. */
  function Prefix<T>(s: seq<T>, n: nat): (r: seq<T>)
    ensures |r| == (if |s| < n then |s| else n)
    ensures r <= s
  {
    if |s| <= n then s else s[..n]
  }

  /** `np.ones(n)` / `np.zeros(n)` as labels. */
  function Labels(n: nat, b: bool): (r: seq<bool>)
    ensures |r| == n && forall i :: 0 <= i < n ==> r[i] == b
  {
    seq(n, i => b)
  }

  /** Both label values occur among truth and predictions, so the inferred label list is `[0, 1]`. */
  predicate BothLabels(truth: seq<bool>, pred: seq<bool>) {
    (true in truth || true in pred) && (false in truth || false in pred)
  }

  /**
   `confusion_matrix(y_true, y_pred)` without `labels`, then the four cell
   reads: the labels are the sorted values that occur, so the matrix is 2x2
   with order `[0, 1]` exactly when both occur; otherwise reading `cm[0,1]`
   fails. Vectors of different lengths are refused.
   */
  function InferredMatrix(truth: seq<bool>, pred: seq<bool>): (r: Result<Matrix>)
    ensures r.Err? <==> |truth| != |pred| || !BothLabels(truth, pred)
    ensures r.Ok? ==> r.value == ConfusionMatrix(truth, pred, false)
  {
    if |truth| != |pred| then Err(ValueError)
    else if !BothLabels(truth, pred) then Err(IndexError)
    else Ok(ConfusionMatrix(truth, pred, false))
  }

  /** What one user's round records. */
  datatype UserReport = UserReport(user: string, testCount: nat, truth: seq<bool>, pred: seq<bool>,
                                   matrix: Matrix, tpr: Score, fpr: Score)

  /** The four data sets of one user's round, before any model call. */
  datatype UserData<D> = UserData(ownTrain: seq<D>, ownTest: seq<D>, otherTrain: seq<D>, otherTest: seq<D>)

  /**
   Row selection for one user: own rows from the main split; other rows from
   `pool` (the negative split when one is given, else the main split), the
   test part cut to the number of own test rows.
   */
  function SelectData<D>(train: seq<Row>, test: seq<Row>, pool: (seq<Row>, seq<Row>), user: string,
                         column: Row -> D): (u: UserData<D>)
    ensures u.ownTrain == Column(Own(train, user), column)
    ensures u.ownTest == Column(Own(test, user), column)
    ensures u.otherTrain == Column(Others(pool.0, user), column)
    ensures u.otherTest <= Column(Others(pool.1, user), column)
    ensures |u.otherTest| == if |Others(pool.1, user)| < |Own(test, user)| then |Others(pool.1, user)| else |Own(test, user)|
  {
    var ownTest := Column(Own(test, user), column);
    UserData(Column(Own(train, user), column), ownTest, Column(Others(pool.0, user), column),
             Prefix(Column(Others(pool.1, user), column), |ownTest|))
  }

  /**
   One user's round: characterise, label own then other test data, compare
   with `|own test|` ones followed by `|other test|` zeros, and read the
   rates off the matrix. Returns the characterised model, which the next
   round starts from. A failing `characterize` ends the round before any
   labelling.
   */
  function TrainUser<M, D>(model: M, u: UserData<D>, user: string,
                           characterize: (M, seq<D>, seq<D>) -> Result<M>,
                           infer: (M, seq<D>) -> Result<seq<bool>>): (r: Result<(M, UserReport)>)
    ensures characterize(model, u.ownTrain, u.otherTrain).Err? ==>
      r == Err(characterize(model, u.ownTrain, u.otherTrain).error)
    ensures r.Ok? ==> characterize(model, u.ownTrain, u.otherTrain) == Ok(r.value.0)
    ensures characterize(model, u.ownTrain, u.otherTrain).Ok? ==>
      var m := characterize(model, u.ownTrain, u.otherTrain).value;
      var own, other := infer(m, u.ownTest), infer(m, u.otherTest);
      && (own.Err? ==> r == Err(own.error))
      && (own.Ok? && other.Err? ==> r == Err(other.error))
      && (own.Ok? && other.Ok? ==>
            var truth := Labels(|u.ownTest|, true) + Labels(|u.otherTest|, false);
            && (r.Ok? <==> InferredMatrix(truth, own.value + other.value).Ok?)
            && (r.Ok? ==> r.value.1.pred == own.value + other.value
                          && r.value.1.matrix == InferredMatrix(truth, own.value + other.value).value))
    ensures r.Ok? ==> var rep := r.value.1;
      && rep.user == user && rep.testCount == |u.ownTest|
      && |rep.truth| == |rep.pred| == |u.ownTest| + |u.otherTest|
      && (forall i :: 0 <= i < |rep.truth| ==> (rep.truth[i] <==> i < |u.ownTest|))
      && rep.matrix.c00 + rep.matrix.c01 == |u.otherTest|
      && rep.matrix.c10 + rep.matrix.c11 == |u.ownTest|
      && rep.tpr == TPR(rep.matrix) && rep.fpr == FPR(rep.matrix)
  {
    match characterize(model, u.ownTrain, u.otherTrain)
    case Err(e) => Err(e)
    case Ok(m) =>
      match infer(m, u.ownTest)
      case Err(e) => Err(e)
      case Ok(ownPred) =>
        match infer(m, u.otherTest)
        case Err(e) => Err(e)
        case Ok(otherPred) =>
          var truth := Labels(|u.ownTest|, true) + Labels(|u.otherTest|, false);
          var pred := ownPred + otherPred;
          match InferredMatrix(truth, pred)
          case Err(e) => Err(e)
          case Ok(c) =>
            LabelCounts(|u.ownTest|, |u.otherTest|);
            Ok((m, UserReport(user, |u.ownTest|, truth, pred, c, TPR(c), FPR(c))))
  }

  lemma {:induction false} CountLabelConstant(n: nat, b: bool, a: bool)
    ensures CountLabel(Labels(n, b), a) == if b == a then n else 0
    decreases n
  {
    if n > 0 {
      assert Labels(n, b)[1..] == Labels(n - 1, b);
      CountLabelConstant(n - 1, b, a);
    }
  }

  lemma CountLabelAppend(s: seq<bool>, t: seq<bool>, a: bool)
    ensures CountLabel(s + t, a) == CountLabel(s, a) + CountLabel(t, a)
  {
    CountPairsAppend(s, s, t, t, a, a);
    CountPairsDiagonal(s, a);
    CountPairsDiagonal(t, a);
    CountPairsDiagonal(s + t, a);
  }

  lemma {:induction false} CountPairsDiagonal(s: seq<bool>, a: bool)
    ensures CountPairs(s, s, a, a) == CountLabel(s, a)
    decreases |s|
  {
    if |s| > 0 {
      CountPairsDiagonal(s[1..], a);
    }
  }

  /** The truth vector holds `own` ones and `other` zeros. */
  lemma LabelCounts(own: nat, other: nat)
    ensures CountLabel(Labels(own, true) + Labels(other, false), true) == own
    ensures CountLabel(Labels(own, true) + Labels(other, false), false) == other
  {
    CountLabelAppend(Labels(own, true), Labels(other, false), true);
    CountLabelAppend(Labels(own, true), Labels(other, false), false);
    CountLabelConstant(own, true, true);
    CountLabelConstant(own, true, false);
    CountLabelConstant(other, false, true);
    CountLabelConstant(other, false, false);
  }

  /** Pairs with one fixed truth v count the predictions of that v. */
  lemma {:induction false} CountPairsConstantTruth(n: nat, v: bool, pred: seq<bool>, a: bool, b: bool)
    requires |pred| == n
    ensures CountPairs(Labels(n, v), pred, a, b) == if v == a then CountLabel(pred, b) else 0
    decreases n
  {
    if n > 0 {
      assert Labels(n, v)[1..] == Labels(n - 1, v);
      CountPairsConstantTruth(n - 1, v, pred[1..], a, b);
    }
  }

  /**
   What the two printed rates mean: the "TPR" is the share of other users'
   test rows the model labels 0, NaN when there are none; the "FPR" is the
   share of the user's own test rows it labels 0, NaN when there are none.
   */
  lemma TrainUserRates<M, D>(model: M, u: UserData<D>, user: string,
                             characterize: (M, seq<D>, seq<D>) -> Result<M>,
                             infer: (M, seq<D>) -> Result<seq<bool>>)
    requires TrainUser(model, u, user, characterize, infer).Ok?
    requires |infer(characterize(model, u.ownTrain, u.otherTrain).value, u.ownTest).value| == |u.ownTest|
    ensures var m := characterize(model, u.ownTrain, u.otherTrain).value;
      var ownPred := infer(m, u.ownTest).value;
      var otherPred := infer(m, u.otherTest).value;
      var rep := TrainUser(model, u, user, characterize, infer).value.1;
      && rep.pred == ownPred + otherPred
      && rep.tpr == RateOfCounts(CountLabel(otherPred, false), CountLabel(otherPred, true))
      && rep.fpr == RateOfCounts(CountLabel(ownPred, false), CountLabel(ownPred, true))
  {
    var m := characterize(model, u.ownTrain, u.otherTrain).value;
    var ownPred := infer(m, u.ownTest).value;
    var otherPred := infer(m, u.otherTest).value;
    var rep := TrainUser(model, u, user, characterize, infer).value.1;
    assert rep.pred == ownPred + otherPred;
    assert rep.truth == Labels(|ownPred|, true) + Labels(|otherPred|, false);
    RoundRates(ownPred, otherPred);
  }

  /**
   The rates of own-then-other predictions against ones-then-zeros, read
   with label order `[0, 1]`.
   */
  lemma RoundRates(ownPred: seq<bool>, otherPred: seq<bool>)
    ensures var m := ConfusionMatrix(Labels(|ownPred|, true) + Labels(|otherPred|, false), ownPred + otherPred, false);
      && TPR(m) == RateOfCounts(CountLabel(otherPred, false), CountLabel(otherPred, true))
      && FPR(m) == RateOfCounts(CountLabel(ownPred, false), CountLabel(ownPred, true))
  {
    var truth := Labels(|ownPred|, true) + Labels(|otherPred|, false);
    RatesOfConfusion(truth, ownPred + otherPred, false);
    LabelledPairs(ownPred, otherPred, false, false);
    LabelledPairs(ownPred, otherPred, false, true);
    LabelledPairs(ownPred, otherPred, true, false);
    LabelledPairs(ownPred, otherPred, true, true);
  }

  /** Own rows carry truth 1 and other rows truth 0, so each pair count is a count of one part's predictions. */
  lemma LabelledPairs(ownPred: seq<bool>, otherPred: seq<bool>, a: bool, b: bool)
    ensures CountPairs(Labels(|ownPred|, true) + Labels(|otherPred|, false), ownPred + otherPred, a, b) ==
      if a then CountLabel(ownPred, b) else CountLabel(otherPred, b)
  {
    CountPairsAppend(Labels(|ownPred|, true), ownPred, Labels(|otherPred|, false), otherPred, a, b);
    CountPairsConstantTruth(|ownPred|, true, ownPred, a, b);
    CountPairsConstantTruth(|otherPred|, false, otherPred, a, b);
  }

  /**
   The loop over the users, with one round `step(model, user)`: each round
   starts from the model the previous round returned; the first failing
   round ends the run.
   */
  function Rounds<M>(model: M, users: seq<string>, step: (M, string) -> Result<(M, UserReport)>): (r: Result<(M, seq<UserReport>)>)
    ensures r.Ok? ==> |r.value.1| == |users|
    decreases |users|
  {
    if |users| == 0 then Ok((model, []))
    else
      match step(model, users[0])
      case Err(e) => Err(e)
      case Ok(first) =>
        match Rounds(first.0, users[1..], step)
        case Err(e) => Err(e)
        case Ok(rest) => Ok((rest.0, [first.1] + rest.1))
  }

  /**
   Round `k` of a successful run is `step` on user `k`, started from the
   model the rounds before it left behind.
   */
  lemma {:induction false} RoundAt<M>(model: M, users: seq<string>, step: (M, string) -> Result<(M, UserReport)>, k: nat)
    requires Rounds(model, users, step).Ok?
    requires k < |users|
    ensures var before := Rounds(model, users[..k], step);
      && before.Ok?
      && step(before.value.0, users[k]).Ok?
      && Rounds(model, users, step).value.1[k] == step(before.value.0, users[k]).value.1
    decreases k
  {
    var first := step(model, users[0]).value;
    if k == 0 {
      assert users[..0] == [];
    } else {
      var prefix := users[..k];
      assert prefix[0] == users[0] && prefix[1..] == users[1..][..k - 1];
      RoundAt(first.0, users[1..], step, k - 1);
    }
  }

  /** A round that fails after successful rounds before it ends the run with its error. */
  lemma {:induction false} RoundsStopAt<M>(model: M, users: seq<string>, step: (M, string) -> Result<(M, UserReport)>, k: nat)
    requires k < |users|
    requires Rounds(model, users[..k], step).Ok?
    requires step(Rounds(model, users[..k], step).value.0, users[k]).Err?
    ensures Rounds(model, users, step) == Err(step(Rounds(model, users[..k], step).value.0, users[k]).error)
    decreases k
  {
    if k > 0 {
      var prefix := users[..k];
      assert prefix[0] == users[0] && prefix[1..] == users[1..][..k - 1];
      var first := step(model, users[0]).value;
      RoundsStopAt(first.0, users[1..], step, k - 1);
    } else {
      assert users[..0] == [];
    }
  }

  /** Round `k` fails after every round before it succeeded. */
  predicate RoundFailsAfter<M>(model: M, users: seq<string>, step: (M, string) -> Result<(M, UserReport)>, k: nat)
    requires k < |users|
  {
    Rounds(model, users[..k], step).Ok? && step(Rounds(model, users[..k], step).value.0, users[k]).Err?
  }

  /** A run fails only at some round that follows successful ones: the run fails iff some round does. */
  lemma {:induction false} RoundsFailAt<M>(model: M, users: seq<string>, step: (M, string) -> Result<(M, UserReport)>)
    requires Rounds(model, users, step).Err?
    ensures exists k :: 0 <= k < |users| && RoundFailsAfter(model, users, step, k)
    decreases |users|
  {
    assert users[..0] == [];
    if step(model, users[0]).Ok? {
      var first := step(model, users[0]).value;
      RoundsFailAt(first.0, users[1..], step);
      var j :| 0 <= j < |users[1..]| && RoundFailsAfter(first.0, users[1..], step, j);
      var prefix := users[..j + 1];
      assert prefix[0] == users[0] && prefix[1..] == users[1..][..j];
      assert users[j + 1] == users[1..][j];
      assert Rounds(model, prefix, step).value.0 == Rounds(first.0, users[1..][..j], step).value.0;
      assert RoundFailsAfter(model, users, step, j + 1);
    } else {
      assert RoundFailsAfter(model, users, step, 0);
    }
  }

  /** One user's whole round: select that user's data, then `TrainUser`. */
  function UserRound<M(!new), D>(train: seq<Row>, test: seq<Row>, pool: (seq<Row>, seq<Row>), column: Row -> D,
                           characterize: (M, seq<D>, seq<D>) -> Result<M>, infer: (M, seq<D>) -> Result<seq<bool>>):
    (step: (M, string) -> Result<(M, UserReport)>)
    ensures forall model, user :: step(model, user) == TrainUser(model, SelectData(train, test, pool, user, column), user, characterize, infer)
  {
    (model, user) => TrainUser(model, SelectData(train, test, pool, user, column), user, characterize, infer)
  }

  /** Every report of a successful run belongs to the user of its round, in the users' order. */
  lemma ReportsInOrder<M(!new), D>(model: M, train: seq<Row>, test: seq<Row>, pool: (seq<Row>, seq<Row>), users: seq<string>,
                             column: Row -> D, characterize: (M, seq<D>, seq<D>) -> Result<M>,
                             infer: (M, seq<D>) -> Result<seq<bool>>)
    requires Rounds(model, users, UserRound(train, test, pool, column, characterize, infer)).Ok?
    ensures var reports := Rounds(model, users, UserRound(train, test, pool, column, characterize, infer)).value.1;
      |reports| == |users| && forall k :: 0 <= k < |users| ==> reports[k].user == users[k]
  {
    var step := UserRound(train, test, pool, column, characterize, infer);
    forall k | 0 <= k < |users| ensures Rounds(model, users, step).value.1[k].user == users[k] {
      RoundAt(model, users, step, k);
    }
  }

  /**
   A `characterize` that fails for user `k`, after the rounds before it
   succeeded, ends the whole run with its error: no later user is trained.
   */
  lemma CharacterizeFailureEndsRun<M(!new), D>(model: M, train: seq<Row>, test: seq<Row>, pool: (seq<Row>, seq<Row>),
                                               users: seq<string>, column: Row -> D,
                                               characterize: (M, seq<D>, seq<D>) -> Result<M>,
                                               infer: (M, seq<D>) -> Result<seq<bool>>, k: nat)
    requires k < |users|
    requires Rounds(model, users[..k], UserRound(train, test, pool, column, characterize, infer)).Ok?
    requires var before := Rounds(model, users[..k], UserRound(train, test, pool, column, characterize, infer)).value.0;
      var u := SelectData(train, test, pool, users[k], column);
      characterize(before, u.ownTrain, u.otherTrain).Err?
    ensures var before := Rounds(model, users[..k], UserRound(train, test, pool, column, characterize, infer)).value.0;
      var u := SelectData(train, test, pool, users[k], column);
      Rounds(model, users, UserRound(train, test, pool, column, characterize, infer)) ==
        Err(characterize(before, u.ownTrain, u.otherTrain).error)
  {
    RoundsStopAt(model, users, UserRound(train, test, pool, column, characterize, infer), k);
  }

  /**
   `train_models` after loading. The output directory is joined with the
   file prefix before anything else, so a missing one (the default `None`)
   fails with TypeError before any data is read. Otherwise: split the rows with `train_test_split`
   (test fraction 0.4, the seeded permutation given), split the negative
   rows the same way when a negative pool is given, default the users to
   the distinct training names (in first-appearance order), and run the
   rounds; the reports follow the users' order.
   */
  function TrainModels<M(!new), D>(model: M, outputDirectory: Option<string>,
                             rows: seq<Row>, perm: seq<nat>, negative: Option<(seq<Row>, seq<nat>)>,
                             users: Option<seq<string>>, column: Row -> D,
                             characterize: (M, seq<D>, seq<D>) -> Result<M>,
                             infer: (M, seq<D>) -> Result<seq<bool>>): (r: Result<(M, seq<UserReport>)>)
    requires IsPermutation(perm, |rows|)
    requires negative.Some? ==> IsPermutation(negative.value.1, |negative.value.0|)
    ensures outputDirectory.None? ==> r == Err(TypeError)
    ensures outputDirectory.Some? && TrainTestSplit(rows, perm, 0.4).Err? ==> r == Err(TrainTestSplit(rows, perm, 0.4).error)
    ensures TrainTestSplit(rows, perm, 0.4).Err? ==> r.Err?
    ensures r.Ok? && users.None? ==>
      TrainTestSplit(rows, perm, 0.4).Ok? && |r.value.1| == |UniqueNames(TrainTestSplit(rows, perm, 0.4).value.0)|
    ensures r.Ok? && users.Some? ==> |r.value.1| == |users.value|
    ensures r.Ok? ==> var names := if users.Some? then users.value else UniqueNames(TrainTestSplit(rows, perm, 0.4).value.0);
      forall k :: 0 <= k < |r.value.1| ==> r.value.1[k].user == names[k]
  {
    if outputDirectory.None? then Err(TypeError)
    else match TrainTestSplit(rows, perm, 0.4)
    case Err(e) => Err(e)
    case Ok(split) =>
      var pool := if negative.None? then Ok(split) else TrainTestSplit(negative.value.0, negative.value.1, 0.4);
      match pool
      case Err(e) => Err(e)
      case Ok(p) =>
        var names := if users.Some? then users.value else UniqueNames(split.0);
        var run := Rounds(model, names, UserRound(split.0, split.1, p, column, characterize, infer));
        if run.Ok? then
          ReportsInOrder(model, split.0, split.1, p, names, column, characterize, infer);
          run
        else run
  }
}

=== FILE: vectors.dfy ===
/**
 Embedding vectors as sequences of reals, the inner product, means and
 normalisation. Reals idealise numpy's float64; the one floating-point
 effect that matters to the models, the NaN produced by normalising an
 all-zero vector (0/0), is modelled explicitly by `Score` and `Direction`.
 */
module Vectors {

  type Vector = seq<real>

  /** Every vector of `vs` has dimension `d`. */
  predicate Dim(vs: seq<Vector>, d: nat) {
    forall i :: 0 <= i < |vs| ==> |vs[i]| == d
  }

  /** `np.inner` of two vectors of one dimension, as a sum from the front. */
  function Inner(a: Vector, b: Vector): real
    requires |a| == |b|
  {
    if |a| == 0 then 0.0 else a[0] * b[0] + Inner(a[1..], b[1..])
  }

  function Scale(c: real, v: Vector): (r: Vector)
    ensures |r| == |v|
  {
    seq(|v|, i requires 0 <= i < |v| => c * v[i])
  }

  function Add(a: Vector, b: Vector): (r: Vector)
    requires |a| == |b|
    ensures |r| == |a|
  {
    seq(|a|, i requires 0 <= i < |a| => a[i] + b[i])
  }

  function Zeros(d: nat): (r: Vector)
    ensures |r| == d
  {
    seq(d, i => 0.0)
  }

  predicate IsZero(v: Vector) {
    forall i :: 0 <= i < |v| ==> v[i] == 0.0
  }

  /** Component `j` of the vectors of `vs`, added up. */
  function ColumnSum(vs: seq<Vector>, j: nat): real
    requires forall i :: 0 <= i < |vs| ==> j < |vs[i]|
  {
    if |vs| == 0 then 0.0 else vs[0][j] + ColumnSum(vs[1..], j)
  }

  /** The vector sum of a corpus: every component is the column sum. */
  function Sum(vs: seq<Vector>, d: nat): (r: Vector)
    requires Dim(vs, d)
    ensures |r| == d
    ensures forall j :: 0 <= j < d ==> r[j] == ColumnSum(vs, j)
  {
    if |vs| == 0 then Zeros(d) else Add(vs[0], Sum(vs[1..], d))
  }

  /** `np.asarray(corpus).mean(axis=0)`: the component-wise mean. */
  function Mean(vs: seq<Vector>, d: nat): (r: Vector)
    requires |vs| > 0 && Dim(vs, d)
    ensures |r| == d
    ensures forall j :: 0 <= j < d ==> r[j] == ColumnSum(vs, j) / (|vs| as real)
  {
    Scale(1.0 / (|vs| as real), Sum(vs, d))
  }

  /** A square-root oracle: non-negative, and squaring it gives the argument back. */
  ghost predicate IsSqrt(sqrt: real -> real) {
    forall x: real :: 0.0 <= x ==> 0.0 <= sqrt(x) && sqrt(x) * sqrt(x) == x
  }

  /** A similarity as numpy computes it: a number, or NaN. */
  datatype Score = Num(value: real) | NaN

  /** `s < t`; false for NaN, as in IEEE 754. */
  predicate Below(s: Score, t: real) {
    s.Num? && s.value < t
  }

  /** `s > t`; false for NaN, as in IEEE 754. */
  predicate Above(s: Score, t: real) {
    s.Num? && s.value > t
  }

  /**
   The result of `v / np.sqrt(np.inner(v, v))`: a unit vector, or, when `v`
   is all zeros, the all-NaN vector of the same dimension.
   */
  datatype Direction = Unit(v: Vector) | Undefined(dim: nat) {
    function Dimension(): nat {
      match this
      case Unit(v) => |v|
      case Undefined(d) => d
    }
  }

  /** `np.inner(direction, w)`: NaN whenever the direction is. */
  function Similarity(u: Direction, w: Vector): (s: Score)
    requires u.Dimension() == |w|
    ensures s.NaN? <==> u.Undefined?
  {
    match u
    case Unit(v) => Num(Inner(v, w))
    case Undefined(_) => NaN
  }

  /** Divides `v` by its Euclidean norm. */
  function Normalize(v: Vector, sqrt: real -> real): (r: Direction)
    requires IsSqrt(sqrt)
    ensures r.Dimension() == |v|
    ensures r.Undefined? <==> IsZero(v)
    ensures r.Unit? ==> Inner(r.v, r.v) == 1.0
    ensures r.Unit? ==> Scale(sqrt(Inner(v, v)), r.v) == v
  {
    var q := Inner(v, v);
    InnerSelfZero(v);
    if q == 0.0 then Undefined(|v|)
    else
      var n := sqrt(q);
      assert n * n == q;
      var u := Scale(1.0 / n, v);
      NormalizedIsUnit(v, n, u);
      Unit(u)
  }

  lemma NormalizedIsUnit(v: Vector, n: real, u: Vector)
    requires n > 0.0 || n < 0.0
    requires n * n == Inner(v, v)
    requires u == Scale(1.0 / n, v)
    ensures Inner(u, u) == 1.0
    ensures Scale(n, u) == v
  {
    var c := 1.0 / n;
    assert c * n == 1.0;
    InnerScaleLeft(c, v, u);
    InnerSymmetric(v, u);
    InnerScaleLeft(c, v, v);
    assert Inner(u, u) == c * Inner(v, u) == c * (c * Inner(v, v));
    SquareOfInverse(c, n);
    ScaleInverse(v, n, c);
  }

  lemma SquareOfInverse(c: real, n: real)
    requires c * n == 1.0
    ensures c * (c * (n * n)) == 1.0
  {
    assert c * (c * (n * n)) == (c * n) * (c * n);
  }

  lemma ScaleInverse(v: Vector, n: real, c: real)
    requires n * c == 1.0
    ensures Scale(n, Scale(c, v)) == v
  {
    forall i | 0 <= i < |v|
      ensures Scale(n, Scale(c, v))[i] == v[i]
    {
      assert n * (c * v[i]) == (n * c) * v[i];
    }
  }

  lemma {:induction false} InnerScaleLeft(c: real, a: Vector, b: Vector)
    requires |a| == |b|
    ensures Inner(Scale(c, a), b) == c * Inner(a, b)
  {
    if |a| > 0 {
      forall i | 0 <= i < |a| - 1 ensures Scale(c, a)[1..][i] == Scale(c, a[1..])[i] { }
      assert Scale(c, a)[1..] == Scale(c, a[1..]);
      InnerScaleLeft(c, a[1..], b[1..]);
    }
  }

  lemma {:induction false} InnerSymmetric(a: Vector, b: Vector)
    requires |a| == |b|
    ensures Inner(a, b) == Inner(b, a)
  {
    if |a| > 0 {
      InnerSymmetric(a[1..], b[1..]);
    }
  }

  /** `Inner(v, v)` is a sum of squares: never negative, zero only for the zero vector. */
  lemma {:induction false} InnerSelfZero(v: Vector)
    ensures Inner(v, v) >= 0.0
    ensures Inner(v, v) == 0.0 <==> IsZero(v)
  {
    if |v| > 0 {
      InnerSelfZero(v[1..]);
      assert v[0] * v[0] >= 0.0;
      if IsZero(v) {
        assert IsZero(v[1..]) by {
          forall i | 0 <= i < |v[1..]| ensures v[1..][i] == 0.0 { assert v[1..][i] == v[i + 1]; }
        }
      }
      if Inner(v, v) == 0.0 {
        assert v[0] * v[0] == 0.0;
        ProductZero(v[0], v[0]);
        assert IsZero(v[1..]);
        forall i | 0 <= i < |v| ensures v[i] == 0.0 {
          if i > 0 { assert v[i] == v[1..][i - 1]; }
        }
      }
    }
  }

  lemma ProductZero(a: real, b: real)
    requires a * b == 0.0
    ensures a == 0.0 || b == 0.0
  {
  }

  /** The zero vector is orthogonal to everything. */
  lemma {:induction false} InnerZeroLeft(a: Vector, b: Vector)
    requires |a| == |b| && IsZero(a)
    ensures Inner(a, b) == 0.0
  {
    if |a| > 0 {
      InnerZeroLeft(a[1..], b[1..]);
    }
  }

  lemma {:induction false} ColumnSumCopies(v: Vector, n: nat, j: nat)
    requires j < |v|
    ensures ColumnSum(seq(n, _ => v), j) == (n as real) * v[j]
  {
    if n > 0 {
      assert seq(n, _ => v)[1..] == seq(n - 1, _ => v);
      ColumnSumCopies(v, n - 1, j);
    }
  }

  /** A corpus of `n > 0` copies of one vector has that vector as its mean. */
  lemma MeanOfCopies(v: Vector, n: nat)
    requires n > 0
    ensures Dim(seq(n, _ => v), |v|)
    ensures Mean(seq(n, _ => v), |v|) == v
  {
    var m := Mean(seq(n, _ => v), |v|);
    forall j | 0 <= j < |v| ensures m[j] == v[j] {
      ColumnSumCopies(v, n, j);
    }
  }

  /** Normalising a vector that already has unit norm gives it back. */
  lemma NormalizeUnitVector(v: Vector, sqrt: real -> real)
    requires IsSqrt(sqrt)
    requires Inner(v, v) == 1.0
    ensures Normalize(v, sqrt) == Unit(v)
  {
    var s := sqrt(1.0);
    assert 0.0 <= s && s * s == 1.0;
    assert (s - 1.0) * (s + 1.0) == s * s - 1.0;
    ProductZero(s - 1.0, s + 1.0);
    InnerSelfZero(v);
    var u := Normalize(v, sqrt).v;
    forall i | 0 <= i < |v| ensures u[i] == v[i] {
      assert Scale(1.0, u)[i] == v[i];
    }
  }
}

=== FILE: wrappers.dfy ===
/** Option and Result types, and the Python exceptions the modelled code can raise. */
module Wrappers {

  datatype Option<+T> = None | Some(value: T)

  /** The exceptions (or library errors) the modelled Python code raises. */
  datatype Error =
    | KeyError(key: string)          // a dictionary lookup of a missing key
    | AttributeError(name: string)   // reading an attribute that was never assigned
    | NameError(name: string)        // reading a module-level name that does not exist
    | TypeError                      // e.g. `' '.join(None)` or joining a non-string path
    | MissingEmbeddedCorpus          // the explicit `raise` of the clustered model
    | ClusteringError                // KMeans asked for no clusters, or for more clusters than samples
    | EmptyVocabulary                // a vectorizer fit that finds no terms
    | NothingToConcatenate           // `pd.concat` of an empty list of frames
    | EmptyTrainSplit                // a train/test split that leaves no training rows
    | ThresholdKeyError(threshold: real)  // a threshold missing from a dictionary keyed by threshold
    | ValueError                     // a shape check: unequal truth and predictions, an empty array to fit or
                                     // predict, or column names for a frame without columns
    | IndexError                     // reading a cell of a confusion matrix smaller than 2x2

  datatype Result<+T> = Ok(value: T) | Err(error: Error)
}
